=== FILE: README.md ===
# Exam scheduler core, modelled in Dafny

The system builds exam timetables for a university. Each course has two
exam sittings: moed A, and moed B later. Courses are listed by "majors"
(study tracks), semester by semester, and each listing carries a
requirement type: mandatory (hova), mandatory-elective (bhirat hova) or
elective (bhira). Two exams on the same day collide when one major lists
both courses in the same semester. The collision's weight depends on the
pair of requirement types.

The model covers these pieces:

- `objects.dfy` (`Objects`): the domain objects. These are the requirement
  types, the collision table and its weights, courses with the majors that
  list them, and majors with their per-semester course maps.
- `csv_loader.dfy` (`CsvLoader`): the loader of the majors table. Three
  header rows are followed by one row per major. Each row has three cells
  per semester, one per requirement type, and each cell holds ", "-separated
  course numbers.
- `state_loader.dfy` (`StateLoader`): the loader of an existing timetable.
  - The first row gives the two exam periods unless bounds are passed in.
  - Every other row gives a course (matched on the first five characters of
    its number) and its two dates.
  - A date is parsed leniently: month/day order is swapped when needed,
    year-first dates are accepted, two-digit years are widened, and the
    parsed date must fall within the period widened by nine days.
- `state_stats.dfy` (`StateStats`): statistics of a timetable. These are the
  collision report (major → semester → colliding pairs), the per-major
  collision counts, the average gap in days between exams of one type per
  semester, and the mean of those averages ignoring `inf`.
- `genetic.dfy` (`Genetic`): the genetic solver's operators.
  - selection biased towards the front of the ranking
  - half-and-half crossover
  - one-date mutation
  - choice of the final individual
  - export as date → set of courses
- `annealing.dfy` (`Annealing`): the simulated-annealing solver.
  - the three neighbourhood moves (swap, move both dates, move one date)
  - linear cooling
  - the keep-or-revert step
  - the 10000-iteration loop that draws a new generator every 1000 steps
- `backtracking.dfy` (`Backtracking`): the constraint-satisfaction solver.
  - the goal test
  - the penalty update for unscheduled courses
  - choosing the ten best courses and dates
  - the recursive backtracker
- `ranking.dfy` (`Ranking`): Python's stable `sorted(..., key=value)` and
  the top-ten selection built on it.
- Support modules:
  - `odict.dfy` (`OrderedDict`): insertion-ordered dictionaries.
  - `text.dfy` (`Text`): `str.split(', ')`, `re.split` on a character class,
    decimal `int()` and string order.
  - `calendar.dfy` (`Calendar`): proleptic Gregorian dates as day ordinals.
  - `sorting.dfy` (`Sorting`): integer sort.
  - `schedule.dfy` (`Schedule`): a timetable as course → (moed A date,
    moed B date).
  - `wrappers.dfy` (`Wrappers`): `Option` and `Result`.

Modelling conventions:

- Dates are integer day ordinals, as `date.toordinal()` gives them, so a
  `timedelta` of n days is `+ n`.
- A course is identified by its number, because `Course.__eq__` and
  `__hash__` look at nothing else.
- Dictionaries whose iteration order matters are modelled as
  `ODict(keys, vals)`, which keeps insertion order.
- Every random draw is a parameter: geometric draws, `sample`, `choice`,
  `np.random.choice` and the Metropolis coin.
- The evaluators (`Evaluator`, `course_pair_evaluator`, `_cal_penalty`) are
  function parameters.
- Each solver is generic in the course type `K`.
- Most of the ways the Python code raises become `None` or `Err` results of
  the model. The exceptions the model does not reproduce are listed under
  "## Left out".

## Model

| member | source | states |
|---|---|---|
| Objects.WeightBounds | objects.py:39-45 | Every collision weight lies between NONE's 0 and HOVA_HOVA's 10000, and only NONE weighs nothing |
| Objects.ColType | objects.py:47-68 | `get_col_type` answers a real collision type, never NONE or None, for each of the nine ordered pairs of requirement types |
| Objects.ColTypeIsPairTable | objects.py:47-68 | The answer depends only on the unordered pair of types: it agrees with the six-entry table and is symmetric |
| Objects.BhovaBhovaIsHovaBhova | objects.py:39-53 | BHOVA_BHOVA repeats HOVA_BHOVA's value 100, so it is an alias: two mandatory-electives collide exactly as a mandatory and a mandatory-elective do, weight 100 |
| Objects.AddMajor | objects.py:117-121 | The first call for a major stores the tuple (sem, type); a later call appends a one-element list after the existing entries; other majors are untouched |
| Objects.CommonMajors | objects.py:124-127 | Exactly the majors both courses are listed in |
| Objects.CommonMajorsSymmetric | objects.py:124-127 | The common majors of a and b are those of b and a |
| Objects.AddMajorKeepsWellFormed | objects.py:117-121 | Every entry list keeps the tuple of the first call at its head; later calls never change that head |
| Objects.OverlapFirstEntries | objects.py:129-131 | NONE exactly when the two courses' first entries for the major differ |
| Objects.CourseOrderTotal | objects.py:156-173 | Comparing by number gives exactly one of <, ==, >, and equal courses hash alike |
| Objects.AddCourse | objects.py:89-90 | The course gets the given type in that semester, overwriting any earlier type, and the major keeps its identity and eight semesters |
| Objects.AddCourseFrame | objects.py:80-90 | Adding to one semester leaves the other seven unchanged and keeps every semester dictionary well formed |
| CsvLoader.Column | CSVdataloader.py:32-35 | Semester s's cells are columns 3s+1..3s+3 in the order mandatory, mandatory-elective, elective; the column determines the semester and the type |
| CsvLoader.CellCourses | CSVdataloader.py:33-43 | A cell yields no courses exactly when it is empty |
| CsvLoader.CellCoursesJoin | CSVdataloader.py:33-43 | A non-empty cell is its numbers joined by ", ", and no number contains the separator |
| CsvLoader.RecordCourse | CSVdataloader.py:59-67 | A known number reuses its course and keeps the key order; a new number is appended with a new course named "no name". The stored course keeps its number and name and its other majors; the major gets the tuple (sem, type) on its first sighting, else a nested [(sem, type)] appended |
| CsvLoader.RecordCourseGrows | CSVdataloader.py:59-67 | One iteration keeps one course per number stored under that number, and only extends the courses already stored |
| CsvLoader.RecordCoursesGrows | CSVdataloader.py:59-67 | A whole bucket keeps that invariant and only extends stored courses |
| CsvLoader.RecordCoursesKeys | CSVdataloader.py:59-67 | After a bucket the dictionary holds exactly the old numbers plus the listed ones, and unlisted numbers keep their course |
| CsvLoader.RecordCoursesMajor | CSVdataloader.py:59-67 | After a bucket every listed number's course records the major |
| CsvLoader.RecordInMajorFacts | CSVdataloader.py:59-66 | After a bucket the major's semester lists every number of the bucket with the bucket's type, and other numbers keep their type |
| CsvLoader.RecordInMajorFrame | CSVdataloader.py:59-66 | A bucket touches only its own semester of the major and keeps the major well formed |
| CsvLoader.AddCoursesConsistent | CSVdataloader.py:59-67 | A bucket keeps the course side and the major side agreeing: every number the major lists is stored with a course that records the major |
| CsvLoader.ReadSemLastTypeWins | CSVdataloader.py:30-47 | A number listed in several cells of one semester ends with the type of the cell read last (elective over mandatory-elective over mandatory), and the other semesters are untouched |
| CsvLoader.ReadSem | CSVdataloader.py:30-47 | Reading one semester adds to the course dictionary exactly the numbers in its three cells, and keeps the major's identity |
| CsvLoader.ReadSemFresh | CSVdataloader.py:30-47 | Read into an empty semester, the semester lists exactly the numbers of its three cells, each with the type of the last cell naming it; other semesters are untouched |
| CsvLoader.ReadSemRecordsMajor | CSVdataloader.py:30-47 | Every number of a semester's three cells ends up stored with a course that records the major |
| CsvLoader.ReadSemsFromGrows | CSVdataloader.py:27-28 | Reading the eight semesters of a row keeps the course-dictionary invariant and only extends stored courses |
| CsvLoader.ReadSemsFromSem | CSVdataloader.py:27-28 | After the eight semesters of a row are read, each semester holds exactly its own cells' numbers with the last cell's type |
| CsvLoader.ReadSemsFromKeys | CSVdataloader.py:27-28 | The row adds to the course dictionary exactly the numbers its major ends up listing |
| CsvLoader.ReadSemsFromConsistent | CSVdataloader.py:27-28 | Every number the row's major lists is stored with a course that records the major |
| CsvLoader.MajorNumsFromMeans | CSVdataloader.py:27-28 | The numbers of a major are exactly those some semester of it lists |
| CsvLoader.ReadRow | CSVdataloader.py:26-28 | A row appends one major, named by cell 0 and numbered by the row index, after the majors read before; the course keys grow by exactly the numbers that major lists |
| CsvLoader.ReadRowReads | CSVdataloader.py:26-28 | Every semester of the row's major lists exactly the numbers of that semester's cells, with the type of the last cell naming each |
| CsvLoader.ReadRowConsistent | CSVdataloader.py:26-28 | Every course the row's major lists is stored and records the major |
| CsvLoader.ReadRowInv | CSVdataloader.py:26-28 | Reading a row keeps the course-dictionary invariant and only extends stored courses |
| CsvLoader.ReadMajorRow | CSVdataloader.py:23-28 | One loop iteration: the invariant holds and courses only grow. One major for this row is appended, its semesters hold exactly the row's cells with the last cell's type, the course keys grow by exactly its numbers, and each of its courses records it |
| CsvLoader.AllNumsMeans | CSVdataloader.py:20-28 | A number is among all the majors' numbers iff some major lists it in some semester |
| CsvLoader.ParseStep | CSVdataloader.py:23-28 | After each row, the course keys are exactly the numbers the majors list, and every major is recorded in each of its courses |
| CsvLoader.Parse | CSVdataloader.py:20-28 | Rows 0-2 are skipped. Loading fails exactly when some later row has fewer than 25 cells, and then the first such row is reported. Otherwise data row j gives the j-th major (name = cell 0, number = j) whose semesters hold exactly the row's cells, with the type of the last cell naming each number. The course keys are exactly the numbers in the data rows' cells, one course per number, and every course records each major listing it |
| CsvLoader.CourseList | CSVdataloader.py:69-73 | The stored courses themselves, with their names and majors, in first-seen order; a course is listed iff it is stored, and no number appears twice |
| CsvLoader.PairWeightCalc | CSVdataloader.py:75-82 | With no common major the weight is 0. It is undefined exactly when some common major has equal first entries, where the overlap method falls past its early return; otherwise it is 0 |
| StateLoader.MakeDate | StateLoader.py:102 | A date exists exactly when all three parts are decimal integers forming a valid calendar date, and it is that date's ordinal |
| StateLoader.ParseDateParts | StateLoader.py:82-119 | A parsed date lies within the period widened by 9 days on each side. It is the month-first or the day-first reading of the normalised parts; the month-first reading wins whenever it is valid and in the window, and otherwise the day-first reading is taken exactly when it is valid and in the window |
| StateLoader.ParseDates | StateLoader.py:64-80 | A row yields dates iff both date cells split into exactly three parts and both parse within their widened periods, and then the dates are those two parses |
| StateLoader.OverflowIsNoDate | StateLoader.py:101-118 | Parts with a number above the C int range never form a date, so treating them as the OverflowError Python raises hides no date |
| StateLoader.ParseDatesRange | StateLoader.py:50-62 | The header gives bounds exactly when its first four cells are all month/day/year dates, and the bounds are those four dates in order |
| StateLoader.PrefixIndex | StateLoader.py:17 | The index keys are the five-character prefixes of the course numbers, and each key maps to a course with that prefix |
| StateLoader.PrefixIndexLast | StateLoader.py:17 | When several courses share a prefix, the last one listed wins |
| StateLoader.RowEntry | StateLoader.py:36-48 | A row writes something only when its number is indexed and both dates parse, and it writes the indexed course with those dates |
| StateLoader.LoadRows | StateLoader.py:32-48 | A failure names a data row from the current one on, never the header; success keeps every course already loaded |
| StateLoader.LoadRowsError | StateLoader.py:32-48 | Loading fails exactly when some row is too short to index or makes the date helper overflow (a part above the C int range, or a period within 9 days of the ends of the date range), and then at the first such row; the error says which |
| StateLoader.LoadRowsLastWins | StateLoader.py:32-48 | After loading, a course has dates exactly when some row wrote it (or it was there before), and they are the dates of the last row that wrote it |
| StateLoader.LoadRowsWellFormed | StateLoader.py:32-48 | The loaded dictionary is well formed, every date lies in its widened period, and every key is an indexed course |
| StateLoader.LoadRowsLoaded | StateLoader.py:32-48 | From an empty start, loading from row k fails exactly at the first failing row at or after k, and otherwise holds a course exactly when some row from k on wrote it, with the dates of the last such row |
| StateLoader.LoadState | StateLoader.py:15-48 | With bounds, every row from row 0 is data and the window is the bounds. Without them, row 0 is the header: a malformed one fails, else its dates are the window and the data start at row 1. An empty file loads nothing. Failure and contents are as for loading from that row; a loaded state is well formed and holds only courses from the given list |
| StateLoader.SplitFormatted | StateLoader.py:69-70 | A date written m<sep>d<sep>y with any of the five separators splits back into its three numbers |
| StateLoader.ParseFormattedDate | StateLoader.py:82-119 | A valid date written month-first that falls in the widened window is read back as itself |
| StateLoader.ParseYearFirst | StateLoader.py:91-97 | A valid date written year-first is read back as itself |
| StateLoader.ParseDayFirst | StateLoader.py:101-118 | A valid date written day-first with a day above 12 is read back as itself through the swapped reading |
| StateLoader.ParseCentury | StateLoader.py:99-100 | A two-digit year yy is read as 20yy |
| StateLoader.ParseDatesFormatted | StateLoader.py:64-80 | A row whose two date cells are formatted in-window dates yields exactly those dates |
| StateStats.SemMapKeys | state_stats.py:43-44 | The per-major semester map has exactly the semesters the course is listed in |
| StateStats.SemMapLast | state_stats.py:43-44 | A semester listed more than once keeps the type of its last listing |
| StateStats.Update | state_stats.py:12-19 | The pair is appended to the (major, semester) list, creating the missing levels, and every other list is unchanged |
| StateStats.OrderedPairsMembers | state_stats.py:33-35 | The loop visits exactly the pairs (keys[i], keys[j]) with i < j |
| StateStats.OrderedPairsDistinct | state_stats.py:33-35 | With distinct keys, no pair is visited twice |
| StateStats.PairLoopReports | state_stats.py:33-52 | The pair loop appends to each (major, semester) list exactly the reported pairs, in visiting order |
| StateStats.ReportsMembers | state_stats.py:33-52 | A visited pair is reported exactly when it is reportable, and no pair is reported twice |
| StateStats.GetCollisions | state_stats.py:22-53 | Each (major, semester) list is the reportable pairs among all pairs of courses in key order, in visiting order |
| StateStats.GetCollisionsSound | state_stats.py:22-53 | Every reported pair is two distinct-position courses with the same date in the moed, both listed by the major in that semester, whose types collide as asked; no pair is reported twice |
| StateStats.GetCollisionsComplete | state_stats.py:22-53 | Every such same-day pair of the requested collision type is reported |
| StateStats.GetCollStats | state_stats.py:96-123 | Four counts; the second and third are equal because BHOVA_BHOVA is the same member as HOVA_BHOVA |
| StateStats.CollStatsCount | state_stats.py:102-121 | Each count is the number of reportable pairs summed over the eight semesters |
| StateStats.TypeDatesMembers | state_stats.py:64-76 | The collected dates are exactly the dates of the semester's courses of the type that the timetable holds; courses it lacks are skipped |
| StateStats.TypeDatesCount | state_stats.py:64-76 | One date per such course |
| StateStats.SumGapsTelescopes | state_stats.py:83-85 | The summed day gaps of a sorted list are the last date minus the first |
| StateStats.BreakOfSpan | state_stats.py:77-87 | `inf` exactly when fewer than two dates; otherwise the span from the earliest to the latest date over (count - 1), never negative |
| StateStats.BreakOfTyped | state_stats.py:64-87 | The semester average is `inf` iff fewer than two typed courses are scheduled; else (latest - earliest date)/(count - 1) over those courses |
| StateStats.GetAverageBreak | state_stats.py:56-89 | One entry per semester |
| StateStats.AverageBreakEntry | state_stats.py:56-89 | Entry s is the average break of semester s's courses of the type, in the sense above |
| StateStats.AverageWithoutInf | state_stats.py:169-176 | 0 when every entry is `inf`, else the arithmetic mean of the finite entries |
| StateStats.FiniteMembers | state_stats.py:172-175 | The averaged values are exactly the finite entries |
| StateStats.MeanBounds | state_stats.py:169-176 | When every finite entry lies in [lo, hi] the mean does too |
| Genetic.SelectIndex | genetic_solver.py:60-62 | The geometric draw less one when it is inside the ranking, else the last position; always a valid position |
| Genetic.SelectIndexReach | genetic_solver.py:60-62 | Every position can be selected, and a draw never selects past its own value |
| Genetic.RandomSelect | genetic_solver.py:52-63 | The selected state is one of the ranked states |
| Genetic.FromFirstIff | genetic_solver.py:75 | With true division, position i is in the first half iff 2i < n |
| Genetic.Combine | genetic_solver.py:65-79 | The child has x's courses in x's order; the course at position i has x's dates when 2i < n and y's dates otherwise |
| Genetic.FirstHalfCount | genetic_solver.py:74-78 | ⌈n/2⌉ courses come from the first parent |
| Genetic.Mutate | genetic_solver.py:81-95 | Mutation keeps the timetable's courses and key order |
| Genetic.MutateEffect | genetic_solver.py:87-95 | Without the trigger nothing changes. With it, only the chosen course's date in the chosen moed moves, by -1, 0 or +1 day, and its other date and every other course stay put |
| Genetic.PickFinal | genetic_solver.py:25-27 | As written: the first individual of greatest evaluator value |
| Genetic.PickFinalPicksWorst | genetic_solver.py:48-50 | On fitnesses [1.0, 5.0] the as-written choice picks the 5.0 individual |
| Genetic.PickBest | genetic_solver.py:25-27 | Corrected: the first individual of least evaluator value |
| Genetic.PickBestPicksBest | genetic_solver.py:48-50 | On [1.0, 5.0] the corrected choice picks the 1.0 individual |
| Genetic.Solution | genetic_solver.py:48-50 | The returned state is a population member with the least penalty |
| Genetic.EmptyMapping | genetic_solver.py:28-29 | One empty set for every available date and no other keys |
| Genetic.ExportFrom | genetic_solver.py:28-32 | An export of the first n courses that succeeds has exactly the available dates as keys |
| Genetic.ExportFromSpec | genetic_solver.py:28-32 | Exporting the first n courses succeeds iff all their dates are available; then a course is under date d iff one of its two exams is on d |
| Genetic.ExportSolution | genetic_solver.py:24-33 | An exported mapping has exactly the available dates as keys |
| Genetic.ExportSolutionSpec | genetic_solver.py:24-33 | Export succeeds iff every exam date of the state is available (else KeyError); a course is under date d iff one of its exams is on d |
| Annealing.Sample | SAsolver.py:43 | Sampling fails iff more courses are asked for than exist; otherwise it gives n courses of the state, all distinct |
| Annealing.MovedSpec | SAsolver.py:50-61 | MOVE_TWO shifts both dates by the direction and keeps their gap; MOVE_ONE shifts the chosen moed's date only, so the pair changes |
| Annealing.Move | SAsolver.py:45-61 | A move keeps the courses and their order. SWAP exchanges the date pairs of the course and its partner; the other generators give the course its moved dates; every other course keeps its dates |
| Annealing.Successor | SAsolver.py:43-61 | A successor keeps the courses, their order and well-formedness |
| Annealing.SuccessorUntouched | SAsolver.py:43-61 | A course that was neither sampled nor a swap partner keeps its dates |
| Annealing.SuccessorMoves | SAsolver.py:50-61 | For the move generators, each sampled course ends with its dates moved once by its own draw |
| Annealing.MoveTwoKeepsGaps | SAsolver.py:50-53 | MOVE_TWO keeps every course's gap between moed A and moed B |
| Annealing.MoveOneChangesOneDate | SAsolver.py:54-61 | MOVE_ONE moves a sampled course's chosen date by ±1 and leaves its other date |
| Annealing.SwapKeepsBag | SAsolver.py:45-49 | SWAP only permutes date pairs between courses: the multiset of date pairs is unchanged |
| Annealing.SuccessorAsWritten | SAsolver.py:35-49 | As written: `course_list` is a `dict_keys` view, so SWAP's `choice` raises TypeError; a successor exists only for the move generators or an empty draw |
| Annealing.SwapAsWrittenRaises | SAsolver.py:35-49 | As written every SWAP with a sampled course fails, while the corrected SWAP only permutes date pairs; the move generators are unaffected |
| Annealing.ReduceTLin | SAsolver.py:87-89 | Every cooling step lowers the temperature |
| Annealing.DefaultCooling | SAsolver.py:87-94 | From 3000, after k steps the temperature is 3000 - k until it reaches 1, then falls by 0.0001 per step; it stays positive for all 10000 iterations |
| Annealing.CooledBelow | SAsolver.py:87-94 | After at least one step the temperature is below the start |
| Annealing.InitialT | SAsolver.py:91 | A given non-zero T0 is used, else 3000; never 0 |
| Annealing.Step | SAsolver.py:97-104 | Corrected step: a strictly better successor is kept. A worse or equal one is kept only when the Metropolis coin accepts it, else the old schedule returns. Without acceptance the penalty never rises. An accepted step ends on the successor |
| Annealing.StepAsWritten | SAsolver.py:97-104 | As written the iteration ends on the successor whatever the penalties and the coin |
| Annealing.StepAsWrittenKeepsEveryMove | SAsolver.py:97-104 | As written (orig_state aliases the dictionary at line 42), every successor is kept, even a strictly worse one the coin rejects |
| Annealing.IterationDraws | SAsolver.py:43-56 | An iteration draws 5 courses (`SubGroupN`) of the state, distinct when the keys are, and partners from the state |
| Annealing.Iterate | SAsolver.py:94-104 | One iteration keeps the courses and well-formedness; without an accepted coin the penalty does not rise |
| Annealing.IterateSteps | SAsolver.py:97-104 | One iteration on its own five sampled courses ends on their successor when the coin accepts or the successor's penalty is strictly lower, and otherwise on the old schedule |
| Annealing.Run | SAsolver.py:93-104 | The schedule after the iterations run so far, one per generator used: it keeps the courses and well-formedness |
| Annealing.RunSnoc | SAsolver.py:93-104 | One more loop pass is one more iteration on the schedule reached so far |
| Annealing.RunWithoutAcceptance | SAsolver.py:97-104 | When the coin accepts none of the iterations run, the final penalty is at most the starting one |
| Annealing.RunStep | SAsolver.py:97-104 | The loop's step on the schedule extends the run by one iteration with the generator in force |
| Annealing.SolveLoop | SAsolver.py:93-104 | After the loop, the temperature has cooled once per iteration, the generators follow the reselection rule, and the schedule is the run of every iteration |
| Annealing.SolvePass | SAsolver.py:93-104 | One pass of the loop cools once, reselects the generator at multiples of 1000, and extends the run by one iteration with that generator |
| Annealing.Solve | SAsolver.py:85-106 | Fails iff the state has fewer than 5 courses (`sample` raises ValueError). Otherwise the result is the run of all 10000 iterations, each with the generator in force at it, and courses are kept. With no accepted coin the penalty never rises. The final temperature is below T0, and positive from the default. The generator changes only at iterations 0, 1000, 2000, … and is the one drawn there |
| Backtracking.NewState | CSsolver.py:22-26 | Defined iff the course is in the state; the course gets the new dates and every other course keeps its own |
| Backtracking.IsPosGoalState | CSsolver.py:28-35 | A goal iff every listed course is scheduled with moed B at least 18 days after moed A |
| Backtracking.Without | CSsolver.py:75-79 | The remaining courses are drawn from the old ones and exclude the new course |
| Backtracking.WithoutKeeps | CSsolver.py:75-79 | Every other course is kept |
| Backtracking.WithoutPosition | CSsolver.py:75-79 | The key order is the old one with the new course's position cut out |
| Backtracking.UpdateCoursePenalties | CSsolver.py:66-81 | A new dictionary of every unscheduled course except the new one, each weight raised by its pair weight with the new course |
| Backtracking.UpdateCoursePenaltiesOrder | CSsolver.py:75-79 | Insertion order is kept, with the new course removed if present |
| Backtracking.DatePenalties | CSsolver.py:119-122 | One entry per moed A date, holding that date's penalty for the pair (d, d + 21) |
| Backtracking.TopTenDatesBy | CSsolver.py:111-124 | At most ten moed A dates, each one of the listed dates |
| Backtracking.TopTenDatesAsWritten | CSsolver.py:111-124 | As written: at most ten moed A dates |
| Backtracking.TopTenDatesAsWrittenWorstFirst | CSsolver.py:103-124 | As written the first date offered has the greatest penalty of all dates |
| Backtracking.TopTenDates | CSsolver.py:111-124 | Corrected: at most ten moed A dates |
| Backtracking.TopTenDatesBestFirst | CSsolver.py:103-124 | Corrected: the first date has the least penalty, and every offered date is no worse than any date left out |
| Backtracking.Backtrack | CSsolver.py:126-150 | For either sort direction of `_get_top_10`: the included set is restored on return. A goal state is the one solution. Every solution found is a goal state extending the current one only on unscheduled courses, with moed A a listed date and moed B 21 days later. Otherwise every pass for a course among the top ten has its solutions among the result |
| Backtracking.LoopCourses | CSsolver.py:144-150 | The same over the loop on the chosen courses from a position on; every later course's pass has its solutions (with multiplicity) among the result |
| Backtracking.CoursesCoveredJoin | CSsolver.py:144-150 | One course's pass followed by results covering the later courses covers the courses from that position |
| Backtracking.TryCourse | CSsolver.py:145-150 | A pass for a course finds only goal states extending the current one on unscheduled courses, and keeps every solution of each search on a date it offers |
| Backtracking.OfferedDates | CSsolver.py:111-124 | At most ten dates offered for a course, each a moed A date |
| Backtracking.LoopDates | CSsolver.py:147-149 | The same over the loop on the chosen dates of one course, from a position on; every later date's search has its solutions among the result |
| Backtracking.DatesCoveredJoin | CSsolver.py:147-149 | One date's search followed by results covering the later dates covers the dates from that position |
| Backtracking.DateSearch | CSsolver.py:148-149 | The recursive call for a placed date leaves the included set as it was and finds goal states extending the current one, with the placed course among the free ones |
| Backtracking.BacktrackComplete | CSsolver.py:141-150 | When the state is no goal, every solution found by the recursive call for a top-ten course on an offered date is among the state's solutions, as often as it was found there |
| Ranking.SortBySorted | CSsolver.py:108 | `sorted` by value gives an ordered permutation of the items |
| Ranking.SortByStable | CSsolver.py:108 | The sort is stable: items of equal value keep their relative order |
| Ranking.TopTen | CSsolver.py:103-109 | min(10, n) keys, all from the dictionary |
| Ranking.TopTenDistinct | CSsolver.py:103-109 | No key is returned twice |
| Ranking.TopTenOrdered | CSsolver.py:103-109 | The keys come in sort order of their values |
| Ranking.TopTenBest | CSsolver.py:103-109 | No left-out key sorts before a returned one |
| Text.JoinSplit | CSVdataloader.py:33 | Splitting on ", " and joining back gives the original text |
| Text.SplitPiecesHaveNoSep | CSVdataloader.py:33-35 | No piece contains the separator |
| Text.SplitIsEmptyPiece | CSVdataloader.py:37-43 | The split is [""] exactly for the empty string |
| Text.SplitAny | StateLoader.py:69-70 | Splitting on a character class gives one more piece than there are separator characters, none containing a separator |
| Text.ParseFormat | StateLoader.py:102 | `int` reads back the decimal rendering of every natural number |
| Text.LessTrichotomy | objects.py:166-170 | String order on course numbers is a strict total order |
| Calendar.FromYmd | StateLoader.py:102 | `date(y, m, d)` exists iff the triple is a valid Gregorian date, and its ordinal is at least 1 |
| Calendar.OrdinalOrder | StateLoader.py:103 | Ordinals compare as the dates do, both strictly and for equality |
| Sorting.SortInts | state_stats.py:77 | `list.sort` gives an ordered permutation |
| Schedule.Shift | genetic_solver.py:92-94 | Shifting one sitting's date leaves the other sitting's date alone |

## Left out

- Reading files (`open`, `csv.reader`) is left out: tables are given as lists of rows of cells.
- Plotting is left out (`coll_stat_graph`, `get_break_stats_graph` and the other matplotlib helpers in `state_stats.py`), and so are `print` calls, `prog_dunc` and the GUI and command-line scripts.
- Random number generation is left out: every draw is a parameter of the operation that uses it.
- The Metropolis test `uniform(0, 1) < exp(-|Δ| / T)` is a boolean parameter `accept`. Floating-point `exp` is not modelled.
- The evaluators are function parameters: the timetable penalty, `course_pair_evaluator` and `_cal_penalty` (CSsolver.py:83-101). The floating-point body of `_cal_penalty` is not modelled.
- `CSsolver.solve` (CSsolver.py:46-64) is left out. It reads `course.course_points`, which `Course` does not define, and the loaders' `moed_a_dates`, which are not part of this model. The backtracker it calls is modelled.
- `GeneticSolver.solve`'s outer loop (genetic_solver.py:35-47) is left out. Its operators (ranking, selection, crossover, mutation) and its final pick are modelled. The population is a sequence, not a set of states.
- `Annealing.Solve`'s generator draw at iteration 0 is the first element of `gens`. The generator name `None` never reaches `get_successor`.
- `Objects.OverlapFirstEntries`: past line 131, `get_overlap_type_for_major` reads `[1]` of the entry list `_majors_dict[major]` (objects.py:133). With one entry that raises IndexError. With more, `[1]` is the nested list `[(sem, type)]` that line 119 appends, so every `CourseType` comparison is false and the method returns `None`; `course_pair_weight_calc` (CSVdataloader.py:80) then raises AttributeError on `.value`. The model stops at the early return and gives `None` for every later path.
- `CsvLoader.PairWeightCalc`: states the weight only where the overlap method returns NONE. Elsewhere Python raises, and the model answers `None`.
- `StateStats.GetCollisions`: the source calls `Course.get_majors()`, which the shown `Course` class does not define. The model takes each course's majors with their (semester, type) listings as a parameter.
- `StateStats.AverageWithoutInf`: the mean is an exact real; float rounding of the sum and the division is not modelled.
- `StateStats.GetAverageBreak`: entries are exact fractions (`Mean(total, gaps)`) or `Inf`; float rounding is not modelled.
- `Annealing.DefaultCooling`: the temperature is an exact real; the float rounding of subtracting 0.0001 is not modelled.
- `Backtracking.IsPosGoalState`: the date difference is compared as a number of days. The source compares a `timedelta` with the `int` 18 (CSsolver.py:33), which raises TypeError in Python 3; its comment marks this as a to-do.
- `Backtracking.NewState`: reads `courses_dict[::]` as a copy of the dictionary; slicing a `dict` raises TypeError in Python.
- `Backtracking.Backtrack`: `self.solutions` is a sequence in discovery order, not a set. The model assumes a set is passed as `courses_included`. The one outside caller, `solve` (CSsolver.py:61-63), passes none, so the default `None` reaches `.add` at line 146 and raises AttributeError.
- `Genetic.CombinePre`: requires that `y` has every course of `x`'s second half. For a `y` lacking one, Python raises KeyError at genetic_solver.py:78; the model does not describe that case.
- `Backtracking.Ready`: requires every course still to place to be in the state and not yet included. For a course that is not, `new_state` raises AssertionError at CSsolver.py:23; the model does not describe that case.
- `Genetic.Mutate`: modelled as a function returning the mutated state. The source mutates its argument in place and returns it.
- `Annealing.Sample`: samples from the course key list. Whether `sample` accepts the `dict_keys` view depends on the Python version (3.9 and 3.10 warn, 3.11 and later raise TypeError); the model follows the versions that accept it, and fails only when more courses are asked for than exist.
- `StateLoader.RowOverflows`: a date part of more than 4300 digits counts as an overflow. Python versions with the integer string conversion limit (3.11, and 3.10.7 on) raise ValueError in `int()` first, which the helper catches, so such a row is skipped instead.
- StateLoader: `int()` accepts only non-empty runs of ASCII digits. Python also accepts signs, surrounding whitespace, underscores and non-ASCII digits.
- StateLoader: the helper's docstring speaks of ±3 days, but the code widens each period by 9 days; the model follows the code.
- CsvLoader: `_parse` iterates `Semester`, which `objects.py` does not define (it defines `MajorSemester`). The model reads the eight semesters SEM1..SEM8 in order.
- `csv_loader`'s majors list: the source keeps majors reachable only through the courses that reference them. The model also lists them per row, in order.

## Findings

| source | as written | input that shows it | evidently intended | confidence | as-written member | corrected member |
|---|---|---|---|---|---|---|
| genetic_solver.py:48-50 | The final individual is `sorted(..., reverse=True)[0]`, the greatest evaluator value, and `export_solution` (lines 25-27) does the same | Two individuals with penalties 1.0 and 5.0: the 5.0 one is returned | The least penalty. Selection ranks ascending (lines 38-39) so that position 0, the likeliest pick, is the least value, and the other solvers treat the evaluator as a penalty to minimise. The docstrings (lines 16 and 58) call the value a fitness where high is good, which would favour the code as written; the ranking at lines 38-39 and `_random_select` contradict that reading | not executed | Genetic.PickFinalPicksWorst | Genetic.Solution |
| SAsolver.py:97-104 | `orig_state` wraps the same dictionary that `get_successor` then mutates (line 42), so "reverting" keeps the move and both penalties are of the new schedule | A successor with a higher penalty and a rejecting coin: the worse schedule is kept | Keep a worse successor only with the Metropolis probability, else go back to the previous schedule | not executed | Annealing.StepAsWrittenKeepsEveryMove | Annealing.Step |
| CSsolver.py:103-124 | `_get_top_10` defaults to `reverse=True`, returning the highest values, and `_top_ten_dates2check` and `_backtracker` use the default | Two dates with penalties 0 and 100: the 100 date is tried first | The lowest values: the docstring says "lowest values", the to-do at line 124 asks for lowest-penalty days, and `_backtracker`'s docstring says "min penalty". The backtracker takes the direction as `ctx.desc`: true is the code as written, false the intended order | not executed | Backtracking.TopTenDatesAsWrittenWorstFirst | Backtracking.TopTenDatesBestFirst |
| SAsolver.py:35-49 | `course_list` is `courses_dict.keys()`, and SWAP draws its partner with `random.choice(self.course_list)`; `choice` indexes its argument, and a `dict_keys` view cannot be indexed | Any SWAP iteration: `choice` raises TypeError | Draw the partner from the courses, e.g. from `list(self.course_list)` | not executed | Annealing.SwapAsWrittenRaises | Annealing.SwapKeepsBag |

=== FILE: annealing.dfy ===
/** The simulated-annealing solver: the three neighbourhood moves of
    `SAstate.get_successor`, the linear cooling step and the keep-or-revert
    decision of `solve`. Samples, choices and the Metropolis coin are
    parameters. */
module Annealing {
  import opened Wrappers
  import opened OrderedDict
  import opened Schedule

  /** The three successor generators. */
  datatype Generator = Swap | MoveTwo | MoveOne

  const Generators: seq<Generator> := [Swap, MoveTwo, MoveOne]
  const DefaultT0: real := 3000.0
  const IterationN: nat := 10000
  const SubGroupN: nat := 5
  /** `solve` draws a new generator every this many iterations. */
  const ReselectEvery: nat := 1000

  /** The draws made for one sampled course: the course, the swap partner
      `choice(course_list)`, the direction `choice([-1, 1])` and the period
      `choice([0, 1])`. Each generator reads only the draws it needs. */
  datatype Draw<K> = Draw(course: K, partner: K, direction: int, moed: Moed)

  /** `random.sample(keys, n)`: the keys at `n` distinct positions, or None
      where Python raises ValueError because `n` exceeds the population. */
  function Sample<K>(keys: seq<K>, n: nat, positions: seq<nat>): (r: Option<seq<K>>)
    requires n <= |keys| ==>
      |positions| == n && Distinct(positions) && forall i :: 0 <= i < n ==> positions[i] < |keys|
    ensures r.None? <==> n > |keys|
    ensures r.Some? ==> |r.value| == n && forall i :: 0 <= i < n ==> r.value[i] in keys
    ensures r.Some? && Distinct(keys) ==> Distinct(r.value)
  {
    if n > |keys| then None
    else Some(seq(n, i requires 0 <= i < n => keys[positions[i]]))
  }

  /** Every course a draw names is scheduled. */
  predicate DrawsIn<K>(s: State<K>, draws: seq<Draw<K>>) {
    forall i :: 0 <= i < |draws| ==> draws[i].course in s.vals && draws[i].partner in s.vals
  }

  /** The new dates of a course moved by MOVE_TWO (both dates) or MOVE_ONE
      (the date of period `moed` only). */
  function Moved(p: DatePair, gen: Generator, direction: int, moed: Moed): (r: DatePair)
    requires gen != Swap
  {
    if gen == MoveTwo then DatePair(p.a + direction, p.b + direction)
    else Shift(p, moed, direction)
  }

  /** MOVE_TWO keeps the distance between the two exams and moves both by the
      direction; MOVE_ONE moves exactly the chosen date by the direction. */
  lemma MovedSpec(p: DatePair, gen: Generator, direction: int, moed: Moed)
    requires gen != Swap && direction in {-1, 1}
    ensures gen == MoveTwo ==>
      && Moved(p, gen, direction, moed).b - Moved(p, gen, direction, moed).a == p.b - p.a
      && Moved(p, gen, direction, moed).a == p.a + direction
    ensures gen == MoveOne ==>
      && DateIn(Moved(p, gen, direction, moed), moed) == DateIn(p, moed) + direction
      && DateIn(Moved(p, gen, direction, moed), Other(moed)) == DateIn(p, Other(moed))
      && Moved(p, gen, direction, moed) != p
  {
  }

  /** The move of one sampled course. SWAP exchanges its dates with the
      partner's (nothing changes when the partner is the course itself); the
      moves give the course its moved dates. No other course changes. */
  function Move<K>(s: State<K>, gen: Generator, d: Draw<K>): (r: State<K>)
    requires d.course in s.vals && d.partner in s.vals
    ensures r.keys == s.keys && r.vals.Keys == s.vals.Keys
    ensures gen == Swap ==>
      r.vals[d.course] == s.vals[d.partner] && r.vals[d.partner] == s.vals[d.course]
    ensures gen != Swap ==> r.vals[d.course] == Moved(s.vals[d.course], gen, d.direction, d.moed)
    ensures forall k :: k in s.vals && k != d.course && (gen == Swap ==> k != d.partner) ==>
      r.vals[k] == s.vals[k]
  {
    var p := s.vals[d.course];
    match gen
    case Swap => Put(Put(s, d.course, s.vals[d.partner]), d.partner, p)
    case _ => Put(s, d.course, Moved(p, gen, d.direction, d.moed))
  }

  /** `get_successor`: the sampled courses moved one after the other. */
  function Successor<K>(s: State<K>, gen: Generator, draws: seq<Draw<K>>): (r: State<K>)
    requires DrawsIn(s, draws)
    ensures r.keys == s.keys && r.vals.Keys == s.vals.Keys
    ensures Valid(s) ==> Valid(r)
    decreases |draws|
  {
    if draws == [] then s
    else Successor(Move(s, gen, draws[0]), gen, draws[1..])
  }

  /** `get_successor` as written. `course_list` is the `dict_keys` view of the
      schedule (SAsolver.py:35) and `choice` indexes its argument, which a
      view does not allow: SWAP raises TypeError at its first sampled course.
      MOVE_TWO and MOVE_ONE never pass the view to `choice`. */
  function SuccessorAsWritten<K>(s: State<K>, gen: Generator, draws: seq<Draw<K>>): (r: Option<State<K>>)
    requires DrawsIn(s, draws)
    ensures r.Some? ==> r.value.keys == s.keys && r.value.vals.Keys == s.vals.Keys
  {
    if gen == Swap && draws != [] then None else Some(Successor(s, gen, draws))
  }

  /** As written SWAP never yields a successor, while swapping on the list of
      keys does and keeps the dates of the schedule as a multiset; the moves
      agree with the corrected successor. */
  lemma SwapAsWrittenRaises<K>(s: State<K>, gen: Generator, draws: seq<Draw<K>>)
    requires Valid(s) && DrawsIn(s, draws)
    ensures gen == Swap && draws != [] ==> SuccessorAsWritten(s, gen, draws).None?
    ensures gen == Swap ==>
      Bag(Successor(s, gen, draws).keys, Successor(s, gen, draws).vals) == Bag(s.keys, s.vals)
    ensures gen != Swap ==> SuccessorAsWritten(s, gen, draws) == Some(Successor(s, gen, draws))
  {
    if gen == Swap {
      SwapKeepsBag(s, draws);
    }
  }

  /** A course no draw touches keeps its dates. */
  lemma {:induction false} SuccessorUntouched<K>(s: State<K>, gen: Generator, draws: seq<Draw<K>>, k: K)
    requires DrawsIn(s, draws) && k in s.vals
    requires forall i :: 0 <= i < |draws| ==> draws[i].course != k && (gen == Swap ==> draws[i].partner != k)
    ensures Successor(s, gen, draws).vals[k] == s.vals[k]
    decreases |draws|
  {
    if draws != [] {
      SuccessorUntouched(Move(s, gen, draws[0]), gen, draws[1..], k);
    }
  }

  /** The sampled courses are distinct. */
  predicate DistinctCourses<K(==)>(draws: seq<Draw<K>>) {
    forall i, j :: 0 <= i < j < |draws| ==> draws[i].course != draws[j].course
  }

  /** Under MOVE_TWO and MOVE_ONE each of the distinct sampled courses is
      moved once, by its own draws. */
  lemma {:induction false} SuccessorMoves<K>(s: State<K>, gen: Generator, draws: seq<Draw<K>>, i: nat)
    requires gen != Swap && DrawsIn(s, draws) && DistinctCourses(draws) && i < |draws|
    ensures Successor(s, gen, draws).vals[draws[i].course] ==
      Moved(s.vals[draws[i].course], gen, draws[i].direction, draws[i].moed)
    decreases |draws|
  {
    var s1 := Move(s, gen, draws[0]);
    if i == 0 {
      SuccessorUntouched(s1, gen, draws[1..], draws[0].course);
    } else {
      SuccessorMoves(s1, gen, draws[1..], i - 1);
    }
  }

  /** MOVE_TWO keeps every course's moed B - moed A gap. */
  lemma {:induction false} MoveTwoKeepsGaps<K>(s: State<K>, draws: seq<Draw<K>>, k: K)
    requires DrawsIn(s, draws) && k in s.vals
    ensures Successor(s, MoveTwo, draws).vals[k].b - Successor(s, MoveTwo, draws).vals[k].a ==
      s.vals[k].b - s.vals[k].a
    decreases |draws|
  {
    if draws != [] {
      MoveTwoKeepsGaps(Move(s, MoveTwo, draws[0]), draws[1..], k);
    }
  }

  /** MOVE_ONE changes exactly one of a sampled course's two dates, by the
      drawn direction. */
  lemma MoveOneChangesOneDate<K>(s: State<K>, draws: seq<Draw<K>>, i: nat)
    requires DrawsIn(s, draws) && DistinctCourses(draws) && i < |draws|
    requires draws[i].direction in {-1, 1}
    ensures
      var c := draws[i].course;
      var r := Successor(s, MoveOne, draws);
      && DateIn(r.vals[c], draws[i].moed) == DateIn(s.vals[c], draws[i].moed) + draws[i].direction
      && DateIn(r.vals[c], Other(draws[i].moed)) == DateIn(s.vals[c], Other(draws[i].moed))
  {
    SuccessorMoves(s, MoveOne, draws, i);
  }

  /** The dates of the courses listed in `keys`, as a multiset. */
  function Bag<K>(keys: seq<K>, m: map<K, DatePair>): multiset<DatePair>
    requires forall i :: 0 <= i < |keys| ==> keys[i] in m
    decreases |keys|
  {
    if keys == [] then multiset{}
    else Bag(keys[..|keys| - 1], m) + multiset{m[keys[|keys| - 1]]}
  }

  lemma {:induction false} BagHas<K>(keys: seq<K>, m: map<K, DatePair>, k: K)
    requires forall i :: 0 <= i < |keys| ==> keys[i] in m
    requires k in keys
    ensures m[k] in Bag(keys, m)
    decreases |keys|
  {
    if keys[|keys| - 1] != k {
      BagHas(keys[..|keys| - 1], m, k);
    }
  }

  /** Assigning one listed key trades its old dates for the new ones. */
  lemma {:induction false} BagUpdate<K>(keys: seq<K>, m: map<K, DatePair>, k: K, v: DatePair)
    requires forall i :: 0 <= i < |keys| ==> keys[i] in m
    requires Distinct(keys) && k in m
    ensures k in keys ==> Bag(keys, m[k := v]) == Bag(keys, m) - multiset{m[k]} + multiset{v}
    ensures k !in keys ==> Bag(keys, m[k := v]) == Bag(keys, m)
    decreases |keys|
  {
    if keys != [] {
      var init := keys[..|keys| - 1];
      assert Distinct(init) by {
        assert forall i :: 0 <= i < |init| ==> init[i] == keys[i];
      }
      BagUpdate(init, m, k, v);
      if keys[|keys| - 1] == k {
        assert k !in init by {
          assert forall i :: 0 <= i < |init| ==> init[i] == keys[i];
        }
        BagUpdateLast(keys, m, k, v);
      } else {
        BagUpdateEarlier(keys, m, k, v);
      }
    }
  }

  /** The key assigned is the last one listed. */
  lemma BagUpdateLast<K>(keys: seq<K>, m: map<K, DatePair>, k: K, v: DatePair)
    requires keys != [] && keys[|keys| - 1] == k
    requires forall i :: 0 <= i < |keys| ==> keys[i] in m
    requires Bag(keys[..|keys| - 1], m[k := v]) == Bag(keys[..|keys| - 1], m)
    ensures Bag(keys, m[k := v]) == Bag(keys, m) - multiset{m[k]} + multiset{v}
  {
    var b := Bag(keys[..|keys| - 1], m);
    assert Bag(keys, m[k := v]) == b + multiset{v};
    assert Bag(keys, m) == b + multiset{m[k]};
  }

  /** The key assigned is not the last one listed. */
  lemma BagUpdateEarlier<K>(keys: seq<K>, m: map<K, DatePair>, k: K, v: DatePair)
    requires keys != [] && keys[|keys| - 1] != k && k in m
    requires forall i :: 0 <= i < |keys| ==> keys[i] in m
    requires k in keys[..|keys| - 1] ==> Bag(keys[..|keys| - 1], m[k := v]) == Bag(keys[..|keys| - 1], m) - multiset{m[k]} + multiset{v}
    requires k !in keys[..|keys| - 1] ==> Bag(keys[..|keys| - 1], m[k := v]) == Bag(keys[..|keys| - 1], m)
    ensures k in keys ==> Bag(keys, m[k := v]) == Bag(keys, m) - multiset{m[k]} + multiset{v}
    ensures k !in keys ==> Bag(keys, m[k := v]) == Bag(keys, m)
  {
    var init := keys[..|keys| - 1];
    var inInit := k in init;
    if inInit {
      BagHas(init, m, k);
    }
    LastIn(keys, k);
    assert m[k := v][keys[|keys| - 1]] == m[keys[|keys| - 1]];
    BagTail(keys, m, m[k := v], inInit, m[k], v);
  }

  /** Adding the last key's dates to both bags keeps a trade between them. */
  lemma BagTail<K>(keys: seq<K>, m: map<K, DatePair>, m1: map<K, DatePair>, inInit: bool, a: DatePair, v: DatePair)
    requires keys != [] && keys[|keys| - 1] in m && keys[|keys| - 1] in m1
    requires m1[keys[|keys| - 1]] == m[keys[|keys| - 1]]
    requires forall i :: 0 <= i < |keys| ==> keys[i] in m && keys[i] in m1
    requires inInit ==> a in Bag(keys[..|keys| - 1], m)
    requires inInit ==> Bag(keys[..|keys| - 1], m1) == Bag(keys[..|keys| - 1], m) - multiset{a} + multiset{v}
    requires !inInit ==> Bag(keys[..|keys| - 1], m1) == Bag(keys[..|keys| - 1], m)
    ensures inInit ==> Bag(keys, m1) == Bag(keys, m) - multiset{a} + multiset{v}
    ensures !inInit ==> Bag(keys, m1) == Bag(keys, m)
  {
    var e := m[keys[|keys| - 1]];
    var b0 := Bag(keys[..|keys| - 1], m);
    var b1 := Bag(keys[..|keys| - 1], m1);
    assert Bag(keys, m) == b0 + multiset{e};
    assert Bag(keys, m1) == b1 + multiset{e};
    if inInit {
      TradeAfter(b0, b1, a, v, e);
    }
  }

  /** A key of a non-empty sequence is its last one or a key of the rest. */
  lemma LastIn<K>(keys: seq<K>, k: K)
    requires keys != []
    ensures k in keys <==> k in keys[..|keys| - 1] || k == keys[|keys| - 1]
  {
    assert keys == keys[..|keys| - 1] + [keys[|keys| - 1]];
  }

  /** A trade made before adding an element can be made after it. */
  lemma TradeAfter(b0: multiset<DatePair>, b1: multiset<DatePair>, a: DatePair, v: DatePair, e: DatePair)
    requires a in b0 && b1 == b0 - multiset{a} + multiset{v}
    ensures b1 + multiset{e} == b0 + multiset{e} - multiset{a} + multiset{v}
  {
  }

  /** Trading `p` for `q` and back again restores the bag. */
  lemma BagRestore(b: multiset<DatePair>, p: DatePair, q: DatePair)
    requires p in b
    ensures b - multiset{p} + multiset{q} - multiset{q} + multiset{p} == b
  {
  }

  /** One SWAP move exchanges two courses' dates and so keeps the bag. */
  lemma SwapMoveKeepsBag<K>(s: State<K>, d: Draw<K>)
    requires Valid(s) && d.course in s.vals && d.partner in s.vals
    ensures Bag(Move(s, Swap, d).keys, Move(s, Swap, d).vals) == Bag(s.keys, s.vals)
  {
    var p := s.vals[d.course];
    var q := s.vals[d.partner];
    var m1 := s.vals[d.course := q];
    BagUpdate(s.keys, s.vals, d.course, q);
    BagUpdate(s.keys, m1, d.partner, p);
    assert m1[d.partner] == q;
    BagHas(s.keys, s.vals, d.course);
    BagRestore(Bag(s.keys, s.vals), p, q);
    assert Move(s, Swap, d).vals == m1[d.partner := p];
  }

  /** SWAP keeps the multiset of date pairs: it only exchanges them. */
  lemma {:induction false} SwapKeepsBag<K>(s: State<K>, draws: seq<Draw<K>>)
    requires Valid(s) && DrawsIn(s, draws)
    ensures Bag(Successor(s, Swap, draws).keys, Successor(s, Swap, draws).vals) == Bag(s.keys, s.vals)
    decreases |draws|
  {
    if draws != [] {
      SwapMoveKeepsBag(s, draws[0]);
      SwapKeepsBag(Move(s, Swap, draws[0]), draws[1..]);
    }
  }

  /** `reduce_T_lin`: one degree per step while above 1, then 0.0001. */
  function ReduceTLin(t: real): (r: real)
    ensures r < t
  {
    if t > 1.0 then t - 1.0 else t - 0.0001
  }

  /** The temperature after `k` cooling steps from `t`. */
  function Cooled(t: real, k: nat): real
    decreases k
  {
    if k == 0 then t else ReduceTLin(Cooled(t, k - 1))
  }

  /** From the default 3000 the temperature falls by whole degrees to 1 in
      2999 steps and then by 0.0001 a step, so over the 10000 iterations it
      stays positive and the Metropolis exponent never divides by zero. */
  lemma {:induction false} DefaultCooling(k: nat)
    requires k <= IterationN
    ensures Cooled(DefaultT0, k) ==
      if k <= 2999 then 3000.0 - k as real else 1.0 - (k - 2999) as real * 0.0001
    ensures Cooled(DefaultT0, k) > 0.0
    decreases k
  {
    if k > 0 {
      DefaultCooling(k - 1);
    }
  }

  /** `T0 if T0 else DEFAULT_T0`: a missing or zero T0 means the default. */
  function InitialT(t0: Option<real>): (t: real)
    ensures t != 0.0
    ensures t0.Some? && t0.value != 0.0 ==> t == t0.value
  {
    if t0.None? || t0.value == 0.0 then DefaultT0 else t0.value
  }

  /** One iteration of `solve` as written. `orig_state` wraps the very
      dictionary `get_successor` goes on to change, so the two penalties are
      of the same schedule, and "reverting" to `orig_state` keeps the move. */
  function StepAsWritten<K>(s: State<K>, gen: Generator, draws: seq<Draw<K>>,
                            penalty: State<K> -> real, accept: bool): (r: State<K>)
    requires DrawsIn(s, draws)
    ensures r == Successor(s, gen, draws)
  {
    var next := Successor(s, gen, draws);
    var orig := next;
    var oldPen := penalty(orig);
    var newPen := penalty(next);
    if newPen < oldPen then next
    else if accept then next
    else orig
  }

  /** One iteration of `solve` with `orig_state` a copy: a strictly better
      successor is kept, a worse or equal one only when the Metropolis coin
      `accept` says so, and otherwise the schedule is left as it was. */
  function Step<K>(s: State<K>, gen: Generator, draws: seq<Draw<K>>,
                   penalty: State<K> -> real, accept: bool): (r: State<K>)
    requires DrawsIn(s, draws)
    ensures r == s || r == Successor(s, gen, draws)
    ensures penalty(Successor(s, gen, draws)) < penalty(s) ==> r == Successor(s, gen, draws)
    ensures !accept ==> penalty(r) <= penalty(s)
    ensures !accept && penalty(Successor(s, gen, draws)) >= penalty(s) ==> r == s
    ensures accept ==> r == Successor(s, gen, draws)
  {
    var next := Successor(s, gen, draws);
    if penalty(next) < penalty(s) then next
    else if accept then next
    else s
  }

  /** As written every move is kept: even a strictly worse successor that the
      coin rejects survives, where the corrected step returns the schedule
      it started from. */
  lemma StepAsWrittenKeepsEveryMove<K>(s: State<K>, gen: Generator, draws: seq<Draw<K>>,
                                       penalty: State<K> -> real, accept: bool)
    requires DrawsIn(s, draws)
    ensures StepAsWritten(s, gen, draws, penalty, accept) == Successor(s, gen, draws)
    ensures penalty(Successor(s, gen, draws)) > penalty(s) && !accept ==>
      StepAsWritten(s, gen, draws, penalty, accept) != Step(s, gen, draws, penalty, accept)
  {
  }

  /** The choices made for one sampled course: the swap partner
      `choice(course_list)`, the direction `choice([-1, 1])` and the period
      `choice([0, 1])`. */
  datatype Pick<K> = Pick(partner: K, direction: int, moed: Moed)

  /** The draws of one iteration: the positions `sample` picks, the choices
      for each sampled course and the Metropolis coin. */
  datatype Iteration<K> = Iteration(positions: seq<nat>, picks: seq<Pick<K>>, accept: bool)

  /** The draws of an iteration are ones Python can make on `keys`: distinct
      positions and a partner per sampled course. With fewer keys than
      `SubGroupN` there is nothing to draw. */
  predicate IterationFits<K(==)>(keys: seq<K>, it: Iteration<K>) {
    SubGroupN <= |keys| ==>
      && |it.positions| == SubGroupN && Distinct(it.positions)
      && (forall i :: 0 <= i < SubGroupN ==> it.positions[i] < |keys|)
      && |it.picks| == SubGroupN
      && (forall i :: 0 <= i < SubGroupN ==> it.picks[i].partner in keys)
  }

  /** The sampled courses of an iteration paired with their choices. */
  function IterationDraws<K>(keys: seq<K>, it: Iteration<K>): (draws: seq<Draw<K>>)
    requires SubGroupN <= |keys| && IterationFits(keys, it)
    ensures |draws| == SubGroupN
    ensures forall i :: 0 <= i < |draws| ==> draws[i].course in keys && draws[i].partner in keys
    ensures Distinct(keys) ==> DistinctCourses(draws)
  {
    var courses := Sample(keys, SubGroupN, it.positions).value;
    seq(SubGroupN, i requires 0 <= i < SubGroupN =>
      Draw(courses[i], it.picks[i].partner, it.picks[i].direction, it.picks[i].moed))
  }

  /** One iteration of `solve` on its own draws. */
  function Iterate<K>(s: State<K>, gen: Generator, it: Iteration<K>, penalty: State<K> -> real): (r: State<K>)
    requires Valid(s) && SubGroupN <= |s.keys| && IterationFits(s.keys, it)
    ensures Valid(r) && r.keys == s.keys && r.vals.Keys == s.vals.Keys
    ensures !it.accept ==> penalty(r) <= penalty(s)
  {
    var draws := IterationDraws(s.keys, it);
    assert DrawsIn(s, draws);
    Step(s, gen, draws, penalty, it.accept)
  }

  /** An iteration is the corrected step on the iteration's own draws: it
      ends on their successor when the coin accepts or the successor is
      strictly better, and on the old schedule otherwise. */
  lemma IterateSteps<K>(s: State<K>, gen: Generator, it: Iteration<K>, penalty: State<K> -> real)
    requires Valid(s) && SubGroupN <= |s.keys| && IterationFits(s.keys, it)
    ensures var next := Successor(s, gen, IterationDraws(s.keys, it));
      && (it.accept ==> Iterate(s, gen, it, penalty) == next)
      && (penalty(next) < penalty(s) ==> Iterate(s, gen, it, penalty) == next)
      && (!it.accept && penalty(next) >= penalty(s) ==> Iterate(s, gen, it, penalty) == s)
  {
  }

  /** `solve` with the corrected step. `gens` holds the generator drawn at
      iterations 0, 1000, 2000, ...; `used` reports the generator each
      iteration ran with, `t` the final temperature. With fewer than
      `SubGroupN` courses the first `sample` raises ValueError: None. */
  method Solve<K>(s0: State<K>, t0: Option<real>, gens: seq<Generator>, iters: seq<Iteration<K>>,
                  penalty: State<K> -> real)
    returns (r: Option<State<K>>, t: real, used: seq<Generator>)
    requires Valid(s0)
    requires |iters| == IterationN && |gens| == IterationN / ReselectEvery
    requires forall k :: 0 <= k < |iters| ==> IterationFits(s0.keys, iters[k])
    ensures r.None? <==> |s0.keys| < SubGroupN
    ensures r.Some? ==> Valid(r.value) && r.value.keys == s0.keys && r.value.vals.Keys == s0.vals.Keys
    ensures r.Some? && (forall k :: 0 <= k < |iters| ==> !iters[k].accept) ==> penalty(r.value) <= penalty(s0)
    ensures r.Some? ==> t < InitialT(t0)
    ensures r.Some? && InitialT(t0) == DefaultT0 ==> t > 0.0
    ensures r.Some? ==> |used| == |iters|
    ensures r.Some? ==> r.value == Run(s0, used, iters, penalty)
    ensures r.Some? ==> forall k :: 0 < k < |used| && k % ReselectEvery != 0 ==> used[k] == used[k - 1]
    ensures r.Some? ==> forall j :: 0 <= j < |gens| ==> used[j * ReselectEvery] == gens[j]
  {
    var t1 := InitialT(t0);
    t := t1;
    used := [];
    if |s0.keys| < SubGroupN {
      return None, t, used;
    }
    var s;
    s, t, used := SolveLoop(s0, iters, gens, penalty, t1);
    if forall k :: 0 <= k < |iters| ==> !iters[k].accept {
      RunWithoutAcceptance(s0, used, iters, penalty);
    }
    CooledBelow(t1, |iters|);
    if t1 == DefaultT0 {
      DefaultCooling(|iters|);
    }
    r := Some(s);
  }

  /** The schedule after running one iteration per generator of `used`,
      each on its own draws, from `s0`. */
  function Run<K>(s0: State<K>, used: seq<Generator>, iters: seq<Iteration<K>>, penalty: State<K> -> real)
    : (r: State<K>)
    requires Valid(s0) && SubGroupN <= |s0.keys| && |used| <= |iters|
    requires forall j :: 0 <= j < |iters| ==> IterationFits(s0.keys, iters[j])
    ensures Valid(r) && r.keys == s0.keys && r.vals.Keys == s0.vals.Keys
    decreases |used|
  {
    if used == [] then s0
    else
      var n := |used| - 1;
      Iterate(Run(s0, used[..n], iters, penalty), used[n], iters[n], penalty)
  }

  /** Running one more generator is one more iteration on the run so far. */
  lemma RunSnoc<K>(s0: State<K>, used: seq<Generator>, g: Generator, iters: seq<Iteration<K>>,
                   penalty: State<K> -> real)
    requires Valid(s0) && SubGroupN <= |s0.keys| && |used| < |iters|
    requires forall j :: 0 <= j < |iters| ==> IterationFits(s0.keys, iters[j])
    ensures Run(s0, used + [g], iters, penalty) == Iterate(Run(s0, used, iters, penalty), g, iters[|used|], penalty)
  {
    var u := used + [g];
    assert u[..|u| - 1] == used && u[|u| - 1] == g;
  }

  /** When the coin accepts no iteration of a run, its penalty never rises
      above the start's. */
  lemma {:induction false} RunWithoutAcceptance<K>(s0: State<K>, used: seq<Generator>, iters: seq<Iteration<K>>,
                                                   penalty: State<K> -> real)
    requires Valid(s0) && SubGroupN <= |s0.keys| && |used| <= |iters|
    requires forall j :: 0 <= j < |iters| ==> IterationFits(s0.keys, iters[j])
    requires forall j :: 0 <= j < |used| ==> !iters[j].accept
    ensures penalty(Run(s0, used, iters, penalty)) <= penalty(s0)
    decreases |used|
  {
    if used != [] {
      RunWithoutAcceptance(s0, used[..|used| - 1], iters, penalty);
    }
  }

  /** The iterations of `solve` from `s0` and the starting temperature
      `t1`, as a loop. */
  method SolveLoop<K>(s0: State<K>, iters: seq<Iteration<K>>, gens: seq<Generator>, penalty: State<K> -> real,
                      t1: real)
    returns (s: State<K>, t: real, used: seq<Generator>)
    requires Valid(s0) && SubGroupN <= |s0.keys|
    requires |iters| == IterationN && |gens| == IterationN / ReselectEvery
    requires forall k :: 0 <= k < |iters| ==> IterationFits(s0.keys, iters[k])
    ensures t == Cooled(t1, |iters|) && Reselected(used, gens, |iters|)
    ensures s == Run(s0, used, iters, penalty)
  {
    var gen := gens[0];
    s, t, used := s0, t1, [];
    var k := 0;
    while k < |iters|
      invariant SolveInv(iters, gens, t1, k, t, gen, used)
      invariant s == Run(s0, used, iters, penalty)
    {
      s, t, gen, used := SolvePass(s0, iters, gens, penalty, t1, k, s, t, gen, used);
      k := k + 1;
    }
  }

  /** Iteration `k` of `solve`: the bookkeeping, then one iteration on the
      schedule with the generator in force. */
  method SolvePass<K>(s0: State<K>, iters: seq<Iteration<K>>, gens: seq<Generator>, penalty: State<K> -> real,
                      t1: real, k: nat, s: State<K>, t: real, gen: Generator, used: seq<Generator>)
    returns (s': State<K>, t': real, gen': Generator, used': seq<Generator>)
    requires Valid(s0) && SubGroupN <= |s0.keys| && k < |iters|
    requires |iters| == IterationN && |gens| == IterationN / ReselectEvery
    requires forall j :: 0 <= j < |iters| ==> IterationFits(s0.keys, iters[j])
    requires SolveInv(iters, gens, t1, k, t, gen, used) && s == Run(s0, used, iters, penalty)
    ensures SolveInv(iters, gens, t1, k + 1, t', gen', used') && s' == Run(s0, used', iters, penalty)
  {
    t', gen', used' := SolveStep(iters, gens, t1, k, t, gen, used);
    s' := RunStep(s0, used, gen', iters, penalty, s);
  }

  /** One iteration of `solve`'s loop on the schedule: the run so far
      followed by one more iteration with generator `g`. */
  method RunStep<K>(s0: State<K>, used: seq<Generator>, g: Generator, iters: seq<Iteration<K>>,
                    penalty: State<K> -> real, s: State<K>) returns (s': State<K>)
    requires Valid(s0) && SubGroupN <= |s0.keys| && |used| < |iters|
    requires forall j :: 0 <= j < |iters| ==> IterationFits(s0.keys, iters[j])
    requires s == Run(s0, used, iters, penalty)
    ensures s' == Run(s0, used + [g], iters, penalty)
  {
    s' := Iterate(s, g, iters[|used|], penalty);
    RunSnoc(s0, used, g, iters, penalty);
  }

  /** What `solve`'s loop keeps about the temperature and the generators
      after `k` iterations from `t1`. */
  predicate SolveInv(iters: seq<Iteration>, gens: seq<Generator>, t1: real, k: nat, t: real, gen: Generator,
                     used: seq<Generator>)
  {
    && k <= |iters|
    && t == Cooled(t1, k)
    && Reselected(used, gens, k)
    && (k > 0 ==> gen == used[k - 1])
  }

  /** The bookkeeping of iteration `k` of `solve`: cool, and reselect the
      generator at every `ReselectEvery`-th iteration. */
  method SolveStep(iters: seq<Iteration>, gens: seq<Generator>, t1: real, k: nat, t: real, gen: Generator,
                   used: seq<Generator>)
    returns (t': real, gen': Generator, used': seq<Generator>)
    requires k < |iters|
    requires |iters| == IterationN && |gens| == IterationN / ReselectEvery
    requires SolveInv(iters, gens, t1, k, t, gen, used)
    ensures SolveInv(iters, gens, t1, k + 1, t', gen', used')
    ensures used' == used + [gen'] && (k % ReselectEvery == 0 ==> gen' == gens[k / ReselectEvery])
  {
    t' := ReduceTLin(t);
    gen' := if k % ReselectEvery == 0 then gens[k / ReselectEvery] else gen;
    ReselectStep(used, gens, k, gen, gen');
    used' := used + [gen'];
  }

  /** After `k` iterations, `used` lists the generator of each one: it
      changes only at multiples of `ReselectEvery`, to the one drawn there. */
  predicate Reselected(used: seq<Generator>, gens: seq<Generator>, k: nat)
  {
    && |used| == k
    && (forall j :: 0 < j < k && j % ReselectEvery != 0 ==> used[j] == used[j - 1])
    && (forall j :: 0 <= j < |gens| && j * ReselectEvery < k ==> used[j * ReselectEvery] == gens[j])
  }

  /** One more iteration keeps `Reselected`. */
  lemma ReselectStep(used: seq<Generator>, gens: seq<Generator>, k: nat, gen: Generator, next: Generator)
    requires Reselected(used, gens, k) && (k > 0 ==> gen == used[k - 1])
    requires k % ReselectEvery == 0 ==> k / ReselectEvery < |gens|
    requires next == if k % ReselectEvery == 0 then gens[k / ReselectEvery] else gen
    ensures Reselected(used + [next], gens, k + 1)
  {
    var u := used + [next];
    forall j | 0 <= j < |gens| && j * ReselectEvery < k + 1
      ensures u[j * ReselectEvery] == gens[j]
    {
      if j * ReselectEvery == k {
        assert k / ReselectEvery == j;
      }
    }
  }

  lemma {:induction false} CooledBelow(t: real, k: nat)
    requires k >= 1
    ensures Cooled(t, k) < t
    decreases k
  {
    if k > 1 {
      CooledBelow(t, k - 1);
    }
  }
}

=== FILE: backtracking.dfy ===
/** The constraint-satisfaction solver's helpers: the single-course state
    update, the goal test, the penalty bookkeeping of the courses still to
    place, the choice of the dates to try, and the shape of the backtracking
    search. The pair evaluator and `_cal_penalty` are parameters. */
module Backtracking {
  import opened Wrappers
  import opened OrderedDict
  import opened Schedule
  import opened Ranking

  /** The least moed A to moed B distance a goal state allows, in days. */
  const MinGap: int := 18
  /** The distance the search places between a course's two exams. */
  const Gap: int := 21

  /** `CSstate.new_state(c, dates)`: a copy of the schedule with `c`'s dates
      replaced; None where the assertion that `c` is scheduled fails. */
  function NewState<K>(s: State<K>, c: K, dates: DatePair): (r: Option<State<K>>)
    ensures r.Some? <==> c in s.vals
    ensures r.Some? ==> r.value.keys == s.keys && r.value.vals.Keys == s.vals.Keys
    ensures r.Some? ==> r.value.vals[c] == dates
    ensures r.Some? ==> forall k :: k in s.vals && k != c ==> r.value.vals[k] == s.vals[k]
  {
    if c in s.vals then Some(Put(s, c, dates)) else None
  }

  /** Every listed course is scheduled, its moed B at least 18 days after its
      moed A. */
  predicate IsGoal<K>(courseList: seq<K>, s: State<K>) {
    forall i :: 0 <= i < |courseList| ==>
      courseList[i] in s.vals && s.vals[courseList[i]].b - s.vals[courseList[i]].a >= MinGap
  }

  /** `is_pos_goal_state`: stops at the first listed course that is missing
      or whose exams are too close. */
  method IsPosGoalState<K>(courseList: seq<K>, s: State<K>) returns (r: bool)
    ensures r <==> IsGoal(courseList, s)
  {
    var i := 0;
    while i < |courseList|
      invariant 0 <= i <= |courseList|
      invariant forall j :: 0 <= j < i ==>
        courseList[j] in s.vals && s.vals[courseList[j]].b - s.vals[courseList[j]].a >= MinGap
    {
      var course := courseList[i];
      if course !in s.vals {
        return false;
      }
      if s.vals[course].b - s.vals[course].a < MinGap {
        return false;
      }
      i := i + 1;
    }
    return true;
  }

  /** The list `s` with every `c` taken out, the rest in order. */
  function Without<K(==)>(s: seq<K>, c: K): (r: seq<K>)
    ensures |r| <= |s|
    ensures forall i :: 0 <= i < |r| ==> r[i] in s && r[i] != c
    decreases |s|
  {
    if s == [] then []
    else
      var last := s[|s| - 1];
      Without(s[..|s| - 1], c) + (if last != c then [last] else [])
  }

  /** Every other item of `s` stays. */
  lemma {:induction false} WithoutKeeps<K>(s: seq<K>, c: K)
    ensures forall i :: 0 <= i < |s| && s[i] != c ==> s[i] in Without(s, c)
    decreases |s|
  {
    if s != [] {
      var init := s[..|s| - 1];
      WithoutKeeps(init, c);
      forall i | 0 <= i < |s| - 1 && s[i] != c ensures s[i] in Without(s, c) {
        assert s[i] == init[i];
      }
    }
  }

  /** A list without repeats stays without repeats. */
  lemma {:induction false} WithoutDistinct<K>(s: seq<K>, c: K)
    requires Distinct(s)
    ensures Distinct(Without(s, c))
    decreases |s|
  {
    if s != [] {
      var init := s[..|s| - 1];
      var last := s[|s| - 1];
      assert Distinct(init);
      WithoutDistinct(init, c);
      var w := Without(s, c);
      forall i, j | 0 <= i < j < |w| ensures w[i] != w[j] {
        if last != c && j == |w| - 1 {
          assert w[i] in init;
          assert last !in init;
        }
      }
    }
  }

  /** Taking out `c` removes exactly its one occurrence, if any, and keeps
      the rest in order. */
  lemma {:induction false} WithoutPosition<K>(s: seq<K>, c: K)
    requires Distinct(s)
    ensures c !in s ==> Without(s, c) == s
    ensures forall p :: 0 <= p < |s| && s[p] == c ==> Without(s, c) == s[..p] + s[p + 1..]
    decreases |s|
  {
    if s != [] {
      var init := s[..|s| - 1];
      var last := s[|s| - 1];
      assert s == init + [last];
      assert Distinct(init);
      WithoutPosition(init, c);
      forall p | 0 <= p < |s| && s[p] == c ensures Without(s, c) == s[..p] + s[p + 1..] {
        if p == |s| - 1 {
          assert c !in init;
          assert s[..p] == init;
        } else {
          assert last != c;
          WithoutEarlier(s, c, p);
        }
      }
    }
  }

  /** When `c` sits before the last item, the last item stays behind the
      rest. */
  lemma WithoutEarlier<K>(s: seq<K>, c: K, p: nat)
    requires p < |s| - 1 && s[p] == c && s[|s| - 1] != c
    requires Without(s[..|s| - 1], c) == s[..|s| - 1][..p] + s[..|s| - 1][p + 1..]
    ensures Without(s, c) == s[..p] + s[p + 1..]
  {
    DropJoin(s, p, Without(s[..|s| - 1], c));
  }

  /** Dropping item `p` of all but the last item, then appending the last,
      drops item `p` of the whole. */
  lemma DropJoin<K>(s: seq<K>, p: nat, wi: seq<K>)
    requires p < |s| - 1
    requires wi == s[..|s| - 1][..p] + s[..|s| - 1][p + 1..]
    ensures wi + [s[|s| - 1]] == s[..p] + s[p + 1..]
  {
    var init := s[..|s| - 1];
    assert s[p + 1..] == init[p + 1..] + [s[|s| - 1]];
    assert s[..p] == init[..p];
  }

  /** Taking out `c` shortens a list without repeats by one exactly when
      `c` is in it. */
  lemma WithoutLength<K>(s: seq<K>, c: K)
    requires Distinct(s)
    ensures |Without(s, c)| == |s| - (if c in s then 1 else 0)
  {
    WithoutPosition(s, c);
    if c in s {
      var q :| 0 <= q < |s| && s[q] == c;
    }
  }

  /** `_update_course_penalties(c, d)`: a new dictionary of the courses of
      `d` other than `c`, in their order, each weighed with its pair penalty
      against `c`. */
  function UpdateCoursePenalties<K>(c: K, d: ODict<K, real>, pairEval: (K, K) -> real): (r: ODict<K, real>)
    requires Valid(d)
    ensures Valid(r)
    ensures r.vals.Keys == d.vals.Keys - {c}
    ensures forall k :: k in r.vals ==> r.vals[k] == d.vals[k] + pairEval(c, k)
    ensures |r.keys| == |d.keys| - (if c in d.vals then 1 else 0)
  {
    WithoutKeeps(d.keys, c);
    WithoutDistinct(d.keys, c);
    WithoutLength(d.keys, c);
    ODict(Without(d.keys, c), map k | k in d.vals && k != c :: d.vals[k] + pairEval(c, k))
  }

  /** The courses keep their order: `c` is taken out of its place, and one
      course fewer remains when `c` was among them. */
  lemma UpdateCoursePenaltiesOrder<K>(c: K, d: ODict<K, real>, pairEval: (K, K) -> real, p: nat)
    requires Valid(d)
    ensures p < |d.keys| && d.keys[p] == c ==>
      UpdateCoursePenalties(c, d, pairEval).keys == d.keys[..p] + d.keys[p + 1..]
    ensures c !in d.vals ==> UpdateCoursePenalties(c, d, pairEval).keys == d.keys
  {
    WithoutPosition(d.keys, c);
    if c in d.vals {
      var q :| 0 <= q < |d.keys| && d.keys[q] == c;
    }
  }

  /** `{date: penalty(date) for date in dates}`, built in date order. */
  function DatePenalties(dates: seq<int>, pen: int -> real): (r: ODict<int, real>)
    ensures Valid(r)
    ensures forall d :: d in r.vals <==> d in dates
    ensures forall d :: d in r.vals ==> r.vals[d] == pen(d)
    decreases |dates|
  {
    if dates == [] then Empty()
    else
      var init := dates[..|dates| - 1];
      var last := dates[|dates| - 1];
      assert dates == init + [last];
      var r := DatePenalties(init, pen);
      PutValid(r, last, pen(last));
      Put(r, last, pen(last))
  }

  /** `_top_ten_dates2check` with `_get_top_10` sorting descending when
      `desc` holds. */
  function TopTenDatesBy(datesA: seq<int>, pen: int -> real, desc: bool): (r: seq<int>)
    ensures |r| <= TopN
    ensures forall i :: 0 <= i < |r| ==> r[i] in datesA
  {
    TopTen(DatePenalties(datesA, pen), desc)
  }

  /** `_top_ten_dates2check` as written: `_get_top_10` with its default
      `reverse=True`, so the dates come highest penalty first. */
  function TopTenDatesAsWritten(datesA: seq<int>, pen: int -> real): (r: seq<int>)
    ensures |r| <= TopN
    ensures forall i :: 0 <= i < |r| ==> r[i] in datesA
  {
    TopTenDatesBy(datesA, pen, true)
  }

  /** `_top_ten_dates2check` as its documentation and the search's intend:
      the dates of lowest penalty, lowest first. */
  function TopTenDates(datesA: seq<int>, pen: int -> real): (r: seq<int>)
    ensures |r| <= TopN
    ensures forall i :: 0 <= i < |r| ==> r[i] in datesA
  {
    TopTenDatesBy(datesA, pen, false)
  }

  /** As written the first date tried is one of the greatest penalty. */
  lemma TopTenDatesAsWrittenWorstFirst(datesA: seq<int>, pen: int -> real, d: int)
    requires d in datesA
    ensures |TopTenDatesAsWritten(datesA, pen)| > 0
    ensures pen(d) <= pen(TopTenDatesAsWritten(datesA, pen)[0])
  {
    var table := DatePenalties(datesA, pen);
    var r := TopTenDatesAsWritten(datesA, pen);
    assert d in table.vals;
    assert |table.keys| > 0;
    if d in r {
      var j :| 0 <= j < |r| && r[j] == d;
      if j > 0 {
        TopTenOrdered(table, true, 0, j);
      }
    } else {
      TopTenBest(table, true, 0, d);
    }
  }

  /** The corrected choice: the first date tried has the least penalty, and
      every date tried is at most as bad as every date left out. */
  lemma TopTenDatesBestFirst(datesA: seq<int>, pen: int -> real, d: int, i: nat)
    requires d in datesA
    ensures |TopTenDates(datesA, pen)| > 0
    ensures pen(TopTenDates(datesA, pen)[0]) <= pen(d)
    ensures i < |TopTenDates(datesA, pen)| && d !in TopTenDates(datesA, pen) ==>
      pen(TopTenDates(datesA, pen)[i]) <= pen(d)
  {
    var table := DatePenalties(datesA, pen);
    var r := TopTenDates(datesA, pen);
    assert d in table.vals;
    assert |table.keys| > 0;
    if d in r {
      var j :| 0 <= j < |r| && r[j] == d;
      if j > 0 {
        TopTenOrdered(table, false, 0, j);
      }
    } else {
      TopTenBest(table, false, 0, d);
      if i < |r| {
        TopTenBest(table, false, i, d);
      }
    }
  }

  /** What the search knows: the courses, the moed A dates, the pair
      evaluator, `_cal_penalty(state, included, course, dates)` and the
      direction `_get_top_10` sorts in: `desc` is the source's default
      `reverse=True` (highest penalty first), `!desc` the intended lowest
      first. */
  datatype Ctx<!K> = Ctx(courseList: seq<K>, datesA: seq<int>,
                        pairEval: (K, K) -> real,
                        penalty: (State<K>, set<K>, K, DatePair) -> real,
                        desc: bool)

  /** The goal states found, and the `courses_included` set as the call
      leaves it. */
  datatype Outcome<K> = Outcome(solutions: seq<State<K>>, included: set<K>)

  /** A pair the search places: moed A one of the moed A dates, moed B 21
      days later. */
  predicate Placed(p: DatePair, datesA: seq<int>) {
    p.a in datesA && p.b == p.a + Gap
  }

  /** `sol` is `s` with only courses of `free` given placed dates. */
  predicate Extends<K>(sol: State<K>, s: State<K>, free: set<K>, datesA: seq<int>) {
    && sol.keys == s.keys && sol.vals.Keys == s.vals.Keys
    && forall k :: k in s.vals ==> sol.vals[k] == s.vals[k] || (k in free && Placed(sol.vals[k], datesA))
  }

  /** Every solution is a goal state that extends `s` within `free`. */
  predicate AllGood<K>(ctx: Ctx<K>, sols: seq<State<K>>, s: State<K>, free: set<K>) {
    forall i :: 0 <= i < |sols| ==> IsGoal(ctx.courseList, sols[i]) && Extends(sols[i], s, free, ctx.datesA)
  }

  /** Solutions within fewer free courses are solutions within more. */
  lemma AllGoodWiden<K>(ctx: Ctx<K>, sols: seq<State<K>>, s: State<K>, fa: set<K>, free: set<K>)
    requires AllGood(ctx, sols, s, fa) && fa <= free
    ensures AllGood(ctx, sols, s, free)
  {
    forall i | 0 <= i < |sols| ensures Extends(sols[i], s, free, ctx.datesA) {
      assert Extends(sols[i], s, fa, ctx.datesA);
    }
  }

  lemma AllGoodJoin<K>(ctx: Ctx<K>, a: seq<State<K>>, b: seq<State<K>>, s: State<K>, fa: set<K>, fb: set<K>, free: set<K>)
    requires AllGood(ctx, a, s, fa) && AllGood(ctx, b, s, fb) && fa <= free && fb <= free
    ensures AllGood(ctx, a + b, s, free)
  {
    forall i | 0 <= i < |a + b| ensures IsGoal(ctx.courseList, (a + b)[i]) && Extends((a + b)[i], s, free, ctx.datesA) {
      if i < |a| {
        assert (a + b)[i] == a[i];
      } else {
        assert (a + b)[i] == b[i - |a|];
      }
    }
  }

  /** Solutions below a state that placed `c` extend the state before. */
  lemma AllGoodLift<K>(ctx: Ctx<K>, sols: seq<State<K>>, s: State<K>, c: K, p: DatePair, free: set<K>)
    requires c in s.vals && Placed(p, ctx.datesA)
    requires AllGood(ctx, sols, NewState(s, c, p).value, free)
    ensures AllGood(ctx, sols, s, free + {c})
  {
    var s1 := NewState(s, c, p).value;
    forall i | 0 <= i < |sols| ensures Extends(sols[i], s, free + {c}, ctx.datesA) {
      assert Extends(sols[i], s1, free, ctx.datesA);
    }
  }

  /** The courses still to place are scheduled and not yet included. */
  predicate Ready<K>(s: State<K>, inc: set<K>, notIn: ODict<K, real>) {
    && Valid(notIn)
    && (forall k :: k in notIn.vals ==> k in s.vals && k !in inc)
  }

  /** Taking `c` out of the courses still to place leaves a smaller set,
      ready for the state with `c` included. */
  lemma NextReady<K>(s: State<K>, inc: set<K>, notIn: ODict<K, real>, c: K, pairEval: (K, K) -> real)
    requires Ready(s, inc, notIn) && c in notIn.vals
    ensures var next := UpdateCoursePenalties(c, notIn, pairEval);
      && Ready(s, inc + {c}, next) && |next.keys| < |notIn.keys|
      && c in s.vals && c !in next.vals
  {
    UpdateCoursePenaltiesOrder(c, notIn, pairEval, 0);
  }

  /** `_backtracker(state, courses_included, courses_not_included)`: a goal
      state is a solution; otherwise each of the (up to) ten courses of
      lowest accumulated penalty is tried on each of its ten best dates (the
      highest, as written, when `ctx.desc`). */
  function Backtrack<K>(ctx: Ctx<K>, s: State<K>, inc: set<K>, notIn: ODict<K, real>): (r: Outcome<K>)
    requires Ready(s, inc, notIn)
    ensures r.included == inc
    ensures IsGoal(ctx.courseList, s) ==> r.solutions == [s]
    ensures AllGood(ctx, r.solutions, s, notIn.vals.Keys)
    ensures !IsGoal(ctx.courseList, s) ==> CoursesCovered(ctx, s, inc, notIn, TopTen(notIn, ctx.desc), 0, r.solutions)
    decreases |notIn.keys|, 2, 0, 0
  {
    if IsGoal(ctx.courseList, s) then Outcome([s], inc)
    else LoopCourses(ctx, s, inc, notIn, TopTen(notIn, ctx.desc), 0)
  }

  /** The loop over the courses to add, from position `from` on: each
      course joins `courses_included` for its dates and leaves it again
      afterwards. */
  function LoopCourses<K>(ctx: Ctx<K>, s: State<K>, inc: set<K>, notIn: ODict<K, real>, courses: seq<K>,
                          from: nat): (r: Outcome<K>)
    requires Ready(s, inc, notIn) && from <= |courses|
    requires forall i :: 0 <= i < |courses| ==> courses[i] in notIn.vals
    ensures r.included == inc
    ensures AllGood(ctx, r.solutions, s, notIn.vals.Keys)
    ensures CoursesCovered(ctx, s, inc, notIn, courses, from, r.solutions)
    decreases |notIn.keys|, 1, |courses| - from, 2
  {
    if from == |courses| then Outcome([], inc)
    else
      var here := TryCourse(ctx, s, inc, notIn, courses[from]);
      var rest := LoopCourses(ctx, s, inc, notIn, courses, from + 1);
      AllGoodJoin(ctx, here, rest.solutions, s, notIn.vals.Keys, notIn.vals.Keys, notIn.vals.Keys);
      CoursesCoveredJoin(ctx, s, inc, notIn, courses, from, here, rest.solutions);
      Outcome(here + rest.solutions, rest.included)
  }

  /** Every pass for `courses[j]`, for `j` from `from` on, finds solutions
      that are among `sols` (as often as it finds them). */
  ghost predicate CoursesCovered<K>(ctx: Ctx<K>, s: State<K>, inc: set<K>, notIn: ODict<K, real>,
                                    courses: seq<K>, from: nat, sols: seq<State<K>>)
    requires Ready(s, inc, notIn)
    requires forall i :: 0 <= i < |courses| ==> courses[i] in notIn.vals
    decreases |notIn.keys|, 1, 0, 1
  {
    forall j {:trigger TryCourse(ctx, s, inc, notIn, courses[j])} :: from <= j < |courses| ==>
      multiset(TryCourse(ctx, s, inc, notIn, courses[j])) <= multiset(sols)
  }

  /** The pass for `courses[from]` followed by solutions covering the later
      courses covers the courses from `from` on. */
  lemma CoursesCoveredJoin<K>(ctx: Ctx<K>, s: State<K>, inc: set<K>, notIn: ODict<K, real>,
                              courses: seq<K>, from: nat, here: seq<State<K>>, rest: seq<State<K>>)
    requires Ready(s, inc, notIn) && from < |courses|
    requires forall i :: 0 <= i < |courses| ==> courses[i] in notIn.vals
    requires here == TryCourse(ctx, s, inc, notIn, courses[from])
    requires CoursesCovered(ctx, s, inc, notIn, courses, from + 1, rest)
    ensures CoursesCovered(ctx, s, inc, notIn, courses, from, here + rest)
    decreases |notIn.keys|, 1, 0, 3
  {
    assert multiset(here + rest) == multiset(here) + multiset(rest);
  }

  /** One pass of the loop over the courses: `c` joins `courses_included`,
      the penalties of the others are updated, and `c` is tried on its ten
      best (as written, worst) dates. */
  function TryCourse<K>(ctx: Ctx<K>, s: State<K>, inc: set<K>, notIn: ODict<K, real>, c: K): (r: seq<State<K>>)
    requires Ready(s, inc, notIn) && c in notIn.vals
    ensures AllGood(ctx, r, s, notIn.vals.Keys)
    ensures DatesCovered(ctx, s, inc + {c}, UpdateCoursePenalties(c, notIn, ctx.pairEval), c,
                         OfferedDates(ctx, s, inc + {c}, c), 0, r)
    decreases |notIn.keys|, 1, 0, 0
  {
    var next := UpdateCoursePenalties(c, notIn, ctx.pairEval);
    NextReady(s, inc, notIn, c, ctx.pairEval);
    var inc1 := inc + {c};
    var dates := OfferedDates(ctx, s, inc1, c);
    var here := LoopDates(ctx, s, inc1, next, c, dates, 0, |notIn.keys|);
    AllGoodWiden(ctx, here.solutions, s, next.vals.Keys + {c}, notIn.vals.Keys);
    here.solutions
  }

  /** `_top_ten_dates2check(state, courses_included, c)`: the dates the
      search tries for `c`, ranked by `_cal_penalty` of the pair (d, d + 21). */
  function OfferedDates<K>(ctx: Ctx<K>, s: State<K>, included: set<K>, c: K): (r: seq<int>)
    ensures |r| <= TopN
    ensures forall i :: 0 <= i < |r| ==> r[i] in ctx.datesA
  {
    TopTenDatesBy(ctx.datesA, d => ctx.penalty(s, included, c, DatePair(d, d + Gap)), ctx.desc)
  }

  /** The loop over the dates of course `c`, from position `from` on: each
      date places `c` and recurses on the remaining courses. */
  function LoopDates<K>(ctx: Ctx<K>, s: State<K>, inc: set<K>, next: ODict<K, real>, c: K,
                        dates: seq<int>, from: nat, bound: nat): (r: Outcome<K>)
    requires Ready(s, inc, next) && |next.keys| < bound && from <= |dates|
    requires c in s.vals && c !in next.vals
    requires forall i :: 0 <= i < |dates| ==> dates[i] in ctx.datesA
    ensures r.included == inc
    ensures AllGood(ctx, r.solutions, s, next.vals.Keys + {c})
    ensures DatesCovered(ctx, s, inc, next, c, dates, from, r.solutions)
    decreases bound, 0, |dates| - from, 0
  {
    if from == |dates| then Outcome([], inc)
    else
      var sub := DateSearch(ctx, s, inc, next, c, dates[from]);
      var rest := LoopDates(ctx, s, sub.included, next, c, dates, from + 1, bound);
      AllGoodJoin(ctx, sub.solutions, rest.solutions, s, next.vals.Keys + {c}, next.vals.Keys + {c}, next.vals.Keys + {c});
      DatesCoveredJoin(ctx, s, inc, next, c, dates, from, sub.solutions, rest.solutions);
      Outcome(sub.solutions + rest.solutions, rest.included)
  }

  /** Every search on `dates[j]`, for `j` from `from` on, finds solutions
      that are among `sols` (as often as it finds them). */
  ghost predicate DatesCovered<K>(ctx: Ctx<K>, s: State<K>, inc: set<K>, next: ODict<K, real>, c: K,
                                  dates: seq<int>, from: nat, sols: seq<State<K>>)
    requires Ready(s, inc, next) && c in s.vals && c !in next.vals
    requires forall i :: 0 <= i < |dates| ==> dates[i] in ctx.datesA
    decreases |next.keys|, 4, 0, 0
  {
    forall j {:trigger DateSearch(ctx, s, inc, next, c, dates[j])} :: from <= j < |dates| ==>
      multiset(DateSearch(ctx, s, inc, next, c, dates[j]).solutions) <= multiset(sols)
  }

  /** The search on `dates[from]` followed by solutions covering the later
      dates covers the dates from `from` on. */
  lemma DatesCoveredJoin<K>(ctx: Ctx<K>, s: State<K>, inc: set<K>, next: ODict<K, real>, c: K,
                            dates: seq<int>, from: nat, here: seq<State<K>>, rest: seq<State<K>>)
    requires Ready(s, inc, next) && c in s.vals && c !in next.vals && from < |dates|
    requires forall i :: 0 <= i < |dates| ==> dates[i] in ctx.datesA
    requires here == DateSearch(ctx, s, inc, next, c, dates[from]).solutions
    requires DatesCovered(ctx, s, inc, next, c, dates, from + 1, rest)
    ensures DatesCovered(ctx, s, inc, next, c, dates, from, here + rest)
    decreases |next.keys|, 5, 0, 0
  {
    assert multiset(here + rest) == multiset(here) + multiset(rest);
  }

  /** The recursive call for `c` placed on date `d`:
      `_backtracker(state.new_state(c, (d, d + 21)), ...)`. */
  function DateSearch<K>(ctx: Ctx<K>, s: State<K>, inc: set<K>, next: ODict<K, real>, c: K, d: int): (r: Outcome<K>)
    requires Ready(s, inc, next) && c in s.vals && c !in next.vals && d in ctx.datesA
    ensures r.included == inc
    ensures AllGood(ctx, r.solutions, s, next.vals.Keys + {c})
    decreases |next.keys|, 3, 0, 0
  {
    var p := DatePair(d, d + Gap);
    var sub := Backtrack(ctx, NewState(s, c, p).value, inc, next);
    AllGoodLift(ctx, sub.solutions, s, c, p, next.vals.Keys);
    sub
  }

  /** One level of completeness: when `s` is no goal, every solution found
      below a course the search picks, placed on a date it offers for that
      course, is among the solutions of `s` (as often as it was found
      there). */
  lemma BacktrackComplete<K>(ctx: Ctx<K>, s: State<K>, inc: set<K>, notIn: ODict<K, real>, c: K, d: int)
    requires Ready(s, inc, notIn) && !IsGoal(ctx.courseList, s)
    requires c in TopTen(notIn, ctx.desc)
    requires d in OfferedDates(ctx, s, inc + {c}, c)
    ensures multiset(DateSearch(ctx, s, inc + {c}, UpdateCoursePenalties(c, notIn, ctx.pairEval), c, d).solutions)
         <= multiset(Backtrack(ctx, s, inc, notIn).solutions)
  {
    var courses := TopTen(notIn, ctx.desc);
    var i :| 0 <= i < |courses| && courses[i] == c;
    var dates := OfferedDates(ctx, s, inc + {c}, c);
    var k :| 0 <= k < |dates| && dates[k] == d;
    assert multiset(TryCourse(ctx, s, inc, notIn, courses[i])) <= multiset(Backtrack(ctx, s, inc, notIn).solutions);
  }
}

=== FILE: calendar.dfy ===
/** Gregorian calendar dates as day ordinals, the way Python's `datetime.date`
    works: `date(y, m, d)` accepts years 1..9999, months 1..12 and days up to
    the month's length, and date arithmetic and comparison happen on the
    ordinal (`toordinal`, where 0001-01-01 is day 1). */
module Calendar {
  import opened Wrappers

  const MinYear: int := 1
  const MaxYear: int := 9999

  predicate IsLeap(y: int) {
    y % 4 == 0 && (y % 100 != 0 || y % 400 == 0)
  }

  function DaysInYear(y: int): int {
    if IsLeap(y) then 366 else 365
  }

  function DaysInMonth(y: int, m: int): (n: int)
    requires 1 <= m <= 12
    ensures 28 <= n <= 31
  {
    if m == 2 then (if IsLeap(y) then 29 else 28)
    else if m == 4 || m == 6 || m == 9 || m == 11 then 30
    else 31
  }

  /** Days in the months of year `y` before month `m`. */
  function DaysBeforeMonth(y: int, m: int): (n: int)
    requires 1 <= m <= 12
    ensures 0 <= n
  {
    if m == 1 then 0 else DaysBeforeMonth(y, m - 1) + DaysInMonth(y, m - 1)
  }

  /** Days in the years before year `y`. */
  function DaysBeforeYear(y: int): int
    requires y >= 1
  {
    var p := y - 1;
    p * 365 + p / 4 - p / 100 + p / 400
  }

  predicate ValidDate(y: int, m: int, d: int) {
    MinYear <= y <= MaxYear && 1 <= m <= 12 && 1 <= d <= DaysInMonth(y, m)
  }

  /** `date(y, m, d).toordinal()`. */
  function Ordinal(y: int, m: int, d: int): int
    requires ValidDate(y, m, d)
  {
    DaysBeforeYear(y) + DaysBeforeMonth(y, m) + d
  }

  /** `date(y, m, d)`: the day ordinal, or None where Python raises ValueError. */
  function FromYmd(y: int, m: int, d: int): (r: Option<int>)
    ensures r.Some? <==> ValidDate(y, m, d)
    ensures r.Some? ==> r.value >= 1
  {
    if ValidDate(y, m, d) then
      DaysBeforeYearNonNeg(y);
      Some(Ordinal(y, m, d))
    else None
  }

  lemma DaysBeforeYearNonNeg(y: int)
    requires y >= 1
    ensures DaysBeforeYear(y) >= 0
  {
    var p := y - 1;
    assert p / 4 >= p / 100 by {
      assert p / 100 == (p / 4) / 25;
    }
  }

  /** A year has as many days as the distance between the starts of it and the next. */
  lemma YearStep(y: int)
    requires y >= 1
    ensures DaysBeforeYear(y + 1) == DaysBeforeYear(y) + DaysInYear(y)
  {
    DivStep(y, 4);
    DivStep(y, 100);
    DivStep(y, 400);
    if y % 400 == 0 {
      DivisorsOf(y, 400, 100);
      DivisorsOf(y, 400, 4);
    }
    if y % 100 == 0 {
      DivisorsOf(y, 100, 4);
    }
  }

  /** Quotient and remainder are the unique ones. */
  lemma DivUnique(n: int, k: int, q: int, r: int)
    requires k > 0 && n == k * q + r && 0 <= r < k
    ensures n / k == q && n % k == r
  {
    var q0, r0 := n / k, n % k;
    assert n == k * q0 + r0;
    MulSign(k, q - q0);
    assert k * (q - q0) == r0 - r;
  }

  /** A multiple of a positive `k` by a nonzero factor is at least `k` away
      from zero. */
  lemma MulSign(k: int, m: int)
    requires k > 0
    ensures m >= 1 ==> k * m >= k
    ensures m <= -1 ==> k * m <= -k
  {
    if m >= 1 {
      assert k * m == k * (m - 1) + k;
      assert k * (m - 1) >= 0;
    } else if m <= -1 {
      assert k * m == k * (m + 1) - k;
      assert k * (m + 1) <= 0;
    }
  }

  /** Stepping from `y - 1` to `y` adds one multiple of `k` exactly when `k`
      divides `y`. */
  lemma DivStep(y: int, k: int)
    requires k > 0
    ensures y / k == (y - 1) / k + (if y % k == 0 then 1 else 0)
  {
    var q, r := (y - 1) / k, (y - 1) % k;
    if r == k - 1 {
      DivUnique(y, k, q + 1, 0);
    } else {
      DivUnique(y, k, q, r + 1);
    }
  }

  /** A multiple of `k` is a multiple of every divisor of `k`. */
  lemma DivisorsOf(y: int, k: int, j: int)
    requires j > 0 && k > 0 && k % j == 0 && y % k == 0
    ensures y % j == 0
  {
    DivUnique(k, j, k / j, 0);
    DivUnique(y, k, y / k, 0);
    assert y == j * ((k / j) * (y / k));
    DivUnique(y, j, (k / j) * (y / k), 0);
  }

  lemma MonthsFillYear(y: int)
    ensures DaysBeforeMonth(y, 12) + DaysInMonth(y, 12) == DaysInYear(y)
  {
    var feb := if IsLeap(y) then 29 else 28;
    assert DaysBeforeMonth(y, 2) == 0 + 31;
    assert DaysBeforeMonth(y, 3) == 0 + 31 + feb;
    assert DaysBeforeMonth(y, 4) == 0 + 31 + feb + 31;
    assert DaysBeforeMonth(y, 5) == 0 + 31 + feb + 31 + 30;
    assert DaysBeforeMonth(y, 6) == 0 + 31 + feb + 31 + 30 + 31;
    assert DaysBeforeMonth(y, 7) == 0 + 31 + feb + 31 + 30 + 31 + 30;
    assert DaysBeforeMonth(y, 8) == 0 + 31 + feb + 31 + 30 + 31 + 30 + 31;
    assert DaysBeforeMonth(y, 9) == 0 + 31 + feb + 31 + 30 + 31 + 30 + 31 + 31;
    assert DaysBeforeMonth(y, 10) == 0 + 31 + feb + 31 + 30 + 31 + 30 + 31 + 31 + 30;
    assert DaysBeforeMonth(y, 11) == 0 + 31 + feb + 31 + 30 + 31 + 30 + 31 + 31 + 30 + 31;
    assert DaysBeforeMonth(y, 12) == 0 + 31 + feb + 31 + 30 + 31 + 30 + 31 + 31 + 30 + 31 + 30;
  }

  lemma {:induction false} DaysBeforeMonthMonotone(y: int, m: int, m2: int)
    requires 1 <= m < m2 <= 12
    ensures DaysBeforeMonth(y, m) + DaysInMonth(y, m) <= DaysBeforeMonth(y, m2)
    decreases m2 - m
  {
    if m + 1 < m2 {
      DaysBeforeMonthMonotone(y, m + 1, m2);
    }
  }

  lemma {:induction false} DaysBeforeYearMonotone(y: int, y2: int)
    requires 1 <= y <= y2
    ensures DaysBeforeYear(y) <= DaysBeforeYear(y2)
    decreases y2 - y
  {
    if y < y2 {
      YearStep(y);
      DaysBeforeYearMonotone(y + 1, y2);
    }
  }

  /** Every date of year `y` lies between the start of `y` and the start of `y + 1`. */
  lemma OrdinalWithinYear(y: int, m: int, d: int)
    requires ValidDate(y, m, d)
    ensures DaysBeforeYear(y) < Ordinal(y, m, d) <= DaysBeforeYear(y + 1)
  {
    YearStep(y);
    MonthsFillYear(y);
    if m < 12 {
      DaysBeforeMonthMonotone(y, m, 12);
    }
  }

  /** Python compares dates field by field: year, then month, then day. */
  predicate YmdLess(y: int, m: int, d: int, y2: int, m2: int, d2: int) {
    y < y2 || (y == y2 && (m < m2 || (m == m2 && d < d2)))
  }

  /** Comparing ordinals is comparing dates: the ordinal is strictly monotone
      in (year, month, day) order, hence also one-to-one. */
  lemma OrdinalOrder(y: int, m: int, d: int, y2: int, m2: int, d2: int)
    requires ValidDate(y, m, d) && ValidDate(y2, m2, d2)
    ensures YmdLess(y, m, d, y2, m2, d2) <==> Ordinal(y, m, d) < Ordinal(y2, m2, d2)
    ensures (y, m, d) == (y2, m2, d2) <==> Ordinal(y, m, d) == Ordinal(y2, m2, d2)
  {
    if YmdLess(y, m, d, y2, m2, d2) {
      OrdinalLess(y, m, d, y2, m2, d2);
    } else if YmdLess(y2, m2, d2, y, m, d) {
      OrdinalLess(y2, m2, d2, y, m, d);
    }
  }

  lemma OrdinalLess(y: int, m: int, d: int, y2: int, m2: int, d2: int)
    requires ValidDate(y, m, d) && ValidDate(y2, m2, d2)
    requires YmdLess(y, m, d, y2, m2, d2)
    ensures Ordinal(y, m, d) < Ordinal(y2, m2, d2)
  {
    if y < y2 {
      OrdinalWithinYear(y, m, d);
      OrdinalWithinYear(y2, m2, d2);
      DaysBeforeYearMonotone(y + 1, y2);
    } else if m < m2 {
      DaysBeforeMonthMonotone(y, m, m2);
    }
  }
}

=== FILE: csv_loader.dfy ===
/** Ingestion of the majors table (CSVdataloader): rows after the three header
    rows describe one major each; per semester three cells list the mandatory,
    mandatory-elective and elective course numbers separated by ", ". Rows are
    given as lists of cells; reading the file is outside the model. */
module CsvLoader {
  import opened Wrappers
  import opened OrderedDict
  import opened Objects
  import Text

  /** Rows before this index are headers and are skipped. */
  const HeaderRows: nat := 3

  /** Column 0 names the major; semester s uses columns 3s+1 .. 3s+3, so a row
      needs 25 cells. */
  const RowWidth: nat := 3 * SemesterCount + 1

  /** The column holding the courses of type `t` in semester `s`. */
  function Column(s: Semester, t: CourseType): (col: nat)
    ensures 1 <= col < RowWidth
    ensures col % 3 == (match t case Hova => 1 case BhiratHova => 2 case Bhira => 0)
    ensures (col - 1) / 3 == s
  {
    3 * s + 1 + (match t case Hova => 0 case BhiratHova => 1 case Bhira => 2)
  }

  /** The course numbers in one cell. Splitting "" gives [""], which the loader
      turns into no courses at all. */
  function CellCourses(cell: string): (r: seq<CourseNum>)
    ensures r == [] <==> cell == ""
  {
    Text.SplitIsEmptyPiece(cell);
    var parts := Text.Split(cell);
    if parts == [""] then [] else parts
  }

  /** The numbers of a non-empty cell are its separator-free pieces: joining
      them with ", " gives the cell back. */
  lemma CellCoursesJoin(cell: string)
    ensures CellCourses(cell) != [] ==> Text.Join(CellCourses(cell)) == cell
    ensures forall i :: 0 <= i < |CellCourses(cell)| ==> !Text.ContainsSep(CellCourses(cell)[i])
  {
    Text.JoinSplit(cell);
    Text.SplitPiecesHaveNoSep(cell);
  }

  function Members(nums: seq<CourseNum>): set<CourseNum> {
    set n | n in nums
  }

  lemma MembersCons(nums: seq<CourseNum>)
    requires nums != []
    ensures Members(nums) == {nums[0]} + Members(nums[1..])
  {
    assert nums == [nums[0]] + nums[1..];
  }

  /** The course dictionary keeps one course per number, stored under that
      number, and every course's major lists start with a tuple. */
  predicate CoursesInv(courses: ODict<CourseNum, Course>) {
    && Valid(courses)
    && forall n :: n in courses.vals ==>
         courses.vals[n].number == n && EntriesWellFormed(courses.vals[n])
  }

  /** The course of an earlier call survives in `after`: same number and name,
      no major dropped, and the first entry of every major list kept. */
  predicate Extends(before: Course, after: Course) {
    && after.number == before.number && after.name == before.name
    && before.majors.Keys <= after.majors.Keys
    && forall m :: m in before.majors ==> FirstEntry(after, m) == FirstEntry(before, m)
  }

  function FirstEntry(c: Course, m: MajorId): Option<Entry>
    requires m in c.majors
  {
    if |c.majors[m]| > 0 then Some(c.majors[m][0]) else None
  }

  /** `b` is the dictionary `a` after more courses were added: old numbers keep
      their place and their (extended) course; new numbers come after. */
  predicate Grows(a: ODict<CourseNum, Course>, b: ODict<CourseNum, Course>) {
    && a.vals.Keys <= b.vals.Keys
    && |a.keys| <= |b.keys| && b.keys[..|a.keys|] == a.keys
    && forall n :: n in a.vals ==> Extends(a.vals[n], b.vals[n])
  }

  lemma GrowsRefl(a: ODict<CourseNum, Course>)
    ensures Grows(a, a)
  {
  }

  lemma GrowsTransitive(a: ODict<CourseNum, Course>, b: ODict<CourseNum, Course>, c: ODict<CourseNum, Course>)
    requires Grows(a, b) && Grows(b, c)
    ensures Grows(a, c)
  {
    assert c.keys[..|a.keys|] == c.keys[..|b.keys|][..|a.keys|];
  }

  /** The course side of one iteration of `_add_course`: reuse the course
      already stored under the number, or create and store a new one named
      "no name", and record the major in it: a first sighting of the major
      starts its list with the tuple `(s, t)`, a later one appends the nested
      `[(s, t)]`; the course's other majors are kept. */
  function RecordCourse(courses: ODict<CourseNum, Course>, n: CourseNum, major: MajorId,
                        t: CourseType, s: Semester): (r: ODict<CourseNum, Course>)
    ensures r.vals.Keys == courses.vals.Keys + {n}
    ensures major in r.vals[n].majors
    ensures r.vals == courses.vals[n := r.vals[n]]
    ensures n in courses.vals ==> r.keys == courses.keys
    ensures n !in courses.vals ==> r.keys == courses.keys + [n]
    ensures var before := if n in courses.vals then courses.vals[n] else NewCourse(n, "no name");
      && r.vals[n].number == before.number && r.vals[n].name == before.name
      && r.vals[n].majors.Keys == before.majors.Keys + {major}
      && (forall m :: m in before.majors && m != major ==> r.vals[n].majors[m] == before.majors[m])
      && (major !in before.majors ==> r.vals[n].majors[major] == [Pair(s, t)])
      && (major in before.majors ==> r.vals[n].majors[major] == before.majors[major] + [Nested(s, t)])
  {
    var course := if n in courses.vals then courses.vals[n] else NewCourse(n, "no name");
    Put(courses, n, AddMajor(course, major, s, t))
  }

  /** One iteration keeps the dictionary invariant, and the course that was
      already there is the one extended. */
  /** Recording keeps every course well formed under its own number. */
  lemma RecordCourseInv(courses: ODict<CourseNum, Course>, n: CourseNum, major: MajorId,
                        t: CourseType, s: Semester)
    requires CoursesInv(courses)
    ensures CoursesInv(RecordCourse(courses, n, major, t, s))
  {
    var course := if n in courses.vals then courses.vals[n] else NewCourse(n, "no name");
    var added := AddMajor(course, major, s, t);
    AddMajorKeepsWellFormed(course, major, s, t);
    PutValid(courses, n, added);
    var r := RecordCourse(courses, n, major, t, s);
    assert r.vals[n] == added;
    forall c | c in r.vals
      ensures r.vals[c].number == c && EntriesWellFormed(r.vals[c])
    {
      if c != n {
        assert r.vals[c] == courses.vals[c];
      }
    }
  }

  lemma RecordCourseGrows(courses: ODict<CourseNum, Course>, n: CourseNum, major: MajorId,
                          t: CourseType, s: Semester)
    requires CoursesInv(courses)
    ensures CoursesInv(RecordCourse(courses, n, major, t, s))
    ensures Grows(courses, RecordCourse(courses, n, major, t, s))
  {
    RecordCourseInv(courses, n, major, t, s);
    var course := if n in courses.vals then courses.vals[n] else NewCourse(n, "no name");
    var added := AddMajor(course, major, s, t);
    PutValid(courses, n, added);
    var r := RecordCourse(courses, n, major, t, s);
    assert r.vals[n] == added;
    assert r.keys[..|courses.keys|] == courses.keys;
    forall c | c in courses.vals
      ensures Extends(courses.vals[c], r.vals[c])
    {
      if c == n {
        assert Extends(course, added);
      } else {
        assert r.vals[c] == courses.vals[c];
      }
    }
  }

  /** The course side of `_add_course` over one bucket. */
  function RecordCourses(courses: ODict<CourseNum, Course>, nums: seq<CourseNum>, major: MajorId,
                         t: CourseType, s: Semester): ODict<CourseNum, Course>
    decreases |nums|
  {
    if nums == [] then courses
    else RecordCourses(RecordCourse(courses, nums[0], major, t, s), nums[1..], major, t, s)
  }

  /** Adding a bucket keeps exactly one course per number and extends, never
      replaces, a course seen before. */
  lemma {:induction false} RecordCoursesGrows(courses: ODict<CourseNum, Course>, nums: seq<CourseNum>,
                                              major: MajorId, t: CourseType, s: Semester)
    requires CoursesInv(courses)
    ensures CoursesInv(RecordCourses(courses, nums, major, t, s))
    ensures Grows(courses, RecordCourses(courses, nums, major, t, s))
    decreases |nums|
  {
    if nums == [] {
      GrowsRefl(courses);
    } else {
      var step := RecordCourse(courses, nums[0], major, t, s);
      RecordCourseGrows(courses, nums[0], major, t, s);
      RecordCoursesGrows(step, nums[1..], major, t, s);
      GrowsTransitive(courses, step, RecordCourses(step, nums[1..], major, t, s));
    }
  }

  /** After a bucket the dictionary holds exactly the old numbers and the
      listed ones; numbers not listed keep their course. */
  lemma {:induction false} RecordCoursesKeys(courses: ODict<CourseNum, Course>, nums: seq<CourseNum>,
                                             major: MajorId, t: CourseType, s: Semester)
    ensures RecordCourses(courses, nums, major, t, s).vals.Keys == courses.vals.Keys + Members(nums)
    ensures forall n :: n in courses.vals && n !in nums ==>
      RecordCourses(courses, nums, major, t, s).vals[n] == courses.vals[n]
    decreases |nums|
  {
    if nums != [] {
      RecordCoursesKeys(RecordCourse(courses, nums[0], major, t, s), nums[1..], major, t, s);
      MembersCons(nums);
    }
  }

  /** After a bucket every listed number's course records the major. */
  lemma {:induction false} RecordCoursesMajor(courses: ODict<CourseNum, Course>, nums: seq<CourseNum>,
                                              major: MajorId, t: CourseType, s: Semester)
    requires CoursesInv(courses)
    ensures forall n :: n in nums ==>
      n in RecordCourses(courses, nums, major, t, s).vals &&
      major in RecordCourses(courses, nums, major, t, s).vals[n].majors
    decreases |nums|
  {
    if nums != [] {
      var step := RecordCourse(courses, nums[0], major, t, s);
      RecordCourseGrows(courses, nums[0], major, t, s);
      RecordCoursesMajor(step, nums[1..], major, t, s);
      RecordCoursesGrows(step, nums[1..], major, t, s);
      var r := RecordCourses(step, nums[1..], major, t, s);
      assert Extends(step.vals[nums[0]], r.vals[nums[0]]);
    }
  }

  /** The major side of `_add_course` over one bucket. */
  function RecordInMajor(major: Major, nums: seq<CourseNum>, t: CourseType, s: Semester): (r: Major)
    requires MajorShape(major)
    ensures MajorShape(r) && Id(r) == Id(major)
    decreases |nums|
  {
    if nums == [] then major else RecordInMajor(AddCourse(major, nums[0], t, s), nums[1..], t, s)
  }

  /** After a bucket the major's semester lists every number of it with the
      bucket's type; other numbers keep their type. */
  lemma {:induction false} RecordInMajorFacts(major: Major, nums: seq<CourseNum>, t: CourseType, s: Semester)
    requires MajorShape(major)
    ensures var r := RecordInMajor(major, nums, t, s);
      && SemCourses(r, s).vals.Keys == SemCourses(major, s).vals.Keys + Members(nums)
      && (forall n :: n in nums ==> SemCourses(r, s).vals[n] == t)
      && (forall n :: n in SemCourses(major, s).vals && n !in nums ==>
            SemCourses(r, s).vals[n] == SemCourses(major, s).vals[n])
    decreases |nums|
  {
    if nums != [] {
      RecordInMajorFacts(AddCourse(major, nums[0], t, s), nums[1..], t, s);
      MembersCons(nums);
    }
  }

  /** A bucket of semester `s` leaves the other semesters alone and keeps the
      major's dictionaries well formed. */
  lemma {:induction false} RecordInMajorFrame(major: Major, nums: seq<CourseNum>, t: CourseType, s: Semester)
    requires MajorShape(major)
    ensures forall s': Semester :: s' != s ==>
      SemCourses(RecordInMajor(major, nums, t, s), s') == SemCourses(major, s')
    ensures MajorWellFormed(major) ==> MajorWellFormed(RecordInMajor(major, nums, t, s))
    decreases |nums|
  {
    if nums != [] {
      AddCourseFrame(major, nums[0], t, s);
      RecordInMajorFrame(AddCourse(major, nums[0], t, s), nums[1..], t, s);
    }
  }

  /** `_add_course`. Each iteration updates the course stored under the number
      and the major; the course update depends on the major only through its
      identity, so the two sides are folded separately. */
  function AddCourses(courses: ODict<CourseNum, Course>, major: Major, nums: seq<CourseNum>,
                      t: CourseType, s: Semester): (r: (ODict<CourseNum, Course>, Major))
    requires MajorShape(major)
    ensures MajorShape(r.1) && Id(r.1) == Id(major)
  {
    (RecordCourses(courses, nums, Id(major), t, s), RecordInMajor(major, nums, t, s))
  }

  /** The cells of a row, each split into its course numbers. */
  function RowCells(row: seq<string>): (r: seq<seq<CourseNum>>)
    ensures |r| == |row|
    ensures forall i :: 0 <= i < |row| ==> r[i] == CellCourses(row[i])
  {
    seq(|row|, i requires 0 <= i < |row| => CellCourses(row[i]))
  }

  /** The numbers of the cell of semester `s` listing courses of type `t`. */
  function CellNums(cells: seq<seq<CourseNum>>, s: Semester, t: CourseType): set<CourseNum>
    requires |cells| >= RowWidth
  {
    Members(cells[Column(s, t)])
  }

  /** The numbers listed in any of the three split cells of semester `s`. */
  function SemNums(cells: seq<seq<CourseNum>>, s: Semester): set<CourseNum>
    requires |cells| >= RowWidth
  {
    CellNums(cells, s, Hova) + CellNums(cells, s, BhiratHova) + CellNums(cells, s, Bhira)
  }

  /** The type a number of semester `s` ends up with in the major: that of
      the last of the three cells listing it. */
  function LastType(cells: seq<seq<CourseNum>>, s: Semester, n: CourseNum): CourseType
    requires |cells| >= RowWidth
  {
    if n in cells[Column(s, Bhira)] then Bhira
    else if n in cells[Column(s, BhiratHova)] then BhiratHova
    else Hova
  }

  /** Semester `s` of the major holds exactly the numbers the split cells list for
      it, each with the type of the last cell listing it. */
  predicate SemRead(m: Major, cells: seq<seq<CourseNum>>, s: Semester)
    requires MajorShape(m) && |cells| >= RowWidth
  {
    && SemCourses(m, s).vals.Keys == SemNums(cells, s)
    && forall n :: n in SemCourses(m, s).vals ==> SemCourses(m, s).vals[n] == LastType(cells, s, n)
  }

  /** Every semester of the major is read from the row's cells. */
  predicate MajorRead(m: Major, row: seq<string>) {
    MajorShape(m) && |row| >= RowWidth && forall s: Semester :: SemRead(m, RowCells(row), s)
  }

  /** Every number the major lists is stored with a course that records the
      major: the two sides `_add_course` updates agree. */
  predicate Consistent(courses: ODict<CourseNum, Course>, major: Major)
    requires MajorShape(major)
  {
    forall s: Semester, n :: n in SemCourses(major, s).vals ==>
      n in courses.vals && Id(major) in courses.vals[n].majors
  }

  /** Extending the courses keeps every recorded major. */
  lemma ConsistentGrows(a: ODict<CourseNum, Course>, b: ODict<CourseNum, Course>, major: Major)
    requires MajorShape(major) && Consistent(a, major) && Grows(a, b)
    ensures Consistent(b, major)
  {
    forall s: Semester, n | n in SemCourses(major, s).vals
      ensures n in b.vals && Id(major) in b.vals[n].majors
    {
      assert Extends(a.vals[n], b.vals[n]);
    }
  }

  /** One iteration of `_add_course` updates both sides for the same number. */
  lemma RecordStepConsistent(courses: ODict<CourseNum, Course>, major: Major, n: CourseNum,
                             t: CourseType, s: Semester)
    requires CoursesInv(courses) && MajorShape(major) && Consistent(courses, major)
    ensures Consistent(RecordCourse(courses, n, Id(major), t, s), AddCourse(major, n, t, s))
  {
    var c := RecordCourse(courses, n, Id(major), t, s);
    var m := AddCourse(major, n, t, s);
    RecordCourseGrows(courses, n, Id(major), t, s);
    ConsistentGrows(courses, c, major);
    AddCourseFrame(major, n, t, s);
    forall s': Semester, x | x in SemCourses(m, s').vals
      ensures x in c.vals && Id(m) in c.vals[x].majors
    {
      if s' != s || x != n {
        assert x in SemCourses(major, s').vals;
      }
    }
  }

  /** `_add_course` over one bucket keeps the two sides agreeing. */
  lemma {:induction false} AddCoursesConsistent(courses: ODict<CourseNum, Course>, major: Major,
                                                nums: seq<CourseNum>, t: CourseType, s: Semester)
    requires CoursesInv(courses) && MajorShape(major) && Consistent(courses, major)
    ensures CoursesInv(AddCourses(courses, major, nums, t, s).0)
    ensures Consistent(AddCourses(courses, major, nums, t, s).0, AddCourses(courses, major, nums, t, s).1)
    decreases |nums|
  {
    if nums != [] {
      RecordStepConsistent(courses, major, nums[0], t, s);
      RecordCourseGrows(courses, nums[0], Id(major), t, s);
      AddCoursesConsistent(RecordCourse(courses, nums[0], Id(major), t, s),
                           AddCourse(major, nums[0], t, s), nums[1..], t, s);
    }
  }

  /** The three buckets of one semester added in the order mandatory,
      mandatory-elective, elective. */
  function AddBuckets(courses: ODict<CourseNum, Course>, major: Major, hova: seq<CourseNum>,
                      bhova: seq<CourseNum>, bhira: seq<CourseNum>, s: Semester): (r: (ODict<CourseNum, Course>, Major))
    requires MajorShape(major)
    ensures MajorShape(r.1) && Id(r.1) == Id(major)
  {
    var r1 := AddCourses(courses, major, hova, Hova, s);
    var r2 := AddCourses(r1.0, r1.1, bhova, BhiratHova, s);
    AddCourses(r2.0, r2.1, bhira, Bhira, s)
  }

  /** Buckets of semester `s` leave the other semesters alone. */
  lemma AddBucketsFrame(courses: ODict<CourseNum, Course>, major: Major, hova: seq<CourseNum>,
                        bhova: seq<CourseNum>, bhira: seq<CourseNum>, s: Semester)
    requires MajorShape(major)
    ensures forall s': Semester :: s' != s ==>
      SemCourses(AddBuckets(courses, major, hova, bhova, bhira, s).1, s') == SemCourses(major, s')
  {
    var m1 := RecordInMajor(major, hova, Hova, s);
    var m2 := RecordInMajor(m1, bhova, BhiratHova, s);
    RecordInMajorFrame(major, hova, Hova, s);
    RecordInMajorFrame(m1, bhova, BhiratHova, s);
    RecordInMajorFrame(m2, bhira, Bhira, s);
  }

  lemma AddBucketsConsistent(courses: ODict<CourseNum, Course>, major: Major, hova: seq<CourseNum>,
                             bhova: seq<CourseNum>, bhira: seq<CourseNum>, s: Semester)
    requires CoursesInv(courses) && MajorShape(major) && Consistent(courses, major)
    ensures CoursesInv(AddBuckets(courses, major, hova, bhova, bhira, s).0)
    ensures Consistent(AddBuckets(courses, major, hova, bhova, bhira, s).0,
                       AddBuckets(courses, major, hova, bhova, bhira, s).1)
  {
    var r1 := AddCourses(courses, major, hova, Hova, s);
    var r2 := AddCourses(r1.0, r1.1, bhova, BhiratHova, s);
    AddCoursesConsistent(courses, major, hova, Hova, s);
    AddCoursesConsistent(r1.0, r1.1, bhova, BhiratHova, s);
    AddCoursesConsistent(r2.0, r2.1, bhira, Bhira, s);
  }

  /** `_read_sem_k`: the three buckets of semester `s`, added in the order
      mandatory, mandatory-elective, elective. */
  function ReadSem(courses: ODict<CourseNum, Course>, major: Major, cells: seq<seq<CourseNum>>, s: Semester)
    : (r: (ODict<CourseNum, Course>, Major))
    requires MajorShape(major) && |cells| >= RowWidth
    ensures MajorShape(r.1) && Id(r.1) == Id(major)
    ensures r.0.vals.Keys == courses.vals.Keys + SemNums(cells, s)
  {
    var mid := Id(major);
    var hova := cells[Column(s, Hova)];
    var bhova := cells[Column(s, BhiratHova)];
    var c1 := RecordCourses(courses, hova, mid, Hova, s);
    var c2 := RecordCourses(c1, bhova, mid, BhiratHova, s);
    RecordCoursesKeys(courses, hova, mid, Hova, s);
    RecordCoursesKeys(c1, bhova, mid, BhiratHova, s);
    RecordCoursesKeys(c2, cells[Column(s, Bhira)], mid, Bhira, s);
    AddBuckets(courses, major, hova, bhova, cells[Column(s, Bhira)], s)
  }

  /** A number listed in several buckets of one semester keeps the type of the
      bucket added last: elective over mandatory-elective over mandatory; the
      other semesters of the major are untouched. */
  lemma ReadSemLastTypeWins(courses: ODict<CourseNum, Course>, major: Major, cells: seq<seq<CourseNum>>, s: Semester)
    requires MajorShape(major) && |cells| >= RowWidth
    ensures var r := ReadSem(courses, major, cells, s);
      var hova := cells[Column(s, Hova)];
      var bhova := cells[Column(s, BhiratHova)];
      var bhira := cells[Column(s, Bhira)];
      && SemCourses(r.1, s).vals.Keys == SemCourses(major, s).vals.Keys + Members(hova) + Members(bhova) + Members(bhira)
      && (forall n :: n in bhira ==> SemCourses(r.1, s).vals[n] == Bhira)
      && (forall n :: n in bhova && n !in bhira ==> SemCourses(r.1, s).vals[n] == BhiratHova)
      && (forall n :: n in hova && n !in bhova && n !in bhira ==> SemCourses(r.1, s).vals[n] == Hova)
      && (forall s': Semester :: s' != s ==> SemCourses(r.1, s') == SemCourses(major, s'))
  {
    var hova := cells[Column(s, Hova)];
    var bhova := cells[Column(s, BhiratHova)];
    var bhira := cells[Column(s, Bhira)];
    var m1 := RecordInMajor(major, hova, Hova, s);
    var m2 := RecordInMajor(m1, bhova, BhiratHova, s);
    RecordInMajorFacts(major, hova, Hova, s);
    RecordInMajorFacts(m1, bhova, BhiratHova, s);
    RecordInMajorFacts(m2, bhira, Bhira, s);
    RecordInMajorFrame(major, hova, Hova, s);
    RecordInMajorFrame(m1, bhova, BhiratHova, s);
    RecordInMajorFrame(m2, bhira, Bhira, s);
  }

  /** Reading one semester leaves the other semesters alone. */
  lemma ReadSemFrame(courses: ODict<CourseNum, Course>, major: Major, cells: seq<seq<CourseNum>>, s: Semester)
    requires MajorShape(major) && |cells| >= RowWidth
    ensures forall s': Semester :: s' != s ==> SemCourses(ReadSem(courses, major, cells, s).1, s') == SemCourses(major, s')
  {
    AddBucketsFrame(courses, major, cells[Column(s, Hova)],
      cells[Column(s, BhiratHova)], cells[Column(s, Bhira)], s);
  }

  /** One semester keeps the dictionary invariant and only extends it. */
  lemma ReadSemGrows(courses: ODict<CourseNum, Course>, major: Major, cells: seq<seq<CourseNum>>, s: Semester)
    requires CoursesInv(courses) && MajorShape(major) && |cells| >= RowWidth
    ensures CoursesInv(ReadSem(courses, major, cells, s).0) && Grows(courses, ReadSem(courses, major, cells, s).0)
  {
    var mid := Id(major);
    var hova := cells[Column(s, Hova)];
    var bhova := cells[Column(s, BhiratHova)];
    var bhira := cells[Column(s, Bhira)];
    var c1 := RecordCourses(courses, hova, mid, Hova, s);
    var c2 := RecordCourses(c1, bhova, mid, BhiratHova, s);
    var c3 := RecordCourses(c2, bhira, mid, Bhira, s);
    RecordCoursesGrows(courses, hova, mid, Hova, s);
    RecordCoursesGrows(c1, bhova, mid, BhiratHova, s);
    RecordCoursesGrows(c2, bhira, mid, Bhira, s);
    GrowsTransitive(c1, c2, c3);
    GrowsTransitive(courses, c1, c3);
  }

  /** Every number of the three buckets ends up stored with a course that
      records the major, and the dictionary keeps its invariant. */
  lemma ReadSemRecordsMajor(courses: ODict<CourseNum, Course>, major: Major, cells: seq<seq<CourseNum>>, s: Semester)
    requires CoursesInv(courses) && MajorShape(major) && |cells| >= RowWidth
    ensures var r := ReadSem(courses, major, cells, s);
      && CoursesInv(r.0) && Grows(courses, r.0)
      && forall n ::
           (n in cells[Column(s, Hova)] || n in cells[Column(s, BhiratHova)] ||
            n in cells[Column(s, Bhira)]) ==> n in r.0.vals && Id(major) in r.0.vals[n].majors
  {
    var mid := Id(major);
    var hova := cells[Column(s, Hova)];
    var bhova := cells[Column(s, BhiratHova)];
    var bhira := cells[Column(s, Bhira)];
    var c1 := RecordCourses(courses, hova, mid, Hova, s);
    var c2 := RecordCourses(c1, bhova, mid, BhiratHova, s);
    var c3 := RecordCourses(c2, bhira, mid, Bhira, s);
    RecordCoursesGrows(courses, hova, mid, Hova, s);
    RecordCoursesGrows(c1, bhova, mid, BhiratHova, s);
    RecordCoursesGrows(c2, bhira, mid, Bhira, s);
    RecordCoursesMajor(courses, hova, mid, Hova, s);
    RecordCoursesMajor(c1, bhova, mid, BhiratHova, s);
    RecordCoursesMajor(c2, bhira, mid, Bhira, s);
    GrowsTransitive(c1, c2, c3);
    GrowsTransitive(courses, c1, c3);
  }

  /** The eight semesters of one row's split cells, SEM1 first. */
  function ReadSemsFrom(courses: ODict<CourseNum, Course>, major: Major, cells: seq<seq<CourseNum>>, s: nat)
    : (r: (ODict<CourseNum, Course>, Major))
    requires MajorShape(major) && |cells| >= RowWidth && s <= SemesterCount
    ensures MajorShape(r.1) && Id(r.1) == Id(major)
    decreases SemesterCount - s
  {
    if s == SemesterCount then (courses, major)
    else
      var r1 := ReadSem(courses, major, cells, s);
      ReadSemsFrom(r1.0, r1.1, cells, s + 1)
  }

  lemma {:induction false} ReadSemsFromGrows(courses: ODict<CourseNum, Course>, major: Major, cells: seq<seq<CourseNum>>, s: nat)
    requires CoursesInv(courses) && MajorShape(major) && |cells| >= RowWidth && s <= SemesterCount
    ensures CoursesInv(ReadSemsFrom(courses, major, cells, s).0)
    ensures Grows(courses, ReadSemsFrom(courses, major, cells, s).0)
    decreases SemesterCount - s
  {
    if s == SemesterCount {
      GrowsRefl(courses);
    } else {
      var r1 := ReadSem(courses, major, cells, s);
      ReadSemGrows(courses, major, cells, s);
      ReadSemsFromGrows(r1.0, r1.1, cells, s + 1);
      GrowsTransitive(courses, r1.0, ReadSemsFrom(r1.0, r1.1, cells, s + 1).0);
    }
  }

  /** Semester `s` read into an empty semester map holds exactly the numbers of its
      split cells. */
  lemma ReadSemFresh(courses: ODict<CourseNum, Course>, major: Major, cells: seq<seq<CourseNum>>, s: Semester)
    requires MajorShape(major) && |cells| >= RowWidth && SemCourses(major, s).vals == map[]
    ensures SemRead(ReadSem(courses, major, cells, s).1, cells, s)
    ensures forall s': Semester :: s' != s ==> SemCourses(ReadSem(courses, major, cells, s).1, s') == SemCourses(major, s')
  {
    ReadSemLastTypeWins(courses, major, cells, s);
  }

  /** The numbers the major lists in semesters `s` .. 7. */
  function MajorNumsFrom(m: Major, s: nat): set<CourseNum>
    requires MajorShape(m) && s <= SemesterCount
    decreases SemesterCount - s
  {
    if s == SemesterCount then {} else SemCourses(m, s).vals.Keys + MajorNumsFrom(m, s + 1)
  }

  /** The numbers the major lists in any semester. */
  function MajorNums(m: Major): set<CourseNum>
    requires MajorShape(m)
  {
    MajorNumsFrom(m, 0)
  }

  lemma {:induction false} MajorNumsFromMeans(m: Major, s: nat, n: CourseNum)
    requires MajorShape(m) && s <= SemesterCount
    ensures n in MajorNumsFrom(m, s) <==> exists s': Semester :: s <= s' && n in SemCourses(m, s').vals
    decreases SemesterCount - s
  {
    if s < SemesterCount {
      MajorNumsFromMeans(m, s + 1, n);
      if n in SemCourses(m, s).vals {
        var w: Semester := s;
        assert s <= w && n in SemCourses(m, w).vals;
      }
    }
  }

  /** Reading semesters `s` .. 7 leaves the earlier ones alone. */
  lemma {:induction false} ReadSemsFromFrame(courses: ODict<CourseNum, Course>, major: Major, cells: seq<seq<CourseNum>>, s: nat)
    requires MajorShape(major) && |cells| >= RowWidth && s <= SemesterCount
    ensures forall s': Semester :: s' < s ==>
      SemCourses(ReadSemsFrom(courses, major, cells, s).1, s') == SemCourses(major, s')
    decreases SemesterCount - s
  {
    if s < SemesterCount {
      var r1 := ReadSem(courses, major, cells, s);
      ReadSemFrame(courses, major, cells, s);
      ReadSemsFromFrame(r1.0, r1.1, cells, s + 1);
    }
  }

  /** Reading semesters `s` .. 7 into empty semester maps: each of them ends
      up holding exactly the split cells for it. */
  lemma {:induction false} ReadSemsFromSem(courses: ODict<CourseNum, Course>, major: Major, cells: seq<seq<CourseNum>>,
                                           s: nat, s': Semester)
    requires MajorShape(major) && |cells| >= RowWidth && s <= s'
    requires forall i: Semester :: s <= i ==> SemCourses(major, i).vals == map[]
    ensures SemRead(ReadSemsFrom(courses, major, cells, s).1, cells, s')
    decreases SemesterCount - s
  {
    var r1 := ReadSem(courses, major, cells, s);
    ReadSemFresh(courses, major, cells, s);
    if s == s' {
      ReadSemsFromFrame(r1.0, r1.1, cells, s + 1);
    } else {
      ReadSemsFromSem(r1.0, r1.1, cells, s + 1, s');
    }
  }

  /** Reading semesters `s` .. 7 into empty semester maps adds to the course
      dictionary exactly the numbers those semesters end up listing. */
  lemma {:induction false} ReadSemsFromKeys(courses: ODict<CourseNum, Course>, major: Major, cells: seq<seq<CourseNum>>, s: nat)
    requires MajorShape(major) && |cells| >= RowWidth && s <= SemesterCount
    requires forall i: Semester :: s <= i ==> SemCourses(major, i).vals == map[]
    ensures var r := ReadSemsFrom(courses, major, cells, s);
      r.0.vals.Keys == courses.vals.Keys + MajorNumsFrom(r.1, s)
    decreases SemesterCount - s
  {
    if s < SemesterCount {
      var r1 := ReadSem(courses, major, cells, s);
      var r := ReadSemsFrom(r1.0, r1.1, cells, s + 1);
      ReadSemFresh(courses, major, cells, s);
      ReadSemsFromKeys(r1.0, r1.1, cells, s + 1);
      ReadSemsFromFrame(r1.0, r1.1, cells, s + 1);
      assert SemCourses(r.1, s) == SemCourses(r1.1, s);
    }
  }

  /** Reading one semester keeps the two sides agreeing. */
  lemma ReadSemConsistent(courses: ODict<CourseNum, Course>, major: Major, cells: seq<seq<CourseNum>>, s: Semester)
    requires CoursesInv(courses) && MajorShape(major) && Consistent(courses, major) && |cells| >= RowWidth
    ensures CoursesInv(ReadSem(courses, major, cells, s).0)
    ensures Consistent(ReadSem(courses, major, cells, s).0, ReadSem(courses, major, cells, s).1)
  {
    AddBucketsConsistent(courses, major, cells[Column(s, Hova)],
      cells[Column(s, BhiratHova)], cells[Column(s, Bhira)], s);
  }

  /** Reading semesters `s` .. 7 keeps the two sides agreeing. */
  lemma {:induction false} ReadSemsFromConsistent(courses: ODict<CourseNum, Course>, major: Major,
                                                  cells: seq<seq<CourseNum>>, s: nat)
    requires CoursesInv(courses) && MajorShape(major) && Consistent(courses, major)
    requires |cells| >= RowWidth && s <= SemesterCount
    ensures Consistent(ReadSemsFrom(courses, major, cells, s).0, ReadSemsFrom(courses, major, cells, s).1)
    decreases SemesterCount - s
  {
    if s < SemesterCount {
      var r1 := ReadSem(courses, major, cells, s);
      ReadSemConsistent(courses, major, cells, s);
      ReadSemsFromConsistent(r1.0, r1.1, cells, s + 1);
    }
  }

  /** What the loader holds after reading the table. The Python keeps only the
      course dictionary; the majors it builds are reachable through the
      courses, and the model lists them explicitly. */
  datatype Loaded = Loaded(courses: ODict<CourseNum, Course>, majors: seq<Major>)

  /** Indexing a cell past the end of a row raises IndexError. */
  datatype LoadError = RowTooShort(row: nat)

  /** One data row: a new major named by cell 0 and numbered by the row index,
      then its eight semesters; the major joins the list after the others. */
  function ReadRow(acc: Loaded, row: seq<string>, k: nat): (r: Loaded)
    requires |row| >= RowWidth
    ensures |r.majors| == |acc.majors| + 1 && r.majors == acc.majors + [r.majors[|acc.majors|]]
    ensures r.majors[|acc.majors|].name == row[0] && r.majors[|acc.majors|].num == k
    ensures MajorShape(r.majors[|acc.majors|])
    ensures r.courses.vals.Keys == acc.courses.vals.Keys + MajorNums(r.majors[|acc.majors|])
  {
    var read := ReadSemsFrom(acc.courses, NewMajor(row[0], k), RowCells(row), 0);
    ReadSemsFromKeys(acc.courses, NewMajor(row[0], k), RowCells(row), 0);
    assert Id(read.1) == MajorId(row[0], k);
    Loaded(read.0, acc.majors + [read.1])
  }

  /** A new major lists nothing, so it agrees with any courses. */
  lemma NewMajorConsistent(courses: ODict<CourseNum, Course>, name: string, k: nat)
    ensures MajorShape(NewMajor(name, k)) && Consistent(courses, NewMajor(name, k))
  {
    forall s: Semester, n | n in SemCourses(NewMajor(name, k), s).vals
      ensures false
    {
    }
  }

  /** Every number the row's major lists is stored with a course recording the
      major. */
  lemma ReadRowConsistent(acc: Loaded, row: seq<string>, k: nat)
    requires |row| >= RowWidth && CoursesInv(acc.courses)
    ensures Consistent(ReadRow(acc, row, k).courses, ReadRow(acc, row, k).majors[|acc.majors|])
  {
    NewMajorConsistent(acc.courses, row[0], k);
    ReadSemsFromConsistent(acc.courses, NewMajor(row[0], k), RowCells(row), 0);
  }

  /** Every semester of the row's major holds exactly the row's cells for
      it. */
  lemma ReadRowReads(acc: Loaded, row: seq<string>, k: nat)
    requires |row| >= RowWidth
    ensures MajorRead(ReadRow(acc, row, k).majors[|acc.majors|], row)
  {
    var read := ReadSemsFrom(acc.courses, NewMajor(row[0], k), RowCells(row), 0);
    assert ReadRow(acc, row, k).majors[|acc.majors|] == read.1;
    forall s: Semester
      ensures SemRead(read.1, RowCells(row), s)
    {
      ReadSemsFromSem(acc.courses, NewMajor(row[0], k), RowCells(row), 0, s);
    }
  }

  lemma ReadRowInv(acc: Loaded, row: seq<string>, k: nat)
    requires |row| >= RowWidth && CoursesInv(acc.courses)
    ensures CoursesInv(ReadRow(acc, row, k).courses)
    ensures Grows(acc.courses, ReadRow(acc, row, k).courses)
  {
    ReadSemsFromGrows(acc.courses, NewMajor(row[0], k), RowCells(row), 0);
  }

  /** The loop body of `_parse` for one data row. */
  method ReadMajorRow(acc: Loaded, row: seq<string>, k: nat) returns (r: Loaded)
    requires |row| >= RowWidth && CoursesInv(acc.courses)
    ensures CoursesInv(r.courses) && Grows(acc.courses, r.courses)
    ensures |r.majors| == |acc.majors| + 1 && r.majors == acc.majors + [r.majors[|acc.majors|]]
    ensures r.majors[|acc.majors|].name == row[0] && r.majors[|acc.majors|].num == k
    ensures MajorRead(r.majors[|acc.majors|], row)
    ensures r.courses.vals.Keys == acc.courses.vals.Keys + MajorNums(r.majors[|acc.majors|])
    ensures MajorShape(r.majors[|acc.majors|]) && Consistent(r.courses, r.majors[|acc.majors|])
  {
    ReadRowInv(acc, row, k);
    ReadRowReads(acc, row, k);
    ReadRowConsistent(acc, row, k);
    r := ReadRow(acc, row, k);
  }

  /** Some row after the headers has too few cells. */
  predicate HasShortRow(rows: seq<seq<string>>) {
    exists j :: HeaderRows <= j < |rows| && |rows[j]| < RowWidth
  }

  /** `majors` holds, in order, one major per data row before row `k`: the
      major of row j is named by the row's cell 0, numbered j, and lists in
      each semester exactly the row's cells for it. */
  predicate MajorsOfRows(rows: seq<seq<string>>, majors: seq<Major>, k: nat)
    requires k <= |rows|
  {
    && |majors| == (if k < HeaderRows then 0 else k - HeaderRows)
    && forall j :: HeaderRows <= j < k ==>
         |rows[j]| >= RowWidth &&
         majors[j - HeaderRows].name == rows[j][0] && majors[j - HeaderRows].num == j &&
         MajorRead(majors[j - HeaderRows], rows[j])
  }

  /** The numbers the majors list in any semester. */
  function AllNums(majors: seq<Major>): set<CourseNum>
    requires forall i :: 0 <= i < |majors| ==> MajorShape(majors[i])
    decreases |majors|
  {
    if majors == [] then {} else AllNums(majors[..|majors| - 1]) + MajorNums(majors[|majors| - 1])
  }

  lemma {:induction false} AllNumsHas(majors: seq<Major>, i: nat, s: Semester, n: CourseNum)
    requires forall j :: 0 <= j < |majors| ==> MajorShape(majors[j])
    requires i < |majors| && n in SemCourses(majors[i], s).vals
    ensures n in AllNums(majors)
    decreases |majors|
  {
    var last := |majors| - 1;
    if i < last {
      assert majors[..last][i] == majors[i];
      AllNumsHas(majors[..last], i, s, n);
    } else {
      MajorNumsFromMeans(majors[last], 0, n);
    }
  }

  lemma {:induction false} AllNumsWitness(majors: seq<Major>, n: CourseNum) returns (i: nat, s: Semester)
    requires forall j :: 0 <= j < |majors| ==> MajorShape(majors[j])
    requires n in AllNums(majors)
    ensures i < |majors| && n in SemCourses(majors[i], s).vals
    decreases |majors|
  {
    var last := |majors| - 1;
    if n in MajorNums(majors[last]) {
      MajorNumsFromMeans(majors[last], 0, n);
      i := last;
      s :| 0 <= s && n in SemCourses(majors[last], s).vals;
    } else {
      i, s := AllNumsWitness(majors[..last], n);
      assert majors[..last][i] == majors[i];
    }
  }

  /** The numbers of `AllNums` are exactly those some major lists in some
      semester. */
  lemma AllNumsMeans(majors: seq<Major>, n: CourseNum)
    requires forall i :: 0 <= i < |majors| ==> MajorShape(majors[i])
    ensures n in AllNums(majors) <==>
      exists i, s: Semester :: 0 <= i < |majors| && n in SemCourses(majors[i], s).vals
  {
    if n in AllNums(majors) {
      var i, s := AllNumsWitness(majors, n);
    }
    if exists i, s: Semester :: 0 <= i < |majors| && n in SemCourses(majors[i], s).vals {
      var i, s: Semester :| 0 <= i < |majors| && n in SemCourses(majors[i], s).vals;
      AllNumsHas(majors, i, s, n);
    }
  }

  /** Every number a major lists is stored with a course recording that
      major. */
  predicate MajorsRecorded(majors: seq<Major>, courses: ODict<CourseNum, Course>)
    requires forall i :: 0 <= i < |majors| ==> MajorShape(majors[i])
  {
    forall i :: 0 <= i < |majors| ==> Consistent(courses, majors[i])
  }

  /** Appending a major adds its numbers to all the numbers. */
  lemma AllNumsSnoc(majors: seq<Major>, m: Major)
    requires forall i :: 0 <= i < |majors| ==> MajorShape(majors[i])
    requires MajorShape(m)
    ensures forall i :: 0 <= i < |majors + [m]| ==> MajorShape((majors + [m])[i])
    ensures AllNums(majors + [m]) == AllNums(majors) + MajorNums(m)
  {
    assert (majors + [m])[..|majors|] == majors;
  }

  /** Majors recorded in some courses stay recorded when the courses grow. */
  lemma RecordedGrows(majors: seq<Major>, m: Major, a: ODict<CourseNum, Course>, b: ODict<CourseNum, Course>)
    requires forall i :: 0 <= i < |majors| ==> MajorShape(majors[i])
    requires MajorShape(m) && MajorsRecorded(majors, a) && Grows(a, b) && Consistent(b, m)
    ensures forall i :: 0 <= i < |majors + [m]| ==> MajorShape((majors + [m])[i])
    ensures MajorsRecorded(majors + [m], b)
  {
    forall i | 0 <= i < |majors + [m]|
      ensures Consistent(b, (majors + [m])[i])
    {
      if i < |majors| {
        ConsistentGrows(a, b, majors[i]);
      }
    }
  }

  /** One more major read: the numbers and majors recorded before stay
      recorded, and those of the new major join them. */
  lemma ParseStep(acc: Loaded, r: Loaded)
    requires forall i :: 0 <= i < |acc.majors| ==> MajorShape(acc.majors[i])
    requires acc.courses.vals.Keys == AllNums(acc.majors) && MajorsRecorded(acc.majors, acc.courses)
    requires Grows(acc.courses, r.courses)
    requires |r.majors| == |acc.majors| + 1 && r.majors == acc.majors + [r.majors[|acc.majors|]]
    requires MajorShape(r.majors[|acc.majors|])
    requires r.courses.vals.Keys == acc.courses.vals.Keys + MajorNums(r.majors[|acc.majors|])
    requires Consistent(r.courses, r.majors[|acc.majors|])
    ensures forall i :: 0 <= i < |r.majors| ==> MajorShape(r.majors[i])
    ensures r.courses.vals.Keys == AllNums(r.majors) && MajorsRecorded(r.majors, r.courses)
  {
    var m := r.majors[|acc.majors|];
    AllNumsSnoc(acc.majors, m);
    RecordedGrows(acc.majors, m, acc.courses, r.courses);
  }

  /** Reading row `k` appends its major after those of the earlier rows. */
  lemma MajorsOfRowsStep(rows: seq<seq<string>>, majors: seq<Major>, m: Major, k: nat)
    requires HeaderRows <= k < |rows| && |rows[k]| >= RowWidth
    requires MajorsOfRows(rows, majors, k)
    requires m.name == rows[k][0] && m.num == k && MajorRead(m, rows[k])
    ensures MajorsOfRows(rows, majors + [m], k + 1)
  {
    var next := majors + [m];
    forall j | HeaderRows <= j < k + 1
      ensures |rows[j]| >= RowWidth && next[j - HeaderRows].name == rows[j][0]
      ensures next[j - HeaderRows].num == j && MajorRead(next[j - HeaderRows], rows[j])
    {
      if j < k {
        assert next[j - HeaderRows] == majors[j - HeaderRows];
      }
    }
  }

  /** What `_parse` has built after the rows before `k`: one course per
      number, one major per data row read from its cells, the course keys
      exactly the numbers the majors list, and every major recorded in each
      of its courses. */
  predicate ParseInv(rows: seq<seq<string>>, acc: Loaded, k: nat)
    requires k <= |rows|
  {
    && CoursesInv(acc.courses)
    && MajorsOfRows(rows, acc.majors, k)
    && (forall i :: 0 <= i < |acc.majors| ==> MajorShape(acc.majors[i]))
    && acc.courses.vals.Keys == AllNums(acc.majors)
    && MajorsRecorded(acc.majors, acc.courses)
  }

  /** One iteration of the loop of `_parse` keeps `ParseInv`. */
  method ParseRow(rows: seq<seq<string>>, acc: Loaded, k: nat) returns (next: Loaded)
    requires HeaderRows <= k < |rows| && |rows[k]| >= RowWidth
    requires ParseInv(rows, acc, k)
    ensures ParseInv(rows, next, k + 1)
  {
    next := ReadMajorRow(acc, rows[k], k);
    ParseStep(acc, next);
    MajorsOfRowsStep(rows, acc.majors, next.majors[|acc.majors|], k);
  }

  /** `CSVdataloader._parse`: rows 0..2 are headers and skipped; every later
      row j becomes the major named by its cell 0 and numbered j, whose eight
      semesters are then read. A row with fewer than 25 cells makes the
      indexing raise: the first such row is reported. */
  method Parse(rows: seq<seq<string>>) returns (r: Result<Loaded, LoadError>)
    ensures r.Err? <==> HasShortRow(rows)
    ensures r.Err? ==>
      && HeaderRows <= r.error.row < |rows| && |rows[r.error.row]| < RowWidth
      && forall j :: HeaderRows <= j < r.error.row ==> |rows[j]| >= RowWidth
    ensures r.Ok? ==> CoursesInv(r.value.courses) && MajorsOfRows(rows, r.value.majors, |rows|)
    ensures r.Ok? ==> forall i :: 0 <= i < |r.value.majors| ==> MajorShape(r.value.majors[i])
    ensures r.Ok? ==> r.value.courses.vals.Keys == AllNums(r.value.majors)
    ensures r.Ok? ==> MajorsRecorded(r.value.majors, r.value.courses)
  {
    var acc := Loaded(Empty(), []);
    var k := if |rows| < HeaderRows then |rows| else HeaderRows;
    while k < |rows| && |rows[k]| >= RowWidth
      invariant HeaderRows <= k <= |rows| || k == |rows| < HeaderRows
      invariant ParseInv(rows, acc, k)
      decreases |rows| - k
    {
      acc := ParseRow(rows, acc, k);
      k := k + 1;
    }
    if k < |rows| {
      r := Err(RowTooShort(k));
    } else {
      r := Ok(acc);
    }
  }

  /** `get_course_list`: the stored courses, in first-seen order, no number
      twice. */
  function CourseList(l: Loaded): (r: seq<Course>)
    requires CoursesInv(l.courses)
    ensures |r| == |l.courses.keys|
    ensures forall i :: 0 <= i < |r| ==> r[i].number == l.courses.keys[i]
    ensures forall i :: 0 <= i < |r| ==> r[i] == l.courses.vals[l.courses.keys[i]]
    ensures forall c :: c in r <==> c in l.courses.vals.Values
    ensures forall i, j :: 0 <= i < j < |r| ==> r[i].number != r[j].number
  {
    Values(l.courses)
  }

  /** `course_pair_weight_calc`: sums the overlap of every common major. A major
      whose first entries differ adds NONE's 0; one whose first entries agree
      sends `get_overlap_type_for_major` past its early return (None here). */
  method PairWeightCalc(c1: Course, c2: Course) returns (r: Option<nat>)
    requires EntriesWellFormed(c1) && EntriesWellFormed(c2)
    ensures CommonMajors(c1, c2) == {} ==> r == Some(0)
    ensures r.Some? ==> r.value == 0
    ensures r.None? <==> exists m :: m in CommonMajors(c1, c2) && c1.majors[m][0] == c2.majors[m][0]
  {
    var common := CommonMajors(c1, c2);
    var remaining := common;
    var cost: nat := 0;
    while remaining != {}
      invariant remaining <= common
      invariant cost == 0
      invariant forall m :: m in common - remaining ==> c1.majors[m][0] != c2.majors[m][0]
      decreases remaining
    {
      var m :| m in remaining;
      var overlap := OverlapFirstEntries(c1, c2, m);
      if overlap.None? {
        return None;
      }
      cost := cost + Weight(overlap.value);
      remaining := remaining - {m};
    }
    return Some(cost);
  }
}

=== FILE: genetic.dfy ===
/** The operators of the genetic solver: rank-biased selection, the
    half-and-half crossover, the one-date mutation, the choice of the final
    individual and the export of a schedule as date -> courses. Every random
    draw is a parameter. */
module Genetic {
  import opened Wrappers
  import opened OrderedDict
  import opened Schedule

  /** `_random_select`'s position: the geometric draw `g` (at least 1) less
      one, clamped to the last position of the ranking. */
  function SelectIndex(g: int, n: int): (i: int)
    requires g >= 1 && n >= 1
    ensures 0 <= i < n
    ensures g - 1 < n ==> i == g - 1
    ensures g - 1 >= n ==> i == n - 1
  {
    if g - 1 >= n then n - 1 else g - 1
  }

  /** The position chosen never exceeds the draw, and each position of the
      ranking is reachable: position `i` by the draw `i + 1`. */
  lemma SelectIndexReach(n: int, i: int)
    requires 0 <= i < n
    ensures SelectIndex(i + 1, n) == i
    ensures forall g :: g >= 1 ==> SelectIndex(g, n) <= g - 1
  {
  }

  /** `_random_select`: the state at the chosen position of the ranking. */
  function RandomSelect<S>(ranked: seq<(S, real)>, g: int): (r: S)
    requires g >= 1 && |ranked| >= 1
    ensures exists i :: 0 <= i < |ranked| && r == ranked[i].0
  {
    ranked[SelectIndex(g, |ranked|)].0
  }

  /** Position `i` of `n` takes its dates from the first parent: Python's
      `i < n / 2` with true division. */
  predicate FromFirst(i: int, n: int) {
    (i as real) < (n as real) / 2.0
  }

  /** The real comparison is the integer test `2 i < n`. */
  lemma FromFirstIff(i: int, n: int)
    ensures FromFirst(i, n) <==> 2 * i < n
  {
  }

  /** What `_combine` needs of its parents: x well formed, and y holding
      every course of x's second half (elsewhere Python raises KeyError). */
  predicate CombinePre<K>(x: State<K>, y: State<K>) {
    && Valid(x)
    && forall i :: 0 <= i < |x.keys| && !FromFirst(i, |x.keys|) ==> x.keys[i] in y.vals
  }

  /** The dates the course at position `i` of x inherits. */
  function Inherited<K>(x: State<K>, y: State<K>, i: nat): DatePair
    requires CombinePre(x, y) && i < |x.keys|
  {
    if FromFirst(i, |x.keys|) then x.vals[x.keys[i]] else y.vals[x.keys[i]]
  }

  /** The first `i` courses of x are in `r` with their inherited dates. */
  predicate Filled<K>(r: State<K>, x: State<K>, y: State<K>, i: nat)
    requires CombinePre(x, y) && i <= |x.keys|
  {
    forall j :: 0 <= j < i ==> x.keys[j] in r.vals && r.vals[x.keys[j]] == Inherited(x, y, j)
  }

  lemma CombineStep<K>(x: State<K>, y: State<K>, r: State<K>, i: nat)
    requires CombinePre(x, y) && i < |x.keys|
    requires Valid(r) && r.keys == x.keys[..i] && Filled(r, x, y, i)
    ensures Valid(Put(r, x.keys[i], Inherited(x, y, i)))
    ensures Put(r, x.keys[i], Inherited(x, y, i)).keys == x.keys[..i + 1]
    ensures Filled(Put(r, x.keys[i], Inherited(x, y, i)), x, y, i + 1)
  {
    var course := x.keys[i];
    var dates := Inherited(x, y, i);
    assert course !in r.vals by {
      assert forall j :: 0 <= j < i ==> x.keys[j] != course;
    }
    PutValid(r, course, dates);
    assert x.keys[..i + 1] == x.keys[..i] + [course];
    var r1 := Put(r, course, dates);
    forall j | 0 <= j < i + 1 ensures x.keys[j] in r1.vals && r1.vals[x.keys[j]] == Inherited(x, y, j) {
      if j < i {
        assert x.keys[j] != course;
      }
    }
  }

  /** `_combine(x, y)`: a new schedule listing x's courses in x's order,
      the first half with x's dates and the rest with y's. */
  method Combine<K>(x: State<K>, y: State<K>) returns (r: State<K>)
    requires CombinePre(x, y)
    ensures Valid(r) && r.keys == x.keys
    ensures forall i :: 0 <= i < |x.keys| ==>
      r.vals[x.keys[i]] == if FromFirst(i, |x.keys|) then x.vals[x.keys[i]] else y.vals[x.keys[i]]
  {
    var n := |x.keys|;
    r := Empty();
    var i := 0;
    while i < n
      invariant 0 <= i <= n
      invariant Valid(r) && r.keys == x.keys[..i]
      invariant Filled(r, x, y, i)
    {
      CombineStep(x, y, r, i);
      r := Put(r, x.keys[i], Inherited(x, y, i));
      i := i + 1;
    }
    assert x.keys[..n] == x.keys;
  }

  /** The positions of the first `m` that take their dates from x. */
  function FirstHalf(m: nat, n: int): (r: set<nat>)
    ensures forall i :: i in r ==> i < m
    decreases m
  {
    if m == 0 then {} else FirstHalf(m - 1, n) + (if FromFirst(m - 1, n) then {m - 1} else {})
  }

  /** Exactly the first ceil(n / 2) courses take x's dates: one more than y's
      share when the number of courses is odd. */
  lemma {:induction false} FirstHalfCount(m: nat, n: nat)
    requires m <= n
    ensures |FirstHalf(m, n)| == if 2 * m <= n + 1 then m else (n + 1) / 2
    decreases m
  {
    if m > 0 {
      FirstHalfCount(m - 1, n);
      FromFirstIff(m - 1, n);
      assert m - 1 !in FirstHalf(m - 1, n);
    }
  }

  /** The weights of `days_to_move`: two chances in seven of -1, three of 0,
      two of +1. */
  const DaysToMove: seq<int> := [-1, -1, 0, 0, 0, 1, 1]

  /** `_mutate(s)`: when the 1-in-10 draw `triggered` fires, the course at
      position `ci` of the key list has its date in period `moed` moved by
      `DaysToMove[pick]` days. */
  function Mutate<K>(s: State<K>, triggered: bool, ci: nat, moed: Moed, pick: nat): (r: State<K>)
    requires triggered ==> ci < |s.keys| && s.keys[ci] in s.vals && pick < |DaysToMove|
    ensures r.keys == s.keys && r.vals.Keys == s.vals.Keys
  {
    if !triggered then s
    else
      var course := s.keys[ci];
      Put(s, course, Shift(s.vals[course], moed, DaysToMove[pick]))
  }

  /** Without the trigger nothing changes. With it, exactly one date of one
      course moves, by -1, 0 or +1 days, and every other date stays. */
  lemma MutateEffect<K>(s: State<K>, triggered: bool, ci: nat, moed: Moed, pick: nat)
    requires triggered ==> ci < |s.keys| && s.keys[ci] in s.vals && pick < |DaysToMove|
    ensures !triggered ==> Mutate(s, triggered, ci, moed, pick) == s
    ensures triggered ==>
      var r := Mutate(s, triggered, ci, moed, pick);
      var c := s.keys[ci];
      && DateIn(r.vals[c], moed) - DateIn(s.vals[c], moed) in {-1, 0, 1}
      && DateIn(r.vals[c], Other(moed)) == DateIn(s.vals[c], Other(moed))
      && (forall k :: k in s.vals && k != c ==> r.vals[k] == s.vals[k])
  {
    if triggered {
      assert DaysToMove[pick] in {-1, 0, 1};
    }
  }

  /** `sorted(..., reverse=True)[0]` as the code has it: the first individual
      with the greatest evaluator value, i.e. the greatest penalty. */
  function PickFinal(fit: seq<real>): (i: nat)
    requires |fit| >= 1
    ensures i < |fit|
    ensures forall j :: 0 <= j < |fit| ==> fit[j] <= fit[i]
    ensures forall j :: 0 <= j < i ==> fit[j] < fit[i]
    decreases |fit|
  {
    if |fit| == 1 then 0
    else
      var k := PickFinal(fit[..|fit| - 1]);
      assert forall j :: 0 <= j < |fit| - 1 ==> fit[..|fit| - 1][j] == fit[j];
      if fit[|fit| - 1] > fit[k] then |fit| - 1 else k
  }

  /** The pick as written returns the worse of two individuals. */
  lemma PickFinalPicksWorst()
    ensures PickFinal([1.0, 5.0]) == 1
  {
    assert PickFinal([1.0, 5.0][..1]) == 0;
  }

  /** The pick the solver needs: the first individual of least penalty, the
      same end of the ranking that selection favours. */
  function PickBest(fit: seq<real>): (i: nat)
    requires |fit| >= 1
    ensures i < |fit|
    ensures forall j :: 0 <= j < |fit| ==> fit[i] <= fit[j]
    ensures forall j :: 0 <= j < i ==> fit[i] < fit[j]
    decreases |fit|
  {
    if |fit| == 1 then 0
    else
      var k := PickBest(fit[..|fit| - 1]);
      assert forall j :: 0 <= j < |fit| - 1 ==> fit[..|fit| - 1][j] == fit[j];
      if fit[|fit| - 1] < fit[k] then |fit| - 1 else k
  }

  /** The corrected pick takes the better of the two individuals above. */
  lemma PickBestPicksBest()
    ensures PickBest([1.0, 5.0]) == 0
  {
    assert PickBest([1.0, 5.0][..1]) == 0;
  }

  /** The individual `solve` returns (with the corrected pick). */
  function Solution<S>(population: seq<S>, fit: seq<real>): (r: S)
    requires |population| == |fit| >= 1
    ensures exists i :: 0 <= i < |fit| && r == population[i] && forall j :: 0 <= j < |fit| ==> fit[i] <= fit[j]
  {
    population[PickBest(fit)]
  }

  /** `{d: set() for d in available}`. */
  function EmptyMapping<K>(available: seq<int>): (m: map<int, set<K>>)
    ensures m.Keys == set d | d in available
    ensures forall d :: d in m ==> m[d] == {}
  {
    map d | d in available :: {}
  }

  /** The export loop over the first `n` courses of the schedule: each course
      is added under its moed A date and then its moed B date; a date that is
      not an available date is where Python raises KeyError. */
  function ExportFrom<K>(s: State<K>, available: seq<int>, n: nat): (r: Option<map<int, set<K>>>)
    requires n <= |s.keys|
    requires forall i :: 0 <= i < |s.keys| ==> s.keys[i] in s.vals
    ensures r.Some? ==> r.value.Keys == set d | d in available
    decreases n
  {
    if n == 0 then Some(EmptyMapping(available))
    else
      match ExportFrom(s, available, n - 1)
      case None => None
      case Some(m) =>
        var c := s.keys[n - 1];
        var p := s.vals[c];
        if p.a !in m then None
        else
          var m1 := m[p.a := m[p.a] + {c}];
          if p.b !in m1 then None
          else Some(m1[p.b := m1[p.b] + {c}])
  }

  /** Every date the first `n` courses use is available. */
  predicate DatesAvailable<K>(s: State<K>, available: seq<int>, n: nat)
    requires n <= |s.keys|
    requires forall i :: 0 <= i < |s.keys| ==> s.keys[i] in s.vals
  {
    forall i :: 0 <= i < n ==> s.vals[s.keys[i]].a in available && s.vals[s.keys[i]].b in available
  }

  /** The export fails exactly when a course has an unavailable date; otherwise
      under every available date `d` it lists exactly the courses whose moed A
      or moed B date is `d`. */
  lemma {:induction false} ExportFromSpec<K>(s: State<K>, available: seq<int>, n: nat, d: int, c: K)
    requires n <= |s.keys|
    requires forall i :: 0 <= i < |s.keys| ==> s.keys[i] in s.vals
    ensures ExportFrom(s, available, n).Some? <==> DatesAvailable(s, available, n)
    ensures ExportFrom(s, available, n).Some? && d in available ==>
      (c in ExportFrom(s, available, n).value[d] <==>
         exists i :: 0 <= i < n && s.keys[i] == c && (s.vals[c].a == d || s.vals[c].b == d))
    decreases n
  {
    if n > 0 {
      ExportFromSpec(s, available, n - 1, d, c);
      var k := s.keys[n - 1];
      var p := s.vals[k];
      if DatesAvailable(s, available, n) {
        assert DatesAvailable(s, available, n - 1);
        var m := ExportFrom(s, available, n - 1).value;
        assert p.a in m && p.b in m;
        if d in available {
          var hit := exists i :: 0 <= i < n && s.keys[i] == c && (s.vals[c].a == d || s.vals[c].b == d);
          var hitBefore := exists i :: 0 <= i < n - 1 && s.keys[i] == c && (s.vals[c].a == d || s.vals[c].b == d);
          assert hit <==> hitBefore || (k == c && (p.a == d || p.b == d));
        }
      } else if DatesAvailable(s, available, n - 1) {
        assert !(p.a in available && p.b in available);
      }
    }
  }

  /** `export_solution` for the chosen schedule. */
  function ExportSolution<K>(s: State<K>, available: seq<int>): (r: Option<map<int, set<K>>>)
    requires Valid(s)
    ensures r.Some? ==> r.value.Keys == set d | d in available
  {
    ExportFrom(s, available, |s.keys|)
  }

  /** With every date available, each available date maps to exactly the
      courses examined on it, in either period. */
  lemma ExportSolutionSpec<K>(s: State<K>, available: seq<int>, d: int, c: K)
    requires Valid(s)
    ensures ExportSolution(s, available).Some? <==>
      forall k :: k in s.vals ==> s.vals[k].a in available && s.vals[k].b in available
    ensures ExportSolution(s, available).Some? && d in available ==>
      (c in ExportSolution(s, available).value[d] <==> c in s.vals && (s.vals[c].a == d || s.vals[c].b == d))
  {
    ExportFromSpec(s, available, |s.keys|, d, c);
    if c in s.vals {
      var i :| 0 <= i < |s.keys| && s.keys[i] == c;
    }
    if DatesAvailable(s, available, |s.keys|) {
      forall k | k in s.vals ensures s.vals[k].a in available && s.vals[k].b in available {
        var i :| 0 <= i < |s.keys| && s.keys[i] == k;
      }
    }
  }
}

=== FILE: objects.dfy ===
/** The domain model: requirement types, the collision-weight table, courses
    with the majors that list them, and majors with their per-semester course
    maps. */
module Objects {
  import opened Wrappers
  import opened OrderedDict
  import Text

  /** Courses are identified by their number: equality and hashing look at
      nothing else, so every map keyed by a course is keyed by its number. */
  type CourseNum = string

  /** MajorSemester: SEM1 .. SEM8 carry the values 0 .. 7. */
  type Semester = s: int | 0 <= s < 8

  const SemesterCount: int := 8

  /** Requirement strength of a course in a major's semester: mandatory,
      mandatory-elective, elective. */
  datatype CourseType = Hova | BhiratHova | Bhira

  /** The members of the CollisionTypes enum. */
  datatype CollisionType = HovaHova | HovaBhova | HovaBhira | BhovaBhira | BhiraBhira | NoCollision

  /** BHOVA_BHOVA is declared with the value 100 that HOVA_BHOVA already has,
      and an Enum member that repeats a value is an alias of the earlier member. */
  const BhovaBhova: CollisionType := HovaBhova

  /** The penalty each collision type carries (its enum value). */
  function Weight(c: CollisionType): nat {
    match c
    case HovaHova => 10000
    case HovaBhova => 100
    case HovaBhira => 50
    case BhovaBhira => 10
    case BhiraBhira => 5
    case NoCollision => 0
  }

  /** Every weight is at least NONE's 0 and at most HOVA_HOVA's 10000, and only
      NONE weighs nothing. */
  lemma WeightBounds(c: CollisionType)
    ensures Weight(NoCollision) <= Weight(c) <= Weight(HovaHova)
    ensures Weight(c) == 0 <==> c == NoCollision
  {
  }

  /** `CollisionTypes.get_col_type`: the collision between two requirement types. */
  function ColType(t1: CourseType, t2: CourseType): (c: CollisionType)
    ensures c != NoCollision
  {
    if t1 == Hova && t2 == Hova then HovaHova
    else if t1 == BhiratHova && t2 == BhiratHova then BhovaBhova
    else if t1 == Bhira && t2 == Bhira then BhiraBhira
    else if (t1 == Hova && t2 == BhiratHova) || (t2 == Hova && t1 == BhiratHova) then HovaBhova
    else if (t1 == Bhira && t2 == BhiratHova) || (t2 == Bhira && t1 == BhiratHova) then BhovaBhira
    else HovaBhira
  }

  /** The collision table read as a function of the unordered pair of types. */
  function ColTypeOfPair(types: set<CourseType>): Option<CollisionType>
  {
    if types == {Hova} then Some(HovaHova)
    else if types == {BhiratHova} then Some(BhovaBhova)
    else if types == {Bhira} then Some(BhiraBhira)
    else if types == {Hova, BhiratHova} then Some(HovaBhova)
    else if types == {BhiratHova, Bhira} then Some(BhovaBhira)
    else if types == {Hova, Bhira} then Some(HovaBhira)
    else None
  }

  /** get_col_type answers for all nine ordered pairs and depends only on the
      unordered pair, so it is symmetric. */
  lemma ColTypeIsPairTable(t1: CourseType, t2: CourseType)
    ensures ColTypeOfPair({t1, t2}) == Some(ColType(t1, t2))
    ensures ColType(t1, t2) == ColType(t2, t1)
  {
    assert {t1, t2} == {t2, t1};
  }

  /** Because of the alias, two mandatory-electives collide exactly like a
      mandatory and a mandatory-elective. */
  lemma BhovaBhovaIsHovaBhova()
    ensures ColType(BhiratHova, BhiratHova) == ColType(Hova, BhiratHova)
    ensures Weight(ColType(BhiratHova, BhiratHova)) == 100
  {
  }

  datatype MajorId = MajorId(name: string, num: int)

  /** One element of a course's list for a major. The first call records the
      tuple `(sem, type)`; later calls append the one-element list
      `[(sem, type)]`, a nested list rather than a tuple. */
  datatype Entry = Pair(sem: Semester, ctype: CourseType) | Nested(sem: Semester, ctype: CourseType)

  datatype Course = Course(number: CourseNum, name: string, majors: map<MajorId, seq<Entry>>)

  function NewCourse(number: CourseNum, name: string): (c: Course)
    ensures c.number == number && c.name == name && c.majors == map[]
  {
    Course(number, name, map[])
  }

  /** `Course.add_major`. */
  function AddMajor(c: Course, m: MajorId, s: Semester, t: CourseType): (r: Course)
    ensures r.number == c.number && r.name == c.name
    ensures r.majors.Keys == c.majors.Keys + {m}
    ensures forall m' :: m' in c.majors && m' != m ==> r.majors[m'] == c.majors[m']
    ensures m !in c.majors ==> r.majors[m] == [Pair(s, t)]
    ensures m in c.majors ==>
      && |r.majors[m]| == |c.majors[m]| + 1
      && r.majors[m][..|c.majors[m]|] == c.majors[m]
      && r.majors[m][|c.majors[m]|] == Nested(s, t)
  {
    if m in c.majors then c.(majors := c.majors[m := c.majors[m] + [Nested(s, t)]])
    else c.(majors := c.majors[m := [Pair(s, t)]])
  }

  /** `Course.get_common_majors`. */
  function CommonMajors(a: Course, b: Course): (r: set<MajorId>)
    ensures r <= a.majors.Keys && r <= b.majors.Keys
    ensures forall m :: m in a.majors && m in b.majors ==> m in r
  {
    a.majors.Keys * b.majors.Keys
  }

  lemma CommonMajorsSymmetric(a: Course, b: Course)
    ensures CommonMajors(a, b) == CommonMajors(b, a)
  {
  }

  /** Every list a course keeps for a major starts with the tuple written by the
      first add_major call for that major. */
  predicate EntriesWellFormed(c: Course) {
    forall m :: m in c.majors ==> |c.majors[m]| > 0 && c.majors[m][0].Pair?
  }

  lemma AddMajorKeepsWellFormed(c: Course, m: MajorId, s: Semester, t: CourseType)
    requires EntriesWellFormed(c)
    ensures EntriesWellFormed(AddMajor(c, m, s, t))
    ensures m in c.majors ==> AddMajor(c, m, s, t).majors[m][0] == c.majors[m][0]
  {
  }

  /** The early return of `get_overlap_type_for_major`: NONE when the two
      courses' first entries for the major differ. When they agree the method
      goes on past line 131, which is not modelled (None). */
  function OverlapFirstEntries(a: Course, b: Course, m: MajorId): (r: Option<CollisionType>)
    requires m in a.majors && m in b.majors
    requires |a.majors[m]| > 0 && |b.majors[m]| > 0
    ensures r.Some? ==> r.value == NoCollision
    ensures r.Some? <==> a.majors[m][0] != b.majors[m][0]
  {
    if a.majors[m][0] != b.majors[m][0] then Some(NoCollision) else None
  }

  /** `Course.__eq__`, `__lt__` and `__gt__` all look at the number only. */
  predicate CourseEq(a: Course, b: Course) {
    a.number == b.number
  }

  predicate CourseLt(a: Course, b: Course) {
    Text.Less(a.number, b.number)
  }

  predicate CourseGt(a: Course, b: Course) {
    Text.Less(b.number, a.number)
  }

  /** The hash is taken from the number at construction. `h` stands for
      Python's string hash. */
  function CourseHash(c: Course, h: string -> int): int {
    h(c.number)
  }

  /** Exactly one of `a < b`, `a == b`, `a > b` holds, and equal courses hash
      alike, so courses behave as dictionary keys and sort consistently. */
  lemma CourseOrderTotal(a: Course, b: Course, h: string -> int)
    ensures CourseLt(a, b) || CourseEq(a, b) || CourseGt(a, b)
    ensures !(CourseLt(a, b) && CourseEq(a, b))
    ensures !(CourseGt(a, b) && CourseEq(a, b))
    ensures !(CourseLt(a, b) && CourseGt(a, b))
    ensures CourseEq(a, b) ==> CourseHash(a, h) == CourseHash(b, h)
  {
    Text.LessTrichotomy(a.number, b.number);
  }

  /** A major ("maslul"): per semester, the courses it lists with their type. */
  datatype Major = Major(name: string, num: int, sems: seq<ODict<CourseNum, CourseType>>)

  /** One course map per semester. */
  predicate MajorShape(m: Major) {
    |m.sems| == SemesterCount
  }

  /** ... and every one of them a well-formed dictionary. */
  predicate MajorWellFormed(m: Major) {
    MajorShape(m) && forall s: Semester :: Valid(m.sems[s])
  }

  function Id(m: Major): MajorId {
    MajorId(m.name, m.num)
  }

  /** `Major(name, num)`: eight empty semester maps. */
  function NewMajor(name: string, num: int): (m: Major)
    ensures MajorShape(m) && MajorWellFormed(m) && Id(m) == MajorId(name, num)
    ensures forall s: Semester :: m.sems[s].keys == [] && m.sems[s].vals == map[]
  {
    Major(name, num, seq(SemesterCount, _ => Empty()))
  }

  /** `Major.get_sem_courses`. */
  function SemCourses(m: Major, s: Semester): ODict<CourseNum, CourseType>
    requires MajorShape(m)
  {
    m.sems[s]
  }

  /** `Major.add_course`: records (or overwrites) the course's type in one
      semester and leaves every other semester alone. */
  function AddCourse(m: Major, c: CourseNum, t: CourseType, s: Semester): (r: Major)
    requires MajorShape(m)
    ensures MajorShape(r) && Id(r) == Id(m)
    ensures c in SemCourses(r, s).vals && SemCourses(r, s).vals[c] == t
    ensures SemCourses(r, s).vals == SemCourses(m, s).vals[c := t]
  {
    m.(sems := m.sems[s := Put(m.sems[s], c, t)])
  }

  /** `add_course` touches only semester `s` and keeps every semester map well formed. */
  lemma AddCourseFrame(m: Major, c: CourseNum, t: CourseType, s: Semester)
    requires MajorShape(m)
    ensures forall s': Semester :: s' != s ==> SemCourses(AddCourse(m, c, t, s), s') == SemCourses(m, s')
    ensures MajorWellFormed(m) ==> MajorWellFormed(AddCourse(m, c, t, s))
  {
    if MajorWellFormed(m) {
      PutValid(m.sems[s], c, t);
    }
  }
}

=== FILE: odict.dfy ===
/** Python dictionaries remember the order in which keys were first inserted,
    and several operations of the scheduler iterate over that order. An ODict
    pairs the insertion order with the mapping itself. */
module OrderedDict {

  datatype ODict<K, V> = ODict(keys: seq<K>, vals: map<K, V>)

  /** No key is listed twice. */
  predicate Distinct<K(==)>(s: seq<K>) {
    forall i, j :: 0 <= i < j < |s| ==> s[i] != s[j]
  }

  /** The order lists exactly the keys of the mapping, each once. */
  predicate Valid<K(==), V>(d: ODict<K, V>) {
    && Distinct(d.keys)
    && (forall i :: 0 <= i < |d.keys| ==> d.keys[i] in d.vals)
    && (forall k :: k in d.vals ==> k in d.keys)
  }

  function Empty<K(==), V>(): (d: ODict<K, V>)
    ensures Valid(d) && d.keys == [] && d.vals == map[]
  {
    ODict([], map[])
  }

  /** `d[k] = v`: an existing key keeps its place, a new key goes last. */
  function Put<K(==), V>(d: ODict<K, V>, k: K, v: V): (r: ODict<K, V>)
    ensures r.vals == d.vals[k := v]
    ensures k in d.vals ==> r.keys == d.keys
    ensures k !in d.vals ==> r.keys == d.keys + [k]
  {
    if k in d.vals then ODict(d.keys, d.vals[k := v])
    else ODict(d.keys + [k], d.vals[k := v])
  }

  /** Assigning a key keeps the dictionary well formed: a new key is appended
      once, an existing one stays where it was. */
  lemma PutValid<K, V>(d: ODict<K, V>, k: K, v: V)
    requires Valid(d)
    ensures Valid(Put(d, k, v))
  {
  }

  /** The values in key order, as `list(d.values())`. */
  function Values<K(==), V>(d: ODict<K, V>): (r: seq<V>)
    requires Valid(d)
    ensures |r| == |d.keys|
    ensures forall i :: 0 <= i < |r| ==> r[i] == d.vals[d.keys[i]]
  {
    seq(|d.keys|, i requires 0 <= i < |d.keys| => d.vals[d.keys[i]])
  }

}

=== FILE: ranking.dfy ===
/** `sorted(items, key=lambda x: x[1], reverse=...)` on (key, value) items:
    Python's sort is stable in both directions, so items of equal value keep
    their input order, and `reverse=True` orders by descending value. */
module Ranking {
  import opened OrderedDict

  type Item<K> = (K, real)

  /** `x` goes strictly before `y`: a greater value when descending, a
      smaller one when ascending. */
  predicate Before<K>(x: Item<K>, y: Item<K>, desc: bool) {
    if desc then x.1 > y.1 else x.1 < y.1
  }

  /** No item goes strictly before an item listed ahead of it. */
  predicate SortedBy<K>(s: seq<Item<K>>, desc: bool) {
    forall i, j :: 0 <= i < j < |s| ==> !Before(s[j], s[i], desc)
  }

  /** Places `x` after every item it does not go strictly before. */
  function Insert<K>(s: seq<Item<K>>, x: Item<K>, desc: bool): (r: seq<Item<K>>)
    ensures |r| == |s| + 1
    decreases |s|
  {
    if s == [] then [x]
    else if Before(x, s[0], desc) then [x] + s
    else [s[0]] + Insert(s[1..], x, desc)
  }

  /** Inserting adds `x` and keeps every other item. */
  lemma {:induction false} InsertPerm<K>(s: seq<Item<K>>, x: Item<K>, desc: bool)
    ensures multiset(Insert(s, x, desc)) == multiset(s) + multiset{x}
    decreases |s|
  {
    if s != [] && !Before(x, s[0], desc) {
      InsertPerm(s[1..], x, desc);
      assert s == [s[0]] + s[1..];
    }
  }

  lemma {:induction false} InsertSorted<K>(s: seq<Item<K>>, x: Item<K>, desc: bool)
    requires SortedBy(s, desc)
    ensures SortedBy(Insert(s, x, desc), desc)
    decreases |s|
  {
    if s != [] && !Before(x, s[0], desc) {
      assert SortedBy(s[1..], desc);
      InsertSorted(s[1..], x, desc);
      var r := Insert(s, x, desc);
      forall i, j | 0 <= i < j < |r| ensures !Before(r[j], r[i], desc) {
        if i == 0 {
          InsertPerm(s[1..], x, desc);
          assert r[j] in multiset(Insert(s[1..], x, desc));
          assert r[j] in s[1..] || r[j] == x;
        }
      }
    }
  }

  /** The stable sort: each item inserted, in input order, into the sorted
      prefix before it. */
  function SortBy<K>(s: seq<Item<K>>, desc: bool): (r: seq<Item<K>>)
    ensures |r| == |s|
    decreases |s|
  {
    if s == [] then []
    else Insert(SortBy(s[..|s| - 1], desc), s[|s| - 1], desc)
  }

  /** The result is ordered and a permutation of the input. */
  lemma {:induction false} SortBySorted<K>(s: seq<Item<K>>, desc: bool)
    ensures SortedBy(SortBy(s, desc), desc)
    ensures multiset(SortBy(s, desc)) == multiset(s)
    decreases |s|
  {
    if s != [] {
      SortBySorted(s[..|s| - 1], desc);
      InsertSorted(SortBy(s[..|s| - 1], desc), s[|s| - 1], desc);
      InsertPerm(SortBy(s[..|s| - 1], desc), s[|s| - 1], desc);
      assert s == s[..|s| - 1] + [s[|s| - 1]];
    }
  }

  /** The items of value `v`, in order. */
  function WithValue<K>(s: seq<Item<K>>, v: real): seq<Item<K>>
    decreases |s|
  {
    if s == [] then []
    else (if s[0].1 == v then [s[0]] else []) + WithValue(s[1..], v)
  }

  /** `[e]` when `e` has value `v`, else nothing. */
  function Own<K>(e: Item<K>, v: real): seq<Item<K>> {
    if e.1 == v then [e] else []
  }

  lemma WithValueCons<K>(e: Item<K>, s: seq<Item<K>>, v: real)
    ensures WithValue([e] + s, v) == Own(e, v) + WithValue(s, v)
  {
    assert ([e] + s)[0] == e;
    assert ([e] + s)[1..] == s;
  }

  lemma {:induction false} WithValueConcat<K>(a: seq<Item<K>>, b: seq<Item<K>>, v: real)
    ensures WithValue(a + b, v) == WithValue(a, v) + WithValue(b, v)
    decreases |a|
  {
    if a != [] {
      assert a == [a[0]] + a[1..];
      assert a + b == [a[0]] + (a[1..] + b);
      WithValueCons(a[0], a[1..] + b, v);
      WithValueCons(a[0], a[1..], v);
      WithValueConcat(a[1..], b, v);
    } else {
      assert a + b == b;
    }
  }

  lemma {:induction false} WithValueNone<K>(s: seq<Item<K>>, v: real)
    requires forall i :: 0 <= i < |s| ==> s[i].1 != v
    ensures WithValue(s, v) == []
    decreases |s|
  {
    if s != [] {
      WithValueNone(s[1..], v);
    }
  }

  /** Inserting into a sorted list puts `x` after the items of its value. */
  lemma {:induction false} InsertStable<K>(s: seq<Item<K>>, x: Item<K>, desc: bool, v: real)
    requires SortedBy(s, desc)
    ensures WithValue(Insert(s, x, desc), v) == WithValue(s, v) + Own(x, v)
    decreases |s|
  {
    if s == [] {
      WithValueCons(x, [], v);
      assert [x] + [] == [x];
    } else if Before(x, s[0], desc) {
      InsertFront(s, x, desc, v);
    } else {
      assert SortedBy(s[1..], desc);
      InsertStable(s[1..], x, desc, v);
      InsertBehind(s, x, desc, v);
    }
  }

  /** The case where `x` goes after the first item. */
  lemma InsertBehind<K>(s: seq<Item<K>>, x: Item<K>, desc: bool, v: real)
    requires s != [] && !Before(x, s[0], desc)
    requires WithValue(Insert(s[1..], x, desc), v) == WithValue(s[1..], v) + Own(x, v)
    ensures WithValue(Insert(s, x, desc), v) == WithValue(s, v) + Own(x, v)
  {
    var h := s[0];
    var t := s[1..];
    var rest := Insert(t, x, desc);
    WithValueCons(h, rest, v);
    WithValueCons(h, t, v);
    calc {
      WithValue(Insert(s, x, desc), v);
      { assert Insert(s, x, desc) == [h] + rest; }
      WithValue([h] + rest, v);
      Own(h, v) + WithValue(rest, v);
      Own(h, v) + (WithValue(t, v) + Own(x, v));
      (Own(h, v) + WithValue(t, v)) + Own(x, v);
      WithValue([h] + t, v) + Own(x, v);
      { assert [h] + t == s; }
      WithValue(s, v) + Own(x, v);
    }
  }

  /** The case where `x` goes strictly before the whole sorted list: no item
      of the list has `x`'s value. */
  lemma InsertFront<K>(s: seq<Item<K>>, x: Item<K>, desc: bool, v: real)
    requires SortedBy(s, desc) && s != [] && Before(x, s[0], desc)
    ensures WithValue(Insert(s, x, desc), v) == WithValue(s, v) + Own(x, v)
  {
    assert Insert(s, x, desc) == [x] + s;
    WithValueCons(x, s, v);
    if x.1 == v {
      forall i | 0 <= i < |s| ensures s[i].1 != v {
        assert !Before(s[i], s[0], desc) || i == 0;
      }
      WithValueNone(s, v);
    }
  }

  /** Stability: the items of any one value come out in their input order. */
  lemma {:induction false} SortByStable<K>(s: seq<Item<K>>, desc: bool, v: real)
    ensures WithValue(SortBy(s, desc), v) == WithValue(s, v)
    decreases |s|
  {
    if s != [] {
      var init := s[..|s| - 1];
      var x := s[|s| - 1];
      SortByStable(init, desc, v);
      SortBySorted(init, desc);
      InsertStable(SortBy(init, desc), x, desc, v);
      assert s == init + [x];
      WithValueConcat(init, [x], v);
      WithValueCons(x, [], v);
      assert [x] + [] == [x];
    }
  }

  /** No key is listed twice. */
  predicate DistinctKeys<K(==)>(s: seq<Item<K>>) {
    forall i, j :: 0 <= i < j < |s| ==> s[i].0 != s[j].0
  }

  lemma {:induction false} InsertDistinctKeys<K>(s: seq<Item<K>>, x: Item<K>, desc: bool)
    requires DistinctKeys(s) && forall i :: 0 <= i < |s| ==> s[i].0 != x.0
    ensures DistinctKeys(Insert(s, x, desc))
    decreases |s|
  {
    if s != [] && !Before(x, s[0], desc) {
      InsertDistinctKeys(s[1..], x, desc);
      var r := Insert(s, x, desc);
      forall i, j | 0 <= i < j < |r| ensures r[i].0 != r[j].0 {
        if i == 0 {
          InsertPerm(s[1..], x, desc);
          assert r[j] in multiset(Insert(s[1..], x, desc));
          assert r[j] in s[1..] || r[j] == x;
          if r[j] in s[1..] {
            var m :| 0 <= m < |s[1..]| && s[1..][m] == r[j];
            assert s[m + 1] == r[j];
          }
        }
      }
    }
  }

  /** Sorting items with distinct keys keeps the keys distinct. */
  lemma {:induction false} SortByDistinctKeys<K>(s: seq<Item<K>>, desc: bool)
    requires DistinctKeys(s)
    ensures DistinctKeys(SortBy(s, desc))
    decreases |s|
  {
    if s != [] {
      var init := s[..|s| - 1];
      var x := s[|s| - 1];
      assert DistinctKeys(init);
      SortByDistinctKeys(init, desc);
      var sorted := SortBy(init, desc);
      SortBySorted(init, desc);
      forall i | 0 <= i < |sorted| ensures sorted[i].0 != x.0 {
        assert sorted[i] in multiset(init);
        var m :| 0 <= m < |init| && init[m] == sorted[i];
      }
      InsertDistinctKeys(sorted, x, desc);
    }
  }

  /** `some_dict.items()`. */
  function Items<K>(d: ODict<K, real>): (r: seq<Item<K>>)
    requires Valid(d)
    ensures |r| == |d.keys|
    ensures forall i :: 0 <= i < |r| ==> r[i] == (d.keys[i], d.vals[d.keys[i]])
  {
    seq(|d.keys|, i requires 0 <= i < |d.keys| => (d.keys[i], d.vals[d.keys[i]]))
  }

  /** The ten-item cut of `_get_top_10`. */
  const TopN: nat := 10

  function Min(a: int, b: int): int {
    if a <= b then a else b
  }

  /** `_get_top_10(some_dict, reverse)`: the keys of the first ten items of
      the stable sort by value. */
  function TopTen<K>(d: ODict<K, real>, desc: bool): (r: seq<K>)
    requires Valid(d)
    ensures |r| == Min(TopN, |d.keys|)
    ensures forall i :: 0 <= i < |r| ==> r[i] in d.vals
  {
    SortedKeysIn(d, desc);
    var sorted := SortBy(Items(d), desc);
    seq(Min(TopN, |d.keys|), i requires 0 <= i < Min(TopN, |d.keys|) => sorted[i].0)
  }

  /** Each sorted item is one of the dictionary's (key, value) entries. */
  lemma SortedKeysIn<K>(d: ODict<K, real>, desc: bool)
    requires Valid(d)
    ensures forall i :: 0 <= i < |SortBy(Items(d), desc)| ==>
      SortBy(Items(d), desc)[i].0 in d.vals && SortBy(Items(d), desc)[i].1 == d.vals[SortBy(Items(d), desc)[i].0]
  {
    var items := Items(d);
    var sorted := SortBy(items, desc);
    SortBySorted(items, desc);
    forall i | 0 <= i < |sorted| ensures sorted[i].0 in d.vals && sorted[i].1 == d.vals[sorted[i].0] {
      assert sorted[i] in multiset(items);
      var p :| 0 <= p < |items| && items[p] == sorted[i];
    }
  }

  /** Each sorted item is one of the dictionary's (key, value) entries, and
      each entry is at some position of the sorted items. */
  lemma SortedItems<K>(d: ODict<K, real>, desc: bool, k: K) returns (j: nat)
    requires Valid(d) && k in d.vals
    ensures forall i :: 0 <= i < |SortBy(Items(d), desc)| ==>
      SortBy(Items(d), desc)[i].0 in d.vals && SortBy(Items(d), desc)[i].1 == d.vals[SortBy(Items(d), desc)[i].0]
    ensures j < |d.keys| && SortBy(Items(d), desc)[j] == (k, d.vals[k])
  {
    var items := Items(d);
    var sorted := SortBy(items, desc);
    SortedKeysIn(d, desc);
    SortBySorted(items, desc);
    var p :| 0 <= p < |d.keys| && d.keys[p] == k;
    assert items[p] in multiset(sorted);
    j :| 0 <= j < |sorted| && sorted[j] == items[p];
  }

  /** The returned keys are distinct keys of the dictionary. */
  lemma TopTenDistinct<K>(d: ODict<K, real>, desc: bool)
    requires Valid(d)
    ensures Distinct(TopTen(d, desc))
    ensures forall i :: 0 <= i < |TopTen(d, desc)| ==> TopTen(d, desc)[i] in d.vals
  {
    var items := Items(d);
    assert DistinctKeys(items);
    SortByDistinctKeys(items, desc);
    if |d.keys| > 0 {
      var _ := SortedItems(d, desc, d.keys[0]);
    }
  }

  /** The returned keys are listed best first. */
  lemma TopTenOrdered<K>(d: ODict<K, real>, desc: bool, i: nat, j: nat)
    requires Valid(d) && i < j < |TopTen(d, desc)|
    ensures !Before((TopTen(d, desc)[j], d.vals[TopTen(d, desc)[j]]), (TopTen(d, desc)[i], d.vals[TopTen(d, desc)[i]]), desc)
  {
    SortBySorted(Items(d), desc);
    var _ := SortedItems(d, desc, d.keys[0]);
  }

  /** No key left out goes strictly before a returned one. */
  lemma TopTenBest<K>(d: ODict<K, real>, desc: bool, i: nat, k: K)
    requires Valid(d) && i < |TopTen(d, desc)| && k in d.vals && k !in TopTen(d, desc)
    ensures !Before((k, d.vals[k]), (TopTen(d, desc)[i], d.vals[TopTen(d, desc)[i]]), desc)
  {
    var r := TopTen(d, desc);
    var sorted := SortBy(Items(d), desc);
    SortBySorted(Items(d), desc);
    var j := SortedItems(d, desc, k);
    assert forall m :: 0 <= m < |r| ==> sorted[m].0 == r[m] != k;
    assert i < j;
    assert sorted[i] == (r[i], d.vals[r[i]]);
    assert !Before(sorted[j], sorted[i], desc);
  }
}

=== FILE: schedule.dfy ===
/** A schedule ("state"): each course's moed A and moed B exam dates. */
module Schedule {
  import opened OrderedDict

  /** The (moed A, moed B) dates of one course, as day ordinals. */
  datatype DatePair = DatePair(a: int, b: int)

  /** The two exam periods; the statistics index them 0 and 1. */
  datatype Moed = MoedA | MoedB

  /** `dates[moed]`: the date of a course in one period. */
  function DateIn(p: DatePair, moed: Moed): int {
    match moed
    case MoedA => p.a
    case MoedB => p.b
  }

  /** `State.courses_dict`: courses (keys of type K) to their exam dates. */
  type State<K> = ODict<K, DatePair>

  /** The other exam period. */
  function Other(moed: Moed): Moed {
    match moed
    case MoedA => MoedB
    case MoedB => MoedA
  }

  /** The pair with the date of period `moed` moved by `delta` days. */
  function Shift(p: DatePair, moed: Moed, delta: int): (r: DatePair)
    ensures DateIn(r, moed) == DateIn(p, moed) + delta
    ensures DateIn(r, Other(moed)) == DateIn(p, Other(moed))
  {
    match moed
    case MoedA => DatePair(p.a + delta, p.b)
    case MoedB => DatePair(p.a, p.b + delta)
  }
}

=== FILE: sorting.dfy ===
/** Python's `list.sort()` on integers: the result is the sorted permutation
    of the input. */
module Sorting {

  predicate SortedInts(s: seq<int>) {
    forall i, j :: 0 <= i < j < |s| ==> s[i] <= s[j]
  }

  /** `x` placed before the first element not below it. */
  function Insert(x: int, s: seq<int>): (r: seq<int>)
    ensures |r| == |s| + 1
    ensures r[0] == if s == [] || x <= s[0] then x else s[0]
    decreases |s|
  {
    if s == [] || x <= s[0] then [x] + s
    else [s[0]] + Insert(x, s[1..])
  }

  /** Inserting into a sorted sequence keeps it sorted. */
  lemma {:induction false} InsertSorted(x: int, s: seq<int>)
    requires SortedInts(s)
    ensures SortedInts(Insert(x, s))
    decreases |s|
  {
    if s == [] || x <= s[0] {
      ConsSorted(x, s);
    } else {
      InsertSorted(x, s[1..]);
      ConsSorted(s[0], Insert(x, s[1..]));
    }
  }

  /** Inserting adds exactly `x`. */
  lemma {:induction false} InsertAdds(x: int, s: seq<int>)
    ensures multiset(Insert(x, s)) == multiset(s) + multiset{x}
    decreases |s|
  {
    if s != [] && x > s[0] {
      InsertAdds(x, s[1..]);
      assert s == [s[0]] + s[1..];
      assert multiset([s[0]] + Insert(x, s[1..])) == multiset{s[0]} + multiset(Insert(x, s[1..]));
    }
  }

  /** A sorted sequence stays sorted with an element no greater than its head in front. */
  lemma ConsSorted(a: int, s: seq<int>)
    requires SortedInts(s) && (s == [] || a <= s[0])
    ensures SortedInts([a] + s)
  {
    var r := [a] + s;
    forall i, j | 0 <= i < j < |r|
      ensures r[i] <= r[j]
    {
      if i == 0 {
        assert r[j] == s[j - 1];
        assert s[0] <= s[j - 1] || j == 1;
      } else {
        assert r[i] == s[i - 1] && r[j] == s[j - 1];
      }
    }
  }

  /** Insertion sort. */
  function SortInts(s: seq<int>): (r: seq<int>)
    ensures SortedInts(r)
    ensures multiset(r) == multiset(s)
    ensures |r| == |s|
    decreases |s|
  {
    if s == [] then []
    else
      var init := SortInts(s[..|s| - 1]);
      assert s == s[..|s| - 1] + [s[|s| - 1]];
      InsertSorted(s[|s| - 1], init);
      InsertAdds(s[|s| - 1], init);
      Insert(s[|s| - 1], init)
  }

  /** The first element of a sorted sequence is its least, the last its greatest. */
  lemma SortedEnds(s: seq<int>)
    requires SortedInts(s) && s != []
    ensures forall x :: x in s ==> s[0] <= x <= s[|s| - 1]
  {
  }
}

=== FILE: state_loader.dfy ===
/** `StateLoader`: reads an existing exam schedule from a CSV table. Row 0
    holds the four bounds of the exam periods unless they are given; every
    later row names a course (by the first five characters of its number) and
    its two exam dates, written in whatever order the people who typed them
    chose. */
module StateLoader {
  import opened Wrappers
  import opened OrderedDict
  import opened Text
  import opened Calendar
  import opened Objects
  import opened Schedule

  /** First and last day of the moed A period and of the moed B period. */
  datatype Bounds = Bounds(startA: int, endA: int, startB: int, endB: int)

  /** Days a parsed date may fall outside its period (`dates_flexibility`). */
  const Flexibility: int := 9

  /** Number of leading characters of a course number used as its key. */
  const PrefixLength: nat := 5

  /** The characters `re.split(r"[,/\-.\\]", ...)` cuts a date at. */
  const DateSeps: set<char> := {',', '/', '-', '.', '\\'}

  /** The dates `_parse_dates_helper` accepts for a moed: its period widened
      by nine days on each side, ends included. */
  predicate InWindow(b: Bounds, moed: Moed, d: int) {
    match moed
    case MoedA => b.startA - Flexibility <= d <= b.endA + Flexibility
    case MoedB => b.startB - Flexibility <= d <= b.endB + Flexibility
  }

  /** `date(int(y), int(m), int(d))` as an ordinal, or None where `int` or
      `date` raises ValueError. A part too large for a C int makes `date`
      raise OverflowError instead; `PartsOverflow` singles those parts out
      and the row loop reports them. */
  function MakeDate(y: string, m: string, d: string): (r: Option<int>)
    ensures r.Some? <==>
      && ParseInt(y).Some? && ParseInt(m).Some? && ParseInt(d).Some?
      && ValidDate(ParseInt(y).value, ParseInt(m).value, ParseInt(d).value)
    ensures r.Some? ==> r.value == Ordinal(ParseInt(y).value, ParseInt(m).value, ParseInt(d).value)
  {
    match (ParseInt(y), ParseInt(m), ParseInt(d))
    case (Some(yy), Some(mm), Some(dd)) => FromYmd(yy, mm, dd)
    case _ => None
  }

  /** The rewriting at the top of `_parse_dates_helper`: a four-character
      first part is a year written first and moves to the end; then a
      two-character year gets the century "20" in front. */
  function Normalise(parts: seq<string>): (r: seq<string>)
    requires |parts| == 3
    ensures |r| == 3
  {
    var p := if |parts[0]| == 4 then [parts[1], parts[2], parts[0]] else parts;
    if |p[2]| == 2 then [p[0], p[1], "20" + p[2]] else p
  }

  /** `_parse_dates_helper`: read the normalised parts month first; if that is
      no date or falls outside the window, read them day first; if that fails
      too, no date. */
  function ParseDateParts(parts: seq<string>, b: Bounds, moed: Moed): (r: Option<int>)
    requires |parts| == 3
    ensures r.Some? ==> InWindow(b, moed, r.value)
    ensures var p := Normalise(parts);
      r.Some? ==> r == MakeDate(p[2], p[0], p[1]) || r == MakeDate(p[2], p[1], p[0])
    ensures var p := Normalise(parts); var first := MakeDate(p[2], p[0], p[1]);
      first.Some? && InWindow(b, moed, first.value) ==> r == first
    ensures var p := Normalise(parts); var first := MakeDate(p[2], p[0], p[1]);
      var second := MakeDate(p[2], p[1], p[0]);
      !(first.Some? && InWindow(b, moed, first.value)) ==>
        r == (if second.Some? && InWindow(b, moed, second.value) then second else None)
  {
    var p := Normalise(parts);
    var monthFirst := MakeDate(p[2], p[0], p[1]);
    if monthFirst.Some? && InWindow(b, moed, monthFirst.value) then monthFirst
    else
      var dayFirst := MakeDate(p[2], p[1], p[0]);
      if dayFirst.Some? && InWindow(b, moed, dayFirst.value) then dayFirst else None
  }

  /** `_parse_dates`: cells 2 and 3 must each split into exactly three parts
      and both parse; otherwise the row has no dates. */
  function ParseDates(row: seq<string>, b: Bounds): (r: Option<DatePair>)
    requires |row| >= 4
    ensures r.Some? ==> InWindow(b, MoedA, r.value.a) && InWindow(b, MoedB, r.value.b)
    ensures r.Some? ==> CountOf(row[2], DateSeps) == 2 && CountOf(row[3], DateSeps) == 2
    ensures var pa := SplitAny(row[2], DateSeps); var pb := SplitAny(row[3], DateSeps);
      r.Some? <==>
        |pa| == 3 && |pb| == 3 && ParseDateParts(pa, b, MoedA).Some? && ParseDateParts(pb, b, MoedB).Some?
    ensures var pa := SplitAny(row[2], DateSeps); var pb := SplitAny(row[3], DateSeps);
      r.Some? ==> r.value == DatePair(ParseDateParts(pa, b, MoedA).value, ParseDateParts(pb, b, MoedB).value)
  {
    var partsA := SplitAny(row[2], DateSeps);
    var partsB := SplitAny(row[3], DateSeps);
    if |partsA| != 3 || |partsB| != 3 then None
    else
      match (ParseDateParts(partsA, b, MoedA), ParseDateParts(partsB, b, MoedB))
      case (Some(a), Some(bd)) => Some(DatePair(a, bd))
      case _ => None
  }

  /** The largest value a C int holds; `date` takes its three arguments as
      C ints. */
  const IntMax: int := 0x7FFF_FFFF

  /** The ordinal of `date.max`, 31 December 9999 (`date.min`, 1 January of
      year 1, has ordinal 1). */
  const MaxOrdinal: int := 3652059

  /** The normalised parts all read as numbers and one of them exceeds a C
      int: `date` raises OverflowError, which no `except ValueError` of
      `_parse_dates_helper` catches. */
  predicate PartsOverflow(parts: seq<string>)
    requires |parts| == 3
  {
    var p := Normalise(parts);
    && ParseInt(p[0]).Some? && ParseInt(p[1]).Some? && ParseInt(p[2]).Some?
    && (ParseInt(p[0]).value > IntMax || ParseInt(p[1]).value > IntMax || ParseInt(p[2]).value > IntMax)
  }

  /** Widening the period by nine days leaves the range of `date`: the
      subtraction or addition raises OverflowError before any part is read. */
  predicate WindowOverflows(b: Bounds, moed: Moed) {
    match moed
    case MoedA => b.startA - Flexibility < 1 || b.endA + Flexibility > MaxOrdinal
    case MoedB => b.startB - Flexibility < 1 || b.endB + Flexibility > MaxOrdinal
  }

  /** `_parse_dates_helper` raises OverflowError on these parts. */
  predicate HelperRaises(parts: seq<string>, b: Bounds, moed: Moed)
    requires |parts| == 3
  {
    WindowOverflows(b, moed) || PartsOverflow(parts)
  }

  /** A part over the C int range is no valid date either, so the value the
      model gives such parts never hides a date Python would accept. */
  lemma OverflowIsNoDate(parts: seq<string>, b: Bounds, moed: Moed)
    requires |parts| == 3 && PartsOverflow(parts)
    ensures ParseDateParts(parts, b, moed).None?
  {
    var p := Normalise(parts);
    assert MakeDate(p[2], p[0], p[1]).None?;
    assert MakeDate(p[2], p[1], p[0]).None?;
  }

  /** One bound of the header row, written month/day/year. */
  function HeaderDate(cell: string): (r: Option<int>)
    ensures r.Some? ==> |SplitAny(cell, {'/'})| >= 3
  {
    var parts := SplitAny(cell, {'/'});
    if |parts| < 3 then None else MakeDate(parts[2], parts[0], parts[1])
  }

  /** `_parse_dates_range`: the four bounds from cells 0..3 of row 0; a missing
      cell, part or malformed number raises, here None. */
  function ParseDatesRange(row: seq<string>): (r: Option<Bounds>)
    ensures r.Some? <==>
      |row| >= 4 && HeaderDate(row[0]).Some? && HeaderDate(row[1]).Some? &&
      HeaderDate(row[2]).Some? && HeaderDate(row[3]).Some?
    ensures r.Some? ==>
      r.value == Bounds(HeaderDate(row[0]).value, HeaderDate(row[1]).value,
                        HeaderDate(row[2]).value, HeaderDate(row[3]).value)
  {
    if |row| < 4 then None
    else
      match (HeaderDate(row[0]), HeaderDate(row[1]), HeaderDate(row[2]), HeaderDate(row[3]))
      case (Some(sa), Some(ea), Some(sb), Some(eb)) => Some(Bounds(sa, ea, sb, eb))
      case _ => None
  }

  /** `{course.number[0:5]: course for course in courses_to_add}`: the
      courses indexed by the first five characters of their number. */
  function PrefixIndex(courses: seq<Course>): (r: map<string, Course>)
    ensures r.Keys == set c | c in courses :: Take(c.number, PrefixLength)
    ensures forall k :: k in r ==> Take(r[k].number, PrefixLength) == k && r[k] in courses
    decreases |courses|
  {
    if courses == [] then map[]
    else
      var last := courses[|courses| - 1];
      assert courses == courses[..|courses| - 1] + [last];
      PrefixIndex(courses[..|courses| - 1])[Take(last.number, PrefixLength) := last]
  }

  /** Of several courses with the same prefix, the index keeps the last. */
  lemma {:induction false} PrefixIndexLast(courses: seq<Course>, i: nat)
    requires i < |courses|
    requires forall j :: i < j < |courses| ==>
      Take(courses[j].number, PrefixLength) != Take(courses[i].number, PrefixLength)
    ensures PrefixIndex(courses)[Take(courses[i].number, PrefixLength)] == courses[i]
    decreases |courses|
  {
    if i < |courses| - 1 {
      PrefixIndexLast(courses[..|courses| - 1], i);
    }
  }

  datatype StateError =
    | BadHeader          // row 0 is not four month/day/year bounds
    | RowTooShort(row: nat)  // indexing a missing cell raises IndexError
    | DateOverflow(row: nat) // `date` or a date shift raises OverflowError

  /** A data row whose indexing raises: not empty, yet without a number cell,
      or with a known number but no date cells. */
  predicate RowShort(row: seq<string>, index: map<string, Course>) {
    row != [] && (|row| < 2 || (row[1] in index && |row| < 4))
  }

  /** A data row of a known course whose two date cells split into three
      parts each, where the moed A helper raises OverflowError, or it returns
      and the moed B helper raises. Both helpers run before either result is
      tested. */
  predicate RowOverflows(row: seq<string>, index: map<string, Course>, b: Bounds) {
    && |row| >= 4 && row[1] in index
    && var pa := SplitAny(row[2], DateSeps);
       var pb := SplitAny(row[3], DateSeps);
       |pa| == 3 && |pb| == 3 && (HelperRaises(pa, b, MoedA) || HelperRaises(pb, b, MoedB))
  }

  /** A data row that makes `_parse` raise. */
  predicate RowFails(row: seq<string>, index: map<string, Course>, b: Bounds) {
    RowShort(row, index) || RowOverflows(row, index, b)
  }

  /** What one data row writes into the state, if anything: the course found
      under the row's number, with the row's two dates. */
  function RowEntry(row: seq<string>, index: map<string, Course>, b: Bounds): (r: Option<(CourseNum, DatePair)>)
    ensures r.Some? ==> |row| >= 4 && row[1] in index && r.value.0 == index[row[1]].number
    ensures r.Some? ==> ParseDates(row, b) == Some(r.value.1)
  {
    if |row| < 4 || row[1] !in index then None
    else
      match ParseDates(row, b)
      case None => None
      case Some(p) => Some((index[row[1]].number, p))
  }

  /** The loop of `_parse` from row `k` on. */
  function LoadRows(rows: seq<seq<string>>, k: nat, index: map<string, Course>, b: Bounds,
                    acc: State<CourseNum>): (r: Result<State<CourseNum>, StateError>)
    requires k <= |rows|
    ensures r.Err? ==> !r.error.BadHeader? && k <= r.error.row < |rows|
    ensures r.Ok? ==> acc.vals.Keys <= r.value.vals.Keys
    decreases |rows| - k
  {
    if k == |rows| then Ok(acc)
    else if RowShort(rows[k], index) then Err(RowTooShort(k))
    else if RowOverflows(rows[k], index, b) then Err(DateOverflow(k))
    else
      match RowEntry(rows[k], index, b)
      case None => LoadRows(rows, k + 1, index, b, acc)
      case Some(e) => LoadRows(rows, k + 1, index, b, Put(acc, e.0, e.1))
  }

  /** Reference definition: the dates the last row from `k` on that writes
      course `c` gives it. */
  function LastEntry(rows: seq<seq<string>>, k: nat, index: map<string, Course>, b: Bounds,
                     c: CourseNum): Option<DatePair>
    requires k <= |rows|
    decreases |rows| - k
  {
    if k == |rows| then None
    else
      var later := LastEntry(rows, k + 1, index, b, c);
      if later.Some? then later
      else
        var e := RowEntry(rows[k], index, b);
        if e.Some? && e.value.0 == c then Some(e.value.1) else None
  }

  /** The loop raises exactly at the first failing row, with the error of
      that row: IndexError for a short row, OverflowError otherwise. */
  lemma {:induction false} LoadRowsError(rows: seq<seq<string>>, k: nat, index: map<string, Course>,
                                         b: Bounds, acc: State<CourseNum>)
    requires k <= |rows|
    ensures var r := LoadRows(rows, k, index, b, acc);
      && (r.Err? <==> exists j :: k <= j < |rows| && RowFails(rows[j], index, b))
      && (r.Err? ==>
            && !r.error.BadHeader? && k <= r.error.row < |rows| && RowFails(rows[r.error.row], index, b)
            && (r.error.RowTooShort? <==> RowShort(rows[r.error.row], index))
            && forall j :: k <= j < r.error.row ==> !RowFails(rows[j], index, b))
    decreases |rows| - k
  {
    if k < |rows| && !RowFails(rows[k], index, b) {
      match RowEntry(rows[k], index, b)
      case None => LoadRowsError(rows, k + 1, index, b, acc);
      case Some(e) => LoadRowsError(rows, k + 1, index, b, Put(acc, e.0, e.1));
    }
  }

  /** Later rows win: after the loop a course holds the dates of the last row
      that wrote it, and a course no row wrote keeps what it had. */
  lemma {:induction false} LoadRowsLastWins(rows: seq<seq<string>>, k: nat, index: map<string, Course>,
                                            b: Bounds, acc: State<CourseNum>, c: CourseNum)
    requires k <= |rows|
    ensures var r := LoadRows(rows, k, index, b, acc);
      var last := LastEntry(rows, k, index, b, c);
      r.Ok? ==>
        && (c in r.value.vals <==> last.Some? || c in acc.vals)
        && (last.Some? ==> r.value.vals[c] == last.value)
        && (last.None? && c in acc.vals ==> r.value.vals[c] == acc.vals[c])
    decreases |rows| - k
  {
    if k < |rows| && !RowFails(rows[k], index, b) {
      match RowEntry(rows[k], index, b)
      case None => LoadRowsLastWins(rows, k + 1, index, b, acc, c);
      case Some(e) => LoadRowsLastWins(rows, k + 1, index, b, Put(acc, e.0, e.1), c);
    }
  }

  /** The loop keeps the state a well-formed dictionary whose dates all lie in
      their windows and whose courses all come from the index. */
  lemma {:induction false} LoadRowsWellFormed(rows: seq<seq<string>>, k: nat, index: map<string, Course>,
                                              b: Bounds, acc: State<CourseNum>)
    requires k <= |rows| && Valid(acc)
    requires forall c :: c in acc.vals ==>
      InWindow(b, MoedA, acc.vals[c].a) && InWindow(b, MoedB, acc.vals[c].b)
    requires forall c :: c in acc.vals ==> exists p :: p in index && index[p].number == c
    ensures var r := LoadRows(rows, k, index, b, acc);
      r.Ok? ==>
        && Valid(r.value)
        && (forall c :: c in r.value.vals ==>
              InWindow(b, MoedA, r.value.vals[c].a) && InWindow(b, MoedB, r.value.vals[c].b))
        && (forall c :: c in r.value.vals ==> exists p :: p in index && index[p].number == c)
    decreases |rows| - k
  {
    if k < |rows| && !RowFails(rows[k], index, b) {
      match RowEntry(rows[k], index, b)
      case None => LoadRowsWellFormed(rows, k + 1, index, b, acc);
      case Some(e) =>
        PutValid(acc, e.0, e.1);
        LoadRowsWellFormed(rows, k + 1, index, b, Put(acc, e.0, e.1));
    }
  }

  /** What loading the rows from `k` on within window `b` gives: it fails
      exactly when some row fails, at the first such row and with that row's
      error, and otherwise each course holds the dates of the last row that
      writes it, and no other course is present. */
  ghost predicate LoadedFrom(rows: seq<seq<string>>, k: nat, index: map<string, Course>, b: Bounds,
                       r: Result<State<CourseNum>, StateError>)
    requires k <= |rows|
  {
    && (r.Err? <==> exists j :: k <= j < |rows| && RowFails(rows[j], index, b))
    && (r.Err? ==>
          && !r.error.BadHeader? && k <= r.error.row < |rows| && RowFails(rows[r.error.row], index, b)
          && (r.error.RowTooShort? <==> RowShort(rows[r.error.row], index))
          && forall j :: k <= j < r.error.row ==> !RowFails(rows[j], index, b))
    && (r.Ok? ==> forall c ::
          && (c in r.value.vals <==> LastEntry(rows, k, index, b, c).Some?)
          && (c in r.value.vals ==> r.value.vals[c] == LastEntry(rows, k, index, b, c).value))
  }

  /** The loop started on an empty state loads as `LoadedFrom` says. */
  lemma LoadRowsLoaded(rows: seq<seq<string>>, k: nat, index: map<string, Course>, b: Bounds)
    requires k <= |rows|
    ensures LoadedFrom(rows, k, index, b, LoadRows(rows, k, index, b, Empty()))
  {
    LoadRowsError(rows, k, index, b, Empty());
    forall c: CourseNum
      ensures var r := LoadRows(rows, k, index, b, Empty());
        r.Ok? ==>
          && (c in r.value.vals <==> LastEntry(rows, k, index, b, c).Some?)
          && (c in r.value.vals ==> r.value.vals[c] == LastEntry(rows, k, index, b, c).value)
    {
      LoadRowsLastWins(rows, k, index, b, Empty(), c);
    }
  }

  /** `StateLoader(state_file_dir, courses_to_add, bounds)`: the state it reads.
      Given bounds, every row from row 0 is data. Without them row 0 is the
      header giving the window and the data start at row 1; a file without
      rows loads nothing. */
  function LoadState(rows: seq<seq<string>>, courses: seq<Course>, bounds: Option<Bounds>)
    : (r: Result<State<CourseNum>, StateError>)
    ensures bounds.Some? ==> LoadedFrom(rows, 0, PrefixIndex(courses), bounds.value, r)
    ensures bounds.None? && rows == [] ==> r == Ok(Empty())
    ensures bounds.None? && rows != [] && ParseDatesRange(rows[0]).None? ==> r == Err(BadHeader)
    ensures bounds.None? && rows != [] && ParseDatesRange(rows[0]).Some? ==>
      LoadedFrom(rows, 1, PrefixIndex(courses), ParseDatesRange(rows[0]).value, r)
    ensures r.Ok? ==> Valid(r.value)
    ensures r.Ok? ==> forall c :: c in r.value.vals ==> exists course :: course in courses && course.number == c
  {
    var index := PrefixIndex(courses);
    match bounds
    case Some(b) =>
      LoadRowsWellFormed(rows, 0, index, b, Empty());
      LoadRowsLoaded(rows, 0, index, b);
      LoadRows(rows, 0, index, b, Empty())
    case None =>
      if rows == [] then Ok(Empty())
      else
        match ParseDatesRange(rows[0])
        case None => Err(BadHeader)
        case Some(b) =>
          LoadRowsWellFormed(rows, 1, index, b, Empty());
          LoadRowsLoaded(rows, 1, index, b);
          LoadRows(rows, 1, index, b, Empty())
  }

  /** `str(m) + sep + str(d) + sep + str(y)`, a date as the schedules write it. */
  function FormatDate(y: nat, m: nat, d: nat, sep: char): string {
    FormatInt(m) + [sep] + FormatInt(d) + [sep] + FormatInt(y)
  }

  lemma DigitsAreNotSeps(s: string)
    requires AllDigits(s)
    ensures NoneOf(s, DateSeps)
  {
  }

  /** A date written month/day/year with any separator splits into its three
      numbers. */
  lemma SplitFormatted(y: nat, m: nat, d: nat, sep: char)
    requires sep in DateSeps
    ensures SplitAny(FormatDate(y, m, d, sep), DateSeps) == [FormatInt(m), FormatInt(d), FormatInt(y)]
  {
    var fm, fd, fy := FormatInt(m), FormatInt(d), FormatInt(y);
    DigitsAreNotSeps(fm);
    DigitsAreNotSeps(fd);
    DigitsAreNotSeps(fy);
    assert FormatDate(y, m, d, sep) == fm + [sep] + (fd + [sep] + fy);
    SplitAnyCons(fm, sep, fd + [sep] + fy, DateSeps);
    SplitAnyCons(fd, sep, fy, DateSeps);
    SplitAnyNone(fy, DateSeps);
  }

  /** Round trip: a valid date with a four-digit year, written month/day/year
      and inside its window, parses back to itself. */
  lemma ParseFormattedDate(y: nat, m: nat, d: nat, sep: char, b: Bounds, moed: Moed)
    requires ValidDate(y, m, d) && 1000 <= y && sep in DateSeps
    requires InWindow(b, moed, Ordinal(y, m, d))
    ensures var parts := SplitAny(FormatDate(y, m, d, sep), DateSeps);
      |parts| == 3 && ParseDateParts(parts, b, moed) == Some(Ordinal(y, m, d))
  {
    SplitFormatted(y, m, d, sep);
    FormatLength(y);
    FormatLength(m);
    ParseFormat(y);
    ParseFormat(m);
    ParseFormat(d);
  }

  /** A date written year first ("2021-01-24") is read as the same date. */
  lemma ParseYearFirst(y: nat, m: nat, d: nat, b: Bounds, moed: Moed)
    requires ValidDate(y, m, d) && 1000 <= y
    requires InWindow(b, moed, Ordinal(y, m, d))
    ensures ParseDateParts([FormatInt(y), FormatInt(m), FormatInt(d)], b, moed) == Some(Ordinal(y, m, d))
  {
    FormatLength(y);
    ParseFormat(y);
    ParseFormat(m);
    ParseFormat(d);
  }

  /** A date written day first whose day cannot be a month ("24/01/2021") is
      read as that date: the month-first reading raises and the day-first one
      is taken. */
  lemma ParseDayFirst(y: nat, m: nat, d: nat, b: Bounds, moed: Moed)
    requires ValidDate(y, m, d) && 1000 <= y && d > 12
    requires InWindow(b, moed, Ordinal(y, m, d))
    ensures ParseDateParts([FormatInt(d), FormatInt(m), FormatInt(y)], b, moed) == Some(Ordinal(y, m, d))
  {
    FormatLength(y);
    FormatLength(d);
    ParseFormat(y);
    ParseFormat(m);
    ParseFormat(d);
  }

  /** A two-digit year `yy` is read as 20yy. */
  lemma ParseCentury(yy: string)
    requires |yy| == 2 && AllDigits(yy)
    ensures ParseInt("20" + yy) == Some(2000 + DigitsValue(yy))
  {
    var s := "20" + yy;
    assert DigitsValue("2") == 2 by {
      assert "2"[..0] == [];
    }
    assert DigitsValue("20") == 20 by {
      assert "20"[..1] == "2";
    }
    assert s[..3] == "20" + [yy[0]];
    assert (s[..3])[..2] == "20";
    assert DigitsValue(s[..3]) == 200 + ((yy[0] as int) - ('0' as int));
    assert s[..|s| - 1] == s[..3];
    assert yy[..1] == [yy[0]] && yy[..1][..0] == [];
    assert DigitsValue(yy) == 10 * DigitsValue(yy[..1]) + ((yy[1] as int) - ('0' as int));
  }

  /** Round trip for a whole row: cells written month/day/year within their
      windows give back the two dates. */
  lemma ParseDatesFormatted(row: seq<string>, b: Bounds, ya: nat, ma: nat, da: nat, yb: nat, mb: nat, db: nat, sep: char)
    requires |row| >= 4 && sep in DateSeps
    requires ValidDate(ya, ma, da) && 1000 <= ya && InWindow(b, MoedA, Ordinal(ya, ma, da))
    requires ValidDate(yb, mb, db) && 1000 <= yb && InWindow(b, MoedB, Ordinal(yb, mb, db))
    requires row[2] == FormatDate(ya, ma, da, sep) && row[3] == FormatDate(yb, mb, db, sep)
    ensures ParseDates(row, b) == Some(DatePair(Ordinal(ya, ma, da), Ordinal(yb, mb, db)))
  {
    ParseFormattedDate(ya, ma, da, sep, b, MoedA);
    ParseFormattedDate(yb, mb, db, sep, b, MoedB);
  }
}

=== FILE: state_stats.dfy ===
/** `state_stats`: statistics of a schedule. Which pairs of courses sit on the
    same day although a major lists them in the same semester (by collision
    type), how many such pairs a major has, and the average number of days
    between exams of one type in each semester. */
module StateStats {
  import opened OrderedDict
  import opened Objects
  import opened Schedule
  import opened Sorting

  /** One (semester, type) occurrence of a course in a major. */
  datatype Occ = Occ(sem: Semester, ctype: CourseType)

  /** `course.get_majors()`: for each course, its majors (in insertion order)
      with the course's occurrences in each. */
  type MajorsOf<!K> = K -> ODict<MajorId, seq<Occ>>

  /** `{sem: _type for sem, _type in occs}`: a later occurrence in the same
      semester replaces an earlier one. */
  function SemMap(occs: seq<Occ>): map<Semester, CourseType>
    decreases |occs|
  {
    if occs == [] then map[]
    else
      var last := occs[|occs| - 1];
      assert occs == occs[..|occs| - 1] + [last];
      SemMap(occs[..|occs| - 1])[last.sem := last.ctype]
  }

  /** The semesters of the map are the semesters the course is listed in. */
  lemma {:induction false} SemMapKeys(occs: seq<Occ>)
    ensures SemMap(occs).Keys == set o | o in occs :: o.sem
    decreases |occs|
  {
    if occs != [] {
      var last := occs[|occs| - 1];
      var init := occs[..|occs| - 1];
      assert occs == init + [last];
      SemMapKeys(init);
      assert (set o | o in occs :: o.sem) == (set o | o in init :: o.sem) + {last.sem};
    }
  }

  /** The semester map keeps the type of the last occurrence in a semester. */
  lemma {:induction false} SemMapLast(occs: seq<Occ>, i: nat)
    requires i < |occs|
    requires forall j :: i < j < |occs| ==> occs[j].sem != occs[i].sem
    ensures occs[i].sem in SemMap(occs) && SemMap(occs)[occs[i].sem] == occs[i].ctype
    decreases |occs|
  {
    if i < |occs| - 1 {
      SemMapLast(occs[..|occs| - 1], i);
    }
  }

  /** The result of `get_collisions`: major -> semester -> course pairs. */
  type Report<K> = map<MajorId, map<Semester, seq<(K, K)>>>

  /** The pairs recorded under (m, s); a missing level reads as no pairs. */
  function Lookup<K>(out: Report<K>, m: MajorId, s: Semester): seq<(K, K)> {
    if m in out && s in out[m] then out[m][s] else []
  }

  /** `_get_collisions_sol_update`. */
  function Update<K>(out: Report<K>, m: MajorId, s: Semester, c1: K, c2: K): (r: Report<K>)
    ensures Lookup(r, m, s) == Lookup(out, m, s) + [(c1, c2)]
    ensures forall m', s' :: (m' != m || s' != s) ==> Lookup(r, m', s') == Lookup(out, m', s')
    ensures r.Keys == out.Keys + {m} && s in r[m]
    ensures r[m].Keys == (if m in out then out[m].Keys else {}) + {s}
  {
    var sems: map<Semester, seq<(K, K)>> := if m in out then out[m] else map[];
    if m in out then
      if s in sems then out[m := sems[s := sems[s] + [(c1, c2)]]]
      else out[m := sems[s := [(c1, c2)]]]
    else out[m := sems[s := [(c1, c2)]]]
  }

  /** Both courses list major `m` and semester `s` there, and their types in
      it collide with type `col`. */
  predicate CollidesIn<K>(majorsOf: MajorsOf<K>, col: CollisionType, c1: K, c2: K, m: MajorId, s: Semester) {
    && m in majorsOf(c1).vals && m in majorsOf(c2).vals
    && var sm1 := SemMap(majorsOf(c1).vals[m]);
       var sm2 := SemMap(majorsOf(c2).vals[m]);
       s in sm1 && s in sm2 && ColType(sm1[s], sm2[s]) == col
  }

  /** The pair is reported under (m, s): same date in the chosen period, and
      a collision of type `col` there. */
  predicate Reported<K>(state: State<K>, majorsOf: MajorsOf<K>, moed: Moed, col: CollisionType,
                        c1: K, c2: K, m: MajorId, s: Semester)
  {
    && c1 in state.vals && c2 in state.vals
    && DateIn(state.vals[c1], moed) == DateIn(state.vals[c2], moed) && CollidesIn(majorsOf, col, c1, c2, m, s)
  }

  /** The loop over the common semesters of one major, from semester `s` on. */
  function SemLoop<K>(out: Report<K>, m: MajorId, sm1: map<Semester, CourseType>, sm2: map<Semester, CourseType>,
                      col: CollisionType, c1: K, c2: K, s: nat): Report<K>
    requires s <= SemesterCount
    decreases SemesterCount - s
  {
    if s == SemesterCount then out
    else
      var out1 := if s in sm1 && s in sm2 && ColType(sm1[s], sm2[s]) == col then Update(out, m, s, c1, c2) else out;
      SemLoop(out1, m, sm1, sm2, col, c1, c2, s + 1)
  }

  /** The semester loop appends the pair once to every later semester of `m`
      where the two types collide with type `col`, and nowhere else. */
  lemma {:induction false} SemLoopLookup<K>(out: Report<K>, m: MajorId, sm1: map<Semester, CourseType>,
                                            sm2: map<Semester, CourseType>, col: CollisionType, c1: K, c2: K,
                                            s: nat, m': MajorId, s': Semester)
    requires s <= SemesterCount
    ensures Lookup(SemLoop(out, m, sm1, sm2, col, c1, c2, s), m', s') == Lookup(out, m', s') +
      (if m' == m && s <= s' && s' in sm1 && s' in sm2 && ColType(sm1[s'], sm2[s']) == col then [(c1, c2)] else [])
    decreases SemesterCount - s
  {
    if s < SemesterCount {
      var hit := s in sm1 && s in sm2 && ColType(sm1[s], sm2[s]) == col;
      var out1 := if hit then Update(out, m, s, c1, c2) else out;
      assert SemLoop(out, m, sm1, sm2, col, c1, c2, s) == SemLoop(out1, m, sm1, sm2, col, c1, c2, s + 1);
      SemLoopLookup(out1, m, sm1, sm2, col, c1, c2, s + 1, m', s');
      SemStepLookup(out, m, s, c1, c2, hit, m', s');
      StepJoin(Lookup(out, m', s'), Lookup(out1, m', s'), Lookup(SemLoop(out1, m, sm1, sm2, col, c1, c2, s + 1), m', s'),
               (c1, c2), hit && m' == m && s' == s,
               m' == m && s + 1 <= s' && s' in sm1 && s' in sm2 && ColType(sm1[s'], sm2[s']) == col,
               m' == m && s <= s' && s' in sm1 && s' in sm2 && ColType(sm1[s'], sm2[s']) == col);
    }
  }

  /** One semester of the loop adds the pair under (m, s) alone, and only on
      a hit. */
  lemma SemStepLookup<K>(out: Report<K>, m: MajorId, s: Semester, c1: K, c2: K, hit: bool, m': MajorId, s': Semester)
    ensures hit && m' == m && s' == s ==>
      Lookup(if hit then Update(out, m, s, c1, c2) else out, m', s') == Lookup(out, m', s') + [(c1, c2)]
    ensures !(hit && m' == m && s' == s) ==>
      Lookup(if hit then Update(out, m, s, c1, c2) else out, m', s') == Lookup(out, m', s')
  {
  }

  /** An item appended now or later, but not both, is appended once. */
  lemma StepJoin<T>(l0: seq<T>, l1: seq<T>, lf: seq<T>, x: T, here: bool, later: bool, now: bool)
    requires l1 == l0 + (if here then [x] else [])
    requires lf == l1 + (if later then [x] else [])
    requires now == (here || later) && !(here && later)
    ensures lf == l0 + (if now then [x] else [])
  {
    if here {
      assert l0 + [x] + [] == l0 + [x];
    } else {
      assert l0 + [] == l0;
    }
  }

  /** The loop over the majors of `c1` (in order) that `c2` shares. */
  function MajorLoop<K>(out: Report<K>, majorsOf: MajorsOf<K>, col: CollisionType, c1: K, c2: K,
                        ms: seq<MajorId>): Report<K>
    decreases |ms|
  {
    if ms == [] then out
    else
      var m := ms[0];
      var out1 :=
        if m in majorsOf(c1).vals && m in majorsOf(c2).vals then
          SemLoop(out, m, SemMap(majorsOf(c1).vals[m]), SemMap(majorsOf(c2).vals[m]), col, c1, c2, 0)
        else out;
      MajorLoop(out1, majorsOf, col, c1, c2, ms[1..])
  }

  /** With no major listed twice, the pair lands once under every (m, s) of a
      listed major where the two courses collide with type `col`. */
  lemma {:induction false} MajorLoopLookup<K>(out: Report<K>, majorsOf: MajorsOf<K>, col: CollisionType, c1: K, c2: K,
                                              ms: seq<MajorId>, m': MajorId, s': Semester)
    requires Distinct(ms)
    ensures Lookup(MajorLoop(out, majorsOf, col, c1, c2, ms), m', s') == Lookup(out, m', s') +
      (if m' in ms && CollidesIn(majorsOf, col, c1, c2, m', s') then [(c1, c2)] else [])
    decreases |ms|
  {
    if ms != [] {
      var m := ms[0];
      var out1 :=
        if m in majorsOf(c1).vals && m in majorsOf(c2).vals then
          SemLoop(out, m, SemMap(majorsOf(c1).vals[m]), SemMap(majorsOf(c2).vals[m]), col, c1, c2, 0)
        else out;
      if m in majorsOf(c1).vals && m in majorsOf(c2).vals {
        SemLoopLookup(out, m, SemMap(majorsOf(c1).vals[m]), SemMap(majorsOf(c2).vals[m]), col, c1, c2, 0, m', s');
      }
      assert Distinct(ms[1..]) && m !in ms[1..] by {
        forall i, j | 0 <= i < j < |ms[1..]| ensures ms[1..][i] != ms[1..][j] {
          assert ms[1..][i] == ms[i + 1] && ms[1..][j] == ms[j + 1];
        }
      }
      MajorLoopLookup(out1, majorsOf, col, c1, c2, ms[1..], m', s');
      if m' == m {
        assert Lookup(MajorLoop(out1, majorsOf, col, c1, c2, ms[1..]), m', s') == Lookup(out1, m', s');
        assert Lookup(out1, m', s') == Lookup(out, m', s') +
          (if CollidesIn(majorsOf, col, c1, c2, m', s') then [(c1, c2)] else []);
      } else {
        assert Lookup(out1, m', s') == Lookup(out, m', s');
        assert m' in ms <==> m' in ms[1..];
      }
    }
  }

  /** The body of the inner loop of `get_collisions` for one pair. */
  function PairStep<K>(out: Report<K>, state: State<K>, majorsOf: MajorsOf<K>, moed: Moed, col: CollisionType,
                       c1: K, c2: K): Report<K>
    requires c1 in state.vals && c2 in state.vals
  {
    if DateIn(state.vals[c1], moed) != DateIn(state.vals[c2], moed) then out
    else MajorLoop(out, majorsOf, col, c1, c2, majorsOf(c1).keys)
  }

  /** One pair is appended under (m, s) exactly when it is reported there. */
  lemma PairStepLookup<K>(out: Report<K>, state: State<K>, majorsOf: MajorsOf<K>, moed: Moed, col: CollisionType,
                          c1: K, c2: K, m: MajorId, s: Semester)
    requires c1 in state.vals && c2 in state.vals && Valid(majorsOf(c1))
    ensures Lookup(PairStep(out, state, majorsOf, moed, col, c1, c2), m, s) == Lookup(out, m, s) +
      (if Reported(state, majorsOf, moed, col, c1, c2, m, s) then [(c1, c2)] else [])
  {
    if DateIn(state.vals[c1], moed) == DateIn(state.vals[c2], moed) {
      MajorLoopLookup(out, majorsOf, col, c1, c2, majorsOf(c1).keys, m, s);
    }
  }

  /** The pairs (keys[i], keys[j]) for i < j, i major, j minor: the order of
      the two nested `range` loops. */
  function OrderedPairs<K>(keys: seq<K>): seq<(K, K)>
    decreases |keys|
  {
    if keys == [] then [] else PairsWith(keys[0], keys[1..]) + OrderedPairs(keys[1..])
  }

  function PairsWith<K>(a: K, rest: seq<K>): (r: seq<(K, K)>)
    ensures |r| == |rest|
    ensures forall k :: 0 <= k < |r| ==> r[k] == (a, rest[k])
    decreases |rest|
  {
    if rest == [] then [] else [(a, rest[0])] + PairsWith(a, rest[1..])
  }

  /** A pair is visited exactly when it is two keys in key order. */
  lemma OrderedPairsMembers<K>(keys: seq<K>, p: (K, K))
    ensures p in OrderedPairs(keys) <==> exists i, j :: 0 <= i < j < |keys| && p == (keys[i], keys[j])
  {
    if p in OrderedPairs(keys) {
      OrderedPairsSound(keys, p);
    }
    if exists i, j :: 0 <= i < j < |keys| && p == (keys[i], keys[j]) {
      var i, j :| 0 <= i < j < |keys| && p == (keys[i], keys[j]);
      OrderedPairsComplete(keys, i, j);
    }
  }

  /** Every visited pair is two keys in key order. */
  lemma {:induction false} OrderedPairsSound<K>(keys: seq<K>, p: (K, K))
    requires p in OrderedPairs(keys)
    ensures exists i, j :: 0 <= i < j < |keys| && p == (keys[i], keys[j])
    decreases |keys|
  {
    var pw := PairsWith(keys[0], keys[1..]);
    if p in pw {
      var k :| 0 <= k < |pw| && pw[k] == p;
      assert p == (keys[0], keys[k + 1]);
    } else {
      OrderedPairsSound(keys[1..], p);
      var i, j :| 0 <= i < j < |keys[1..]| && p == (keys[1..][i], keys[1..][j]);
      assert p == (keys[i + 1], keys[j + 1]);
    }
  }

  /** Every two keys in key order are visited. */
  lemma {:induction false} OrderedPairsComplete<K>(keys: seq<K>, i: nat, j: nat)
    requires i < j < |keys|
    ensures (keys[i], keys[j]) in OrderedPairs(keys)
    decreases |keys|
  {
    if i == 0 {
      OrderedPairsHead(keys, j);
    } else {
      var rest := keys[1..];
      OrderedPairsComplete(rest, i - 1, j - 1);
      OrderedPairsTail(keys, (rest[i - 1], rest[j - 1]));
      assert rest[i - 1] == keys[i] && rest[j - 1] == keys[j];
    }
  }

  /** The first key is visited with every later one. */
  lemma OrderedPairsHead<K>(keys: seq<K>, j: nat)
    requires 0 < j < |keys|
    ensures (keys[0], keys[j]) in OrderedPairs(keys)
  {
    var pw := PairsWith(keys[0], keys[1..]);
    assert pw[j - 1] == (keys[0], keys[j]);
    assert OrderedPairs(keys) == pw + OrderedPairs(keys[1..]);
  }

  /** The pairs of the later keys are visited too. */
  lemma OrderedPairsTail<K>(keys: seq<K>, p: (K, K))
    requires keys != [] && p in OrderedPairs(keys[1..])
    ensures p in OrderedPairs(keys)
  {
    assert OrderedPairs(keys) == PairsWith(keys[0], keys[1..]) + OrderedPairs(keys[1..]);
  }

  /** With distinct keys no pair is visited twice. */
  lemma {:induction false} OrderedPairsDistinct<K>(keys: seq<K>)
    requires Distinct(keys)
    ensures Distinct(OrderedPairs(keys))
    decreases |keys|
  {
    if keys != [] {
      var pw := PairsWith(keys[0], keys[1..]);
      var rest := OrderedPairs(keys[1..]);
      assert Distinct(keys[1..]) by {
        forall i, j | 0 <= i < j < |keys[1..]| ensures keys[1..][i] != keys[1..][j] {
          assert keys[1..][i] == keys[i + 1] && keys[1..][j] == keys[j + 1];
        }
      }
      OrderedPairsDistinct(keys[1..]);
      forall q | q in rest ensures q.0 != keys[0] {
        OrderedPairsMembers(keys[1..], q);
        var i, j :| 0 <= i < j < |keys[1..]| && q == (keys[1..][i], keys[1..][j]);
        assert q.0 == keys[i + 1];
      }
      assert Distinct(pw) by {
        forall i, j | 0 <= i < j < |pw| ensures pw[i] != pw[j] {
          assert pw[i].1 == keys[i + 1] && pw[j].1 == keys[j + 1];
        }
      }
      DistinctConcat(pw, rest);
    }
  }

  lemma DistinctConcat<T>(a: seq<T>, b: seq<T>)
    requires Distinct(a) && Distinct(b)
    requires forall x :: x in a ==> x !in b
    ensures Distinct(a + b)
  {
    forall i, j | 0 <= i < j < |a + b| ensures (a + b)[i] != (a + b)[j] {
      if i < |a| && j >= |a| {
        assert (a + b)[i] in a && (a + b)[j] in b;
      }
    }
  }

  /** The pairs of `pairs` reported under (m, s), in order. */
  function Reports<K>(state: State<K>, majorsOf: MajorsOf<K>, moed: Moed, col: CollisionType,
                      pairs: seq<(K, K)>, m: MajorId, s: Semester): seq<(K, K)>
    decreases |pairs|
  {
    if pairs == [] then []
    else
      var rest := Reports(state, majorsOf, moed, col, pairs[1..], m, s);
      if Reported(state, majorsOf, moed, col, pairs[0].0, pairs[0].1, m, s) then [pairs[0]] + rest else rest
  }

  /** The reported pairs are exactly the pairs reported under (m, s), and none
      is repeated when the pairs are distinct. */
  lemma {:induction false} ReportsMembers<K>(state: State<K>, majorsOf: MajorsOf<K>, moed: Moed, col: CollisionType,
                                             pairs: seq<(K, K)>, m: MajorId, s: Semester)
    ensures var r := Reports(state, majorsOf, moed, col, pairs, m, s);
      && (forall p :: p in r ==> p in pairs && Reported(state, majorsOf, moed, col, p.0, p.1, m, s))
      && (forall p :: p in pairs && Reported(state, majorsOf, moed, col, p.0, p.1, m, s) ==> p in r)
      && (Distinct(pairs) ==> Distinct(r))
    decreases |pairs|
  {
    if pairs != [] {
      ReportsMembers(state, majorsOf, moed, col, pairs[1..], m, s);
      var p := pairs[0];
      assert forall q :: q in pairs ==> q == p || q in pairs[1..];
      if Distinct(pairs) {
        assert p !in pairs[1..];
        forall i, j | 0 <= i < j < |pairs[1..]| ensures pairs[1..][i] != pairs[1..][j] {
          assert pairs[1..][i] == pairs[i + 1] && pairs[1..][j] == pairs[j + 1];
        }
      }
    }
  }

  /** Every course of the schedule has a well-formed majors dictionary. */
  predicate MajorsValid<K>(state: State<K>, majorsOf: MajorsOf<K>) {
    forall c :: c in state.vals ==> Valid(majorsOf(c))
  }

  /** The two nested loops of `get_collisions`, over the remaining pairs. */
  function PairLoop<K>(out: Report<K>, state: State<K>, majorsOf: MajorsOf<K>, moed: Moed, col: CollisionType,
                       pairs: seq<(K, K)>): (r: Report<K>)
    requires forall p :: p in pairs ==> p.0 in state.vals && p.1 in state.vals
    decreases |pairs|
  {
    if pairs == [] then out
    else PairLoop(PairStep(out, state, majorsOf, moed, col, pairs[0].0, pairs[0].1), state, majorsOf, moed, col, pairs[1..])
  }

  /** Folding over the pairs appends to (m, s) exactly the reported ones, in order. */
  lemma {:induction false} PairLoopReports<K>(out: Report<K>, state: State<K>, majorsOf: MajorsOf<K>, moed: Moed,
                                              col: CollisionType, pairs: seq<(K, K)>, m: MajorId, s: Semester)
    requires forall p :: p in pairs ==> p.0 in state.vals && p.1 in state.vals
    requires MajorsValid(state, majorsOf)
    ensures Lookup(PairLoop(out, state, majorsOf, moed, col, pairs), m, s) ==
            Lookup(out, m, s) + Reports(state, majorsOf, moed, col, pairs, m, s)
    decreases |pairs|
  {
    if pairs != [] {
      var p := pairs[0];
      var out1 := PairStep(out, state, majorsOf, moed, col, p.0, p.1);
      PairLoopReports(out1, state, majorsOf, moed, col, pairs[1..], m, s);
      PairStepLookup(out, state, majorsOf, moed, col, p.0, p.1, m, s);
      AppendJoin(Lookup(out, m, s), Lookup(out1, m, s), Lookup(PairLoop(out1, state, majorsOf, moed, col, pairs[1..]), m, s),
                 Reports(state, majorsOf, moed, col, pairs[1..], m, s), p, Reported(state, majorsOf, moed, col, p.0, p.1, m, s));
    }
  }

  /** Appending the first pair (if reported) and then the rest's reports
      appends the reports of all pairs. */
  lemma AppendJoin<T>(l0: seq<T>, l1: seq<T>, lf: seq<T>, rest: seq<T>, p: T, reported: bool)
    requires l1 == l0 + (if reported then [p] else [])
    requires lf == l1 + rest
    ensures lf == l0 + (if reported then [p] + rest else rest)
  {
    if reported {
      assert l0 + [p] + rest == l0 + ([p] + rest);
    } else {
      assert l0 + [] == l0;
    }
  }

  /** `get_collisions(state, moed, col_type)`: under every (major, semester)
      it lists the reported pairs among all pairs of courses in key order,
      in the order of the two loops. */
  function GetCollisions<K>(state: State<K>, majorsOf: MajorsOf<K>, moed: Moed, col: CollisionType): (r: Report<K>)
    requires Valid(state) && MajorsValid(state, majorsOf)
    ensures forall m, s: Semester :: Lookup(r, m, s) == Reports(state, majorsOf, moed, col, OrderedPairs(state.keys), m, s)
  {
    var pairs := OrderedPairs(state.keys);
    assert forall p :: p in pairs ==> p.0 in state.vals && p.1 in state.vals by {
      forall p | p in pairs ensures p.0 in state.vals && p.1 in state.vals {
        OrderedPairsSound(state.keys, p);
      }
    }
    var r := PairLoop(map[], state, majorsOf, moed, col, pairs);
    assert forall m, s: Semester :: Lookup(r, m, s) == Reports(state, majorsOf, moed, col, pairs, m, s) by {
      forall m, s: Semester
        ensures Lookup(r, m, s) == Reports(state, majorsOf, moed, col, pairs, m, s)
      {
        PairLoopReports(map[], state, majorsOf, moed, col, pairs, m, s);
      }
    }
    r
  }

  /** No pair is listed twice under (m, s), and every listed pair is two
      courses in key order, the earlier first, with the same date and a
      collision of type `col` in (m, s). */
  lemma GetCollisionsSound<K>(state: State<K>, majorsOf: MajorsOf<K>, moed: Moed, col: CollisionType,
                              m: MajorId, s: Semester)
    requires Valid(state) && MajorsValid(state, majorsOf)
    ensures Distinct(Lookup(GetCollisions(state, majorsOf, moed, col), m, s))
    ensures forall p :: p in Lookup(GetCollisions(state, majorsOf, moed, col), m, s) ==>
      && (exists i, j :: 0 <= i < j < |state.keys| && p == (state.keys[i], state.keys[j]))
      && p.0 in state.vals && p.1 in state.vals
      && DateIn(state.vals[p.0], moed) == DateIn(state.vals[p.1], moed)
      && CollidesIn(majorsOf, col, p.0, p.1, m, s)
  {
    var pairs := OrderedPairs(state.keys);
    var listed := Lookup(GetCollisions(state, majorsOf, moed, col), m, s);
    ReportsMembers(state, majorsOf, moed, col, pairs, m, s);
    OrderedPairsDistinct(state.keys);
    forall p | p in listed
      ensures exists i, j :: 0 <= i < j < |state.keys| && p == (state.keys[i], state.keys[j])
    {
      OrderedPairsMembers(state.keys, p);
    }
  }

  /** Conversely, two courses in key order with the same date and a collision
      of type `col` in (m, s) are listed there. */
  lemma GetCollisionsComplete<K>(state: State<K>, majorsOf: MajorsOf<K>, moed: Moed, col: CollisionType,
                                 m: MajorId, s: Semester, i: nat, j: nat)
    requires Valid(state) && MajorsValid(state, majorsOf)
    requires i < j < |state.keys|
    requires DateIn(state.vals[state.keys[i]], moed) == DateIn(state.vals[state.keys[j]], moed)
    requires CollidesIn(majorsOf, col, state.keys[i], state.keys[j], m, s)
    ensures (state.keys[i], state.keys[j]) in Lookup(GetCollisions(state, majorsOf, moed, col), m, s)
  {
    var p := (state.keys[i], state.keys[j]);
    var pairs := OrderedPairs(state.keys);
    assert p in pairs by {
      OrderedPairsMembers(state.keys, p);
    }
    assert Reported(state, majorsOf, moed, col, p.0, p.1, m, s);
    assert p in Reports(state, majorsOf, moed, col, pairs, m, s) by {
      ReportsMembers(state, majorsOf, moed, col, pairs, m, s);
    }
  }

  /** Number of pairs of a report under major `m`, over semesters `s` on. */
  function CountFrom<K>(out: Report<K>, m: MajorId, s: nat): nat
    requires s <= SemesterCount
    decreases SemesterCount - s
  {
    if s == SemesterCount then 0 else |Lookup(out, m, s)| + CountFrom(out, m, s + 1)
  }

  /** `get_coll_stats`: the number of HOVA_HOVA, HOVA_BHOVA, BHOVA_BHOVA and
      BHIRA_BHIRA pairs of one major. BHOVA_BHOVA is the same member as
      HOVA_BHOVA, so the two middle counts always agree. */
  function GetCollStats<K>(state: State<K>, majorsOf: MajorsOf<K>, major: MajorId, moed: Moed): (r: seq<nat>)
    requires Valid(state) && MajorsValid(state, majorsOf)
    ensures |r| == 4 && r[1] == r[2]
  {
    [CountFrom(GetCollisions(state, majorsOf, moed, HovaHova), major, 0),
     CountFrom(GetCollisions(state, majorsOf, moed, HovaBhova), major, 0),
     CountFrom(GetCollisions(state, majorsOf, moed, BhovaBhova), major, 0),
     CountFrom(GetCollisions(state, majorsOf, moed, BhiraBhira), major, 0)]
  }

  /** The reported pairs of major `m` from semester `s` on. */
  function ReportCount<K>(state: State<K>, majorsOf: MajorsOf<K>, moed: Moed, col: CollisionType,
                          m: MajorId, s: nat): nat
    requires s <= SemesterCount
    decreases SemesterCount - s
  {
    if s == SemesterCount then 0
    else
      |Reports(state, majorsOf, moed, col, OrderedPairs(state.keys), m, s)| + ReportCount(state, majorsOf, moed, col, m, s + 1)
  }

  /** Each count is the number of course pairs, over the eight semesters, that
      collide with its type on the same day. */
  lemma {:induction false} CollStatsCount<K>(state: State<K>, majorsOf: MajorsOf<K>, moed: Moed, col: CollisionType,
                                             m: MajorId, s: nat)
    requires Valid(state) && MajorsValid(state, majorsOf) && s <= SemesterCount
    ensures CountFrom(GetCollisions(state, majorsOf, moed, col), m, s) == ReportCount(state, majorsOf, moed, col, m, s)
    decreases SemesterCount - s
  {
    if s < SemesterCount {
      CollStatsCount(state, majorsOf, moed, col, m, s + 1);
    }
  }

  /** The courses of `keys` that the semester map gives type `t` and that
      the schedule has dates for. */
  function Typed(keys: seq<CourseNum>, types: map<CourseNum, CourseType>, t: CourseType,
                 state: State<CourseNum>): set<CourseNum> {
    set k | k in keys && k in types && types[k] == t && k in state.vals
  }

  /** The dates in period `moed` of the courses of type `t`, in key order; a
      course the schedule lacks is skipped. */
  function TypeDates(keys: seq<CourseNum>, types: map<CourseNum, CourseType>, t: CourseType,
                     state: State<CourseNum>, moed: Moed): seq<int>
    decreases |keys|
  {
    if keys == [] then []
    else
      var k := keys[0];
      var here := if k in types && types[k] == t && k in state.vals then [DateIn(state.vals[k], moed)] else [];
      here + TypeDates(keys[1..], types, t, state, moed)
  }

  /** Every typed course contributes its date. */
  lemma {:induction false} TypeDatesHas(keys: seq<CourseNum>, types: map<CourseNum, CourseType>, t: CourseType,
                                        state: State<CourseNum>, moed: Moed, c: CourseNum)
    requires c in Typed(keys, types, t, state)
    ensures DateIn(state.vals[c], moed) in TypeDates(keys, types, t, state, moed)
    decreases |keys|
  {
    if keys[0] != c {
      assert c in keys[1..] by {
        var n :| 0 <= n < |keys| && keys[n] == c;
        assert keys[1..][n - 1] == c;
      }
      TypeDatesHas(keys[1..], types, t, state, moed, c);
    }
  }

  /** Every date collected is the date of a typed course. */
  lemma {:induction false} TypeDatesFrom(keys: seq<CourseNum>, types: map<CourseNum, CourseType>, t: CourseType,
                                         state: State<CourseNum>, moed: Moed, d: int) returns (c: CourseNum)
    requires d in TypeDates(keys, types, t, state, moed)
    ensures c in Typed(keys, types, t, state) && DateIn(state.vals[c], moed) == d
    decreases |keys|
  {
    var k := keys[0];
    if k in types && types[k] == t && k in state.vals && DateIn(state.vals[k], moed) == d {
      c := k;
    } else {
      c := TypeDatesFrom(keys[1..], types, t, state, moed, d);
      assert c in keys;
    }
  }

  /** With no key repeated, one date per typed course. */
  lemma {:induction false} TypeDatesCount(keys: seq<CourseNum>, types: map<CourseNum, CourseType>, t: CourseType,
                                          state: State<CourseNum>, moed: Moed)
    requires Distinct(keys)
    ensures |TypeDates(keys, types, t, state, moed)| == |Typed(keys, types, t, state)|
    decreases |keys|
  {
    if keys != [] {
      var k := keys[0];
      var rest := keys[1..];
      assert k !in rest;
      assert Distinct(rest) by {
        forall i, j | 0 <= i < j < |rest| ensures rest[i] != rest[j] {
          assert rest[i] == keys[i + 1] && rest[j] == keys[j + 1];
        }
      }
      TypeDatesCount(rest, types, t, state, moed);
      TypedCons(keys, types, t, state);
      if k in types && types[k] == t && k in state.vals {
        assert k !in Typed(rest, types, t, state);
      }
    }
  }

  /** The typed courses of a list are those of its tail, plus its head when
      that is typed. */
  lemma TypedCons(keys: seq<CourseNum>, types: map<CourseNum, CourseType>, t: CourseType, state: State<CourseNum>)
    requires keys != []
    ensures var k := keys[0];
      Typed(keys, types, t, state) ==
      Typed(keys[1..], types, t, state) + (if k in types && types[k] == t && k in state.vals then {k} else {})
  {
    assert keys == [keys[0]] + keys[1..];
  }

  /** The dates collected are exactly the dates of the typed courses. */
  lemma TypeDatesMembers(keys: seq<CourseNum>, types: map<CourseNum, CourseType>, t: CourseType,
                         state: State<CourseNum>, moed: Moed, d: int)
    ensures d in TypeDates(keys, types, t, state, moed) <==>
      exists c :: c in Typed(keys, types, t, state) && DateIn(state.vals[c], moed) == d
  {
    if d in TypeDates(keys, types, t, state, moed) {
      var c := TypeDatesFrom(keys, types, t, state, moed, d);
    }
    if exists c :: c in Typed(keys, types, t, state) && DateIn(state.vals[c], moed) == d {
      var c :| c in Typed(keys, types, t, state) && DateIn(state.vals[c], moed) == d;
      TypeDatesHas(keys, types, t, state, moed, c);
    }
  }

  /** Sum of the differences between neighbouring elements. */
  function SumGaps(s: seq<int>): int
    decreases |s|
  {
    if |s| < 2 then 0 else SumGaps(s[..|s| - 1]) + (s[|s| - 1] - s[|s| - 2])
  }

  /** The gaps telescope: their sum is the distance from the first element to the last. */
  lemma {:induction false} SumGapsTelescopes(s: seq<int>)
    requires s != []
    ensures SumGaps(s) == s[|s| - 1] - s[0]
    decreases |s|
  {
    if |s| >= 2 {
      SumGapsTelescopes(s[..|s| - 1]);
    }
  }

  type Pos = n: int | 1 <= n witness 1

  /** An entry of `get_average_break`: 'inf', or the number of days
      `total / gaps`, kept as its exact numerator and denominator. */
  datatype Avg = Inf | Mean(total: int, gaps: Pos)

  /** The number of days an entry stands for. */
  function Days(a: Avg): real
    requires a.Mean?
  {
    a.total as real / a.gaps as real
  }

  /** The average gap between neighbours of a sorted sequence, or 'inf' for
      fewer than two elements. */
  function AverageGap(sorted: seq<int>): Avg {
    if |sorted| < 2 then Inf
    else Mean(SumGaps(sorted), |sorted| - 1)
  }

  /** The average gap between the dates once sorted. */
  function BreakOf(dates: seq<int>): Avg {
    AverageGap(SortInts(dates))
  }

  /** With at least two dates: positions of an earliest and a latest date,
      and the break is the span between them over the number of gaps. */
  lemma BreakOfSpanWitness(dates: seq<int>) returns (i: nat, j: nat)
    requires |dates| >= 2
    ensures i < |dates| && j < |dates|
    ensures forall x :: x in dates ==> dates[i] <= x <= dates[j]
    ensures BreakOf(dates) == Mean(dates[j] - dates[i], |dates| - 1)
  {
    var sorted := SortInts(dates);
    var n := |sorted|;
    SumGapsTelescopes(sorted);
    SortedEnds(sorted);
    assert sorted[0] in multiset(dates) && sorted[n - 1] in multiset(dates) by {
      assert sorted[0] in multiset(sorted) && sorted[n - 1] in multiset(sorted);
    }
    i :| i < |dates| && dates[i] == sorted[0];
    j :| j < |dates| && dates[j] == sorted[n - 1];
    forall x | x in dates ensures dates[i] <= x <= dates[j] {
      assert x in multiset(sorted);
    }
  }

  /** 'inf' exactly for fewer than two dates; otherwise a non-negative number:
      the span from the earliest date to the latest over the number of gaps. */
  lemma BreakOfSpan(dates: seq<int>)
    ensures BreakOf(dates).Inf? <==> |dates| < 2
    ensures BreakOf(dates).Mean? ==> BreakOf(dates).total >= 0
    ensures BreakOf(dates).Mean? ==>
      exists i, j :: 0 <= i < |dates| && 0 <= j < |dates| &&
        (forall x :: x in dates ==> dates[i] <= x <= dates[j]) &&
        BreakOf(dates) == Mean(dates[j] - dates[i], |dates| - 1)
  {
    if |dates| >= 2 {
      var i, j := BreakOfSpanWitness(dates);
      assert dates[j] in dates;
    }
  }

  /** `get_average_break`: per semester of the major, the average break
      between the exams of type `t` in period `moed`. */
  function GetAverageBreak(state: State<CourseNum>, major: Major, t: CourseType, moed: Moed): (r: seq<Avg>)
    requires MajorShape(major)
    ensures |r| == SemesterCount
  {
    seq(SemesterCount, (s: int) requires 0 <= s < SemesterCount =>
      BreakOf(TypeDates(SemCourses(major, s).keys, SemCourses(major, s).vals, t, state, moed)))
  }

  /** `r` is the break over the dated courses `typed`: 'inf' exactly when
      there are fewer than two; otherwise the span between the earliest and
      the latest of their dates over one less than their number. */
  predicate IsBreak(r: Avg, typed: set<CourseNum>, state: State<CourseNum>, moed: Moed) {
    && (forall c :: c in typed ==> c in state.vals)
    && (r.Inf? <==> |typed| < 2)
    && (r.Mean? ==>
          exists c1, c2 :: c1 in typed && c2 in typed &&
            (forall c :: c in typed ==> DateIn(state.vals[c1], moed) <= DateIn(state.vals[c], moed) <= DateIn(state.vals[c2], moed)) &&
            r == Mean(DateIn(state.vals[c2], moed) - DateIn(state.vals[c1], moed), |typed| - 1))
  }

  /** The break over the typed courses of a map with distinct keys is 'inf'
      exactly when fewer than two of them have dates. */
  lemma BreakOfTypedInf(keys: seq<CourseNum>, types: map<CourseNum, CourseType>, t: CourseType,
                        state: State<CourseNum>, moed: Moed)
    requires Distinct(keys)
    ensures BreakOf(TypeDates(keys, types, t, state, moed)).Inf? <==> |Typed(keys, types, t, state)| < 2
  {
    TypeDatesCount(keys, types, t, state, moed);
    BreakOfSpan(TypeDates(keys, types, t, state, moed));
  }

  /** Otherwise it is the span between the earliest and the latest of their
      dates over one less than their number. */
  lemma BreakOfTypedMean(keys: seq<CourseNum>, types: map<CourseNum, CourseType>, t: CourseType,
                         state: State<CourseNum>, moed: Moed)
      returns (c1: CourseNum, c2: CourseNum)
    requires Distinct(keys)
    requires BreakOf(TypeDates(keys, types, t, state, moed)).Mean?
    ensures var typed := Typed(keys, types, t, state);
      && c1 in typed && c2 in typed
      && (forall c :: c in typed ==> DateIn(state.vals[c1], moed) <= DateIn(state.vals[c], moed) <= DateIn(state.vals[c2], moed))
      && |typed| >= 2
      && BreakOf(TypeDates(keys, types, t, state, moed)) ==
         Mean(DateIn(state.vals[c2], moed) - DateIn(state.vals[c1], moed), |typed| - 1)
  {
    var dates := TypeDates(keys, types, t, state, moed);
    TypeDatesCount(keys, types, t, state, moed);
    BreakOfSpan(dates);
    var i, j := BreakOfSpanWitness(dates);
    c1 := TypeDatesFrom(keys, types, t, state, moed, dates[i]);
    c2 := TypeDatesFrom(keys, types, t, state, moed, dates[j]);
    forall c | c in Typed(keys, types, t, state)
      ensures DateIn(state.vals[c1], moed) <= DateIn(state.vals[c], moed) <= DateIn(state.vals[c2], moed)
    {
      TypeDatesHas(keys, types, t, state, moed, c);
    }
  }

  /** Together: the break over the typed courses is what `IsBreak` describes. */
  lemma BreakOfTyped(keys: seq<CourseNum>, types: map<CourseNum, CourseType>, t: CourseType,
                     state: State<CourseNum>, moed: Moed)
    requires Distinct(keys)
    ensures IsBreak(BreakOf(TypeDates(keys, types, t, state, moed)), Typed(keys, types, t, state), state, moed)
  {
    BreakOfTypedInf(keys, types, t, state, moed);
    if BreakOf(TypeDates(keys, types, t, state, moed)).Mean? {
      var c1, c2 := BreakOfTypedMean(keys, types, t, state, moed);
    }
  }

  /** Semester `s`'s entry of `get_average_break` is the break over the
      courses of type `t` that semester lists and the schedule dates. */
  lemma AverageBreakEntry(state: State<CourseNum>, major: Major, t: CourseType, moed: Moed, s: Semester)
    requires MajorWellFormed(major)
    ensures IsBreak(GetAverageBreak(state, major, t, moed)[s],
                    Typed(SemCourses(major, s).keys, SemCourses(major, s).vals, t, state), state, moed)
  {
    var sc := SemCourses(major, s);
    assert Valid(sc);
    BreakOfTyped(sc.keys, sc.vals, t, state, moed);
    assert GetAverageBreak(state, major, t, moed)[s] == BreakOf(TypeDates(sc.keys, sc.vals, t, state, moed));
  }

  /** The finite entries, as numbers of days, in order. */
  function Finite(lst: seq<Avg>): (r: seq<real>)
    ensures |r| <= |lst|
    decreases |lst|
  {
    if lst == [] then []
    else Finite(lst[..|lst| - 1]) + (if lst[|lst| - 1].Mean? then [Days(lst[|lst| - 1])] else [])
  }

  function Sum(xs: seq<real>): real
    decreases |xs|
  {
    if xs == [] then 0.0 else Sum(xs[..|xs| - 1]) + xs[|xs| - 1]
  }

  lemma FiniteStep(lst: seq<Avg>, k: nat)
    requires k < |lst|
    ensures Finite(lst[..k + 1]) == Finite(lst[..k]) + (if lst[k].Mean? then [Days(lst[k])] else [])
  {
    assert lst[..k + 1][..k] == lst[..k];
  }

  lemma SumSnoc(xs: seq<real>, x: real)
    ensures Sum(xs + [x]) == Sum(xs) + x
  {
    assert (xs + [x])[..|xs|] == xs;
  }

  /** `_get_average_without_inf`: the mean of the finite entries, 0 if none. */
  method AverageWithoutInf(lst: seq<Avg>) returns (r: real)
    ensures Finite(lst) == [] ==> r == 0.0
    ensures Finite(lst) != [] ==> r == Sum(Finite(lst)) / |Finite(lst)| as real
  {
    var counter: nat := 0;
    var sum: real := 0.0;
    var k := 0;
    while k < |lst|
      invariant 0 <= k <= |lst|
      invariant counter == |Finite(lst[..k])| && sum == Sum(Finite(lst[..k]))
    {
      FiniteStep(lst, k);
      if lst[k].Mean? {
        SumSnoc(Finite(lst[..k]), Days(lst[k]));
        counter := counter + 1;
        sum := sum + Days(lst[k]);
      } else {
        assert Finite(lst[..k + 1]) == Finite(lst[..k]) + [];
        assert Finite(lst[..k]) + [] == Finite(lst[..k]);
      }
      k := k + 1;
    }
    assert lst[..k] == lst;
    if counter > 0 {
      r := sum / counter as real;
    } else {
      r := 0.0;
    }
  }

  /** The finite entries are the days of exactly the entries that are not 'inf'. */
  lemma {:induction false} FiniteMembers(lst: seq<Avg>, x: real)
    ensures x in Finite(lst) <==> exists i :: 0 <= i < |lst| && lst[i].Mean? && Days(lst[i]) == x
    decreases |lst|
  {
    if lst != [] {
      var init := lst[..|lst| - 1];
      FiniteMembers(init, x);
      if exists i :: 0 <= i < |lst| && lst[i].Mean? && Days(lst[i]) == x {
        var i :| 0 <= i < |lst| && lst[i].Mean? && Days(lst[i]) == x;
        if i < |init| {
          assert init[i] == lst[i];
        }
      }
      if exists i :: 0 <= i < |init| && init[i].Mean? && Days(init[i]) == x {
        var i :| 0 <= i < |init| && init[i].Mean? && Days(init[i]) == x;
        assert lst[i] == init[i];
      }
    }
  }

  /** Bounds on every number bound the sum by the same multiple of the count. */
  lemma {:induction false} SumBounds(xs: seq<real>, lo: real, hi: real)
    requires forall x :: x in xs ==> lo <= x <= hi
    ensures lo * |xs| as real <= Sum(xs) <= hi * |xs| as real
    decreases |xs|
  {
    if xs != [] {
      var init := xs[..|xs| - 1];
      assert forall x :: x in init ==> x in xs;
      SumBounds(init, lo, hi);
      assert xs[|xs| - 1] in xs;
      MulStep(lo, |init|);
      MulStep(hi, |init|);
    }
  }

  lemma MulStep(x: real, c: int)
    ensures x * (c + 1) as real == x * c as real + x
  {
  }

  lemma DivBounds(a: real, n: real, lo: real, hi: real)
    requires n > 0.0 && lo * n <= a <= hi * n
    ensures lo <= a / n <= hi
  {
    var q := a / n;
    assert q * n == a;
    assert (q - lo) * n == a - lo * n;
    assert (hi - q) * n == hi * n - a;
  }

  lemma FiniteBounded(lst: seq<Avg>, lo: real, hi: real)
    requires forall i :: 0 <= i < |lst| && lst[i].Mean? ==> lo <= Days(lst[i]) <= hi
    ensures forall x :: x in Finite(lst) ==> lo <= x <= hi
  {
    forall x | x in Finite(lst) ensures lo <= x <= hi {
      FiniteMembers(lst, x);
    }
  }

  /** The mean of the finite entries lies within any bounds all of them respect. */
  lemma MeanBounds(lst: seq<Avg>, lo: real, hi: real)
    requires forall i :: 0 <= i < |lst| && lst[i].Mean? ==> lo <= Days(lst[i]) <= hi
    requires Finite(lst) != []
    ensures lo <= Sum(Finite(lst)) / |Finite(lst)| as real <= hi
  {
    FiniteBounded(lst, lo, hi);
    MeanOfBounded(Finite(lst), lo, hi);
  }

  lemma MeanOfBounded(xs: seq<real>, lo: real, hi: real)
    requires xs != [] && forall x :: x in xs ==> lo <= x <= hi
    ensures lo <= Sum(xs) / |xs| as real <= hi
  {
    SumBounds(xs, lo, hi);
    DivBounds(Sum(xs), |xs| as real, lo, hi);
  }
}

=== FILE: text.dfy ===
/** String operations the scheduler relies on, with Python's semantics:
    `str.split(', ')`, `re.split` on a character class, `str` ordering,
    slicing a prefix and `int()` on a digit string. */
module Text {
  import opened Wrappers

  /** The separator between course numbers in one cell of the major table. */
  const Sep: string := ", "

  predicate StartsWithSep(s: string) {
    |s| >= 2 && s[0] == ',' && s[1] == ' '
  }

  /** True when `sep` occurs somewhere inside `s`. */
  predicate ContainsSep(s: string) {
    exists i :: 0 <= i < |s| - 1 && s[i] == ',' && s[i + 1] == ' '
  }

  predicate IsPrefix(p: string, s: string) {
    |p| <= |s| && p == s[..|p|]
  }

  /** `s.split(', ')`: cuts at each leftmost, non-overlapping occurrence of the
      separator; the empty string gives one empty piece. */
  function Split(s: string): (r: seq<string>)
    ensures |r| >= 1
    ensures IsPrefix(r[0], s)
    decreases |s|
  {
    if |s| < 2 then [s]
    else if StartsWithSep(s) then [""] + Split(s[2..])
    else
      var rest := Split(s[1..]);
      [[s[0]] + rest[0]] + rest[1..]
  }

  /** `', '.join(pieces)`. */
  function Join(pieces: seq<string>): string
    requires |pieces| >= 1
  {
    pieces[0] + JoinRest(pieces[1..])
  }

  /** The separator-led text that `', '.join` writes after the first piece. */
  function JoinRest(pieces: seq<string>): string
  {
    if pieces == [] then "" else Sep + pieces[0] + JoinRest(pieces[1..])
  }

  lemma JoinAfterSep(s: string, r: seq<string>)
    requires |r| >= 1 && Join(r) == s
    ensures Join([""] + r) == Sep + s
  {
    var q := [""] + r;
    assert q[0] == "" && q[1..] == r;
  }

  lemma JoinAfterChar(c: char, s: string, rest: seq<string>)
    requires |rest| >= 1 && Join(rest) == s
    ensures Join([[c] + rest[0]] + rest[1..]) == [c] + s
  {
    var q := [[c] + rest[0]] + rest[1..];
    assert q[0] == [c] + rest[0] && q[1..] == rest[1..];
  }

  /** Joining the pieces of a split gives back the original cell. */
  lemma {:induction false} JoinSplit(s: string)
    ensures Join(Split(s)) == s
    decreases |s|
  {
    if |s| < 2 {
      assert Split(s)[1..] == [];
    } else if StartsWithSep(s) {
      JoinSplit(s[2..]);
      JoinAfterSep(s[2..], Split(s[2..]));
      assert s == Sep + s[2..];
    } else {
      JoinSplit(s[1..]);
      JoinAfterChar(s[0], s[1..], Split(s[1..]));
      assert s == [s[0]] + s[1..];
    }
  }

  /** No piece of a split still holds the separator. */
  lemma {:induction false} SplitPiecesHaveNoSep(s: string)
    ensures forall i :: 0 <= i < |Split(s)| ==> !ContainsSep(Split(s)[i])
    decreases |s|
  {
    if |s| < 2 {
    } else if StartsWithSep(s) {
      SplitPiecesHaveNoSep(s[2..]);
      var r := Split(s[2..]);
      assert Split(s) == [""] + r;
    } else {
      SplitPiecesHaveNoSep(s[1..]);
      var rest := Split(s[1..]);
      var head := [s[0]] + rest[0];
      if ContainsSep(head) {
        var i :| 0 <= i < |head| - 1 && head[i] == ',' && head[i + 1] == ' ';
        if i > 0 {
          assert rest[0][i - 1] == ',' && rest[0][i] == ' ';
          assert ContainsSep(rest[0]);
        }
      }
      assert Split(s) == [head] + rest[1..];
    }
  }

  /** Python's `''.split(', ')` is `['']`, and only the empty cell splits that way. */
  lemma SplitIsEmptyPiece(s: string)
    ensures Split(s) == [""] <==> s == ""
  {
    JoinSplit(s);
  }

  /** Number of characters of `s` that belong to `seps`. */
  function CountOf(s: string, seps: set<char>): nat
  {
    if s == [] then 0 else (if s[0] in seps then 1 else 0) + CountOf(s[1..], seps)
  }

  predicate NoneOf(s: string, seps: set<char>) {
    forall i :: 0 <= i < |s| ==> s[i] !in seps
  }

  /** `re.split('[...]', s)` for a character class: every separator character
      cuts, so two adjacent separators leave an empty piece between them. */
  function SplitAny(s: string, seps: set<char>): (r: seq<string>)
    ensures |r| == 1 + CountOf(s, seps)
    ensures forall i :: 0 <= i < |r| ==> NoneOf(r[i], seps)
    decreases |s|
  {
    if s == [] then [""]
    else if s[0] in seps then [""] + SplitAny(s[1..], seps)
    else
      var rest := SplitAny(s[1..], seps);
      [[s[0]] + rest[0]] + rest[1..]
  }

  /** A piece without separators splits to itself. */
  lemma {:induction false} SplitAnyNone(a: string, seps: set<char>)
    requires NoneOf(a, seps)
    ensures SplitAny(a, seps) == [a]
    decreases |a|
  {
    if a != [] {
      SplitAnyNone(a[1..], seps);
      assert a == [a[0]] + a[1..];
    }
  }

  /** A separator-free piece followed by a separator is the first piece. */
  lemma {:induction false} SplitAnyCons(a: string, c: char, t: string, seps: set<char>)
    requires NoneOf(a, seps) && c in seps
    ensures SplitAny(a + [c] + t, seps) == [a] + SplitAny(t, seps)
    decreases |a|
  {
    if a == [] {
      assert a + [c] + t == [c] + t;
      assert ([c] + t)[1..] == t;
    } else {
      SplitAnyCons(a[1..], c, t, seps);
      assert (a + [c] + t)[1..] == a[1..] + [c] + t;
      assert a == [a[0]] + a[1..];
    }
  }

  /** Python `a < b` on strings: lexicographic by code point, a proper prefix first. */
  predicate Less(a: string, b: string)
    decreases |a|
  {
    if |a| == 0 then |b| > 0
    else if |b| == 0 then false
    else if a[0] != b[0] then a[0] < b[0]
    else Less(a[1..], b[1..])
  }

  /** Exactly one of `a < b`, `a == b`, `a > b` holds. */
  lemma {:induction false} LessTrichotomy(a: string, b: string)
    ensures Less(a, b) || a == b || Less(b, a)
    ensures !(Less(a, b) && a == b) && !(Less(b, a) && a == b) && !(Less(a, b) && Less(b, a))
    decreases |a|
  {
    if |a| > 0 && |b| > 0 && a[0] == b[0] {
      LessTrichotomy(a[1..], b[1..]);
      assert a == [a[0]] + a[1..] && b == [b[0]] + b[1..];
      if a[1..] == b[1..] {
        assert a == b;
      }
    }
  }

  lemma {:induction false} LessTransitive(a: string, b: string, c: string)
    requires Less(a, b) && Less(b, c)
    ensures Less(a, c)
    decreases |a|
  {
    if |a| > 0 && a[0] == b[0] && b[0] == c[0] {
      LessTransitive(a[1..], b[1..], c[1..]);
    }
  }

  /** `s[0:n]`: a slice past the end stops at the end. */
  function Take(s: string, n: nat): (r: string)
    ensures |r| == if |s| <= n then |s| else n
    ensures IsPrefix(r, s)
  {
    if |s| <= n then s else s[..n]
  }

  predicate IsDigit(c: char) {
    '0' <= c <= '9'
  }

  predicate AllDigits(s: string) {
    forall i :: 0 <= i < |s| ==> IsDigit(s[i])
  }

  function DigitsValue(s: string): nat
    requires AllDigits(s)
    decreases |s|
  {
    if s == [] then 0
    else 10 * DigitsValue(s[..|s| - 1]) + ((s[|s| - 1] as int) - ('0' as int))
  }

  /** `int(s)` on a plain digit string; any other text raises ValueError. */
  function ParseInt(s: string): (r: Option<nat>)
    ensures r.Some? <==> s != "" && AllDigits(s)
  {
    if s != "" && AllDigits(s) then Some(DigitsValue(s)) else None
  }

  function DigitChar(d: nat): (c: char)
    requires d < 10
    ensures IsDigit(c) && (c as int) - ('0' as int) == d
  {
    ('0' as int + d) as char
  }

  /** Decimal text of a natural number without leading zeros, `str(n)`. */
  function FormatInt(n: nat): (s: string)
    ensures s != "" && AllDigits(s)
    decreases n
  {
    if n < 10 then [DigitChar(n)] else FormatInt(n / 10) + [DigitChar(n % 10)]
  }

  /** `int(str(n)) == n`. */
  lemma {:induction false} ParseFormat(n: nat)
    ensures ParseInt(FormatInt(n)) == Some(n)
    decreases n
  {
    var s := FormatInt(n);
    if n < 10 {
      assert s[..|s| - 1] == [];
      assert DigitsValue(s) == 10 * DigitsValue([]) + n;
    } else {
      ParseFormat(n / 10);
      assert s[..|s| - 1] == FormatInt(n / 10);
    }
  }

  /** The number of characters of `str(n)` for the ranges the date parser tests. */
  lemma FormatLength(n: nat)
    ensures n < 10 ==> |FormatInt(n)| == 1
    ensures 10 <= n < 100 ==> |FormatInt(n)| == 2
    ensures 100 <= n < 1000 ==> |FormatInt(n)| == 3
    ensures 1000 <= n < 10000 ==> |FormatInt(n)| == 4
  {
    if n >= 10 {
      FormatLength(n / 10);
    }
  }
}

=== FILE: wrappers.dfy ===
/** Optional values and error-carrying results, used wherever the Python code
    returns None or raises. */
module Wrappers {

  datatype Option<+T> = None | Some(value: T)

  datatype Result<+R, +E> = Ok(value: R) | Err(error: E)
}
